=== FILE: README.md ===
# ENT report station — a Dafny model of its capture and report core

ENTReportProAI is a browser application for ear-nose-throat endoscopy. A
capture station shows the endoscope's video. It detects the lit scope area
and puts a crop mask around it. It takes single photos or timed bursts of
frames into a session folder, and it lays burst frames out as a mosaic or a
kymogram. A report editor then arranges the captured images. It links a
YouTube video through a QR code and keeps a few user-maintained lists. A
settings dialog cleans a signature image and edits the patient fields and
shortcut keys.

This project models the logic of those pieces as pure Dafny functions,
small event-driven state machines and one imperative scan. Each module
follows one part of the program:

| module | file | models |
|---|---|---|
| `Wrappers` | wrappers.dfy | `Option` and `Result` |
| `Text` | text.dfy | character classes, JavaScript `trim`, `padStart`, decimal digits, the `/[^a-z0-9]/gi` sanitiser, ASCII case mapping, scalar-value string order |
| `Naming` | naming.dfy | `generateFilename`, burst frame names `IMG_dddd.ext`, burst folder names |
| `Detection` | detection.dfy | `detectScopeArea`: the strided brightness scan, padding, acceptance and the shape decision |
| `Mask` | mask.dfy | the crop mask: initial state, toggles, move and resize by mouse; the mosaic editor's pan handlers |
| `Burst` | burst.dfy | the burst sampler (`startBurst`, the animation-frame loop, the burst save in `captureFrame`, `stopBurst`) as written, and a corrected sampler |
| `PhotoKey` | photokey.dfy | `handlePhotoAction` and the start of `startBurst`: press, the permission check, the 1000 ms hold timer, the `isBursting` test, the burst start, release, with each `await` a point where a release or another start can intervene, and the count of live animation-frame loops |
| `Mosaic` | mosaic.dfy | `generateMosaicBatch`: the file filter, the name sort, the preview image, the canvas and tile layout |
| `App` | app.dfy | the image-list and burst-history handlers of `App.tsx`, the session folder name, the props passed to the capture station |
| `Lists` | lists.dfy | add-trimmed-if-new and remove-all, shared by equipment and custom fields |
| `Report` | report.dfy | `ReportEditor`: the regular/mosaic partition, enhance and undo, the resize clamp, equipment, new exam keys, dictation, the grid class |
| `YouTube` | youtube.dfy | `getYouTubeId` (the regular expression, decided by hand) and the QR payload |
| `Settings` | settings.dfy | `SettingsModal`: the signature pixel loop, custom fields, visible-field switches, shortcut capture |

Clocks, dates, random ids, the outcome of each file save, folder creation
and permission checks are parameters. So are the user's answer to a confirm
dialog and the URL the image-enhancement service returns. The camera, the
canvas drawing, the file system, speech recognition and the AI service are
not modelled. The burst and gesture state that the source keeps in React
refs is an immutable record here. Each handler is a function from the old
record to the new one.

Where the source's comment and its code disagree, the model follows the
code. The signature loop treats a channel as white above 230, as the test at
components/SettingsModal.tsx:94 does; the comment two lines above it says 240.

## Model

| member | source | states |
|---|---|---|
| `Text.Sanitize` | components/CaptureStation.tsx:241 | the result has the input's length; letters and digits stay, every other character becomes `_` |
| `Text.SanitizeOnlyNameChars` | components/CaptureStation.tsx:241 | a sanitised name holds only `[A-Za-z0-9_]` |
| `Text.SanitizeIdempotent` | components/CaptureStation.tsx:241 | sanitising twice is sanitising once |
| `Text.SanitizeKeepsAlnum` | components/CaptureStation.tsx:241 | a purely alphanumeric name passes through unchanged |
| `Text.Trim` | App.tsx:157 | the result is the input without its leading and trailing JavaScript white space, and neither end of a non-empty result is white space |
| `Text.TrimEmptyIff` | components/ReportEditor.tsx:102 | a string trims to empty exactly when all of it is white space, which is the "name required" test |
| `Text.TrimIdempotent` | App.tsx:157 | trimming a trimmed string changes nothing |
| `Text.PadStart` | components/CaptureStation.tsx:244 | `padStart`: the result is at least the width, ends with the input and is filled in front with the pad character |
| `Text.NatToDecimal` | components/CaptureStation.tsx:244 | `toString()` of a number gives digits with no leading zero except for 0 itself |
| `Text.DecimalRoundTrip` | components/CaptureStation.tsx:244 | reading back the decimal digits of n gives n |
| `Text.ZeroPadRoundTrip` | components/CaptureStation.tsx:244 | a zero-padded index still reads back as the index |
| `Text.ZeroPadWidth` | components/CaptureStation.tsx:244 | padding to width w gives exactly w digits when the number has at most w digits |
| `Text.ToLower` | components/ReportEditor.tsx:102 | `toLowerCase` keeps the length, moves each upper-case ASCII letter 32 code points up to its lower-case partner and keeps every other character |
| `Text.ToLowerHasNoUpper` | components/ReportEditor.tsx:102 | a lower-cased string holds no upper-case ASCII letter |
| `Text.ToLowerAfterToUpper` | components/ReportEditor.tsx:102 | lower-casing after upper-casing is lower-casing alone |
| `Text.ToUpper` | components/SettingsModal.tsx:67 | `toUpperCase` keeps the length, moves each lower-case ASCII letter 32 code points down to its upper-case partner and keeps every other character |
| `Text.ToUpperHasNoLower` | components/SettingsModal.tsx:67 | an upper-cased string holds no lower-case ASCII letter |
| `Text.ToUpperAfterToLower` | components/SettingsModal.tsx:67 | upper-casing after lower-casing is upper-casing alone |
| `Text.LexLeTotal` | components/CaptureStation.tsx:850 | any two file names are ordered one way or the other |
| `Text.LexLeTransitive` | components/CaptureStation.tsx:850 | the name order is transitive |
| `Text.LexLeAntisymmetric` | components/CaptureStation.tsx:850 | two names ordered both ways are equal |
| `Naming.SafeName` | components/CaptureStation.tsx:241 | an empty patient name becomes `SemPaciente`; any other name keeps its length with every non-alphanumeric character replaced by `_`; the result is never empty |
| `Naming.DefaultPatientClean` | components/CaptureStation.tsx:241 | the fallback name `SemPaciente` is already clean |
| `Naming.IsoDate` | components/CaptureStation.tsx:240 | the date part is `YYYY-MM-DD`: ten characters, dashes at 4 and 7, and the three digit groups read back as year, month and day |
| `Naming.CompactTime` | components/CaptureStation.tsx:242 | the time part is six digits whose pairs read back as hours, minutes and seconds |
| `Naming.FrameName` | components/CaptureStation.tsx:243-245 | a burst frame name is `IMG_`, the index in at least four digits, `.` and the extension; below 10000 it is exactly four digits |
| `Naming.FrameNameShape` | components/CaptureStation.tsx:244 | below 10000 the name is `IMG_` + the index zero-padded to 4 + `.` + the extension |
| `Naming.DatedFilename` | components/CaptureStation.tsx:246 | a dated name is the ISO date, the safe patient name, the type tag and the six-digit time joined by underscores, then `.` and the extension; the part before the dot holds only path-safe characters |
| `Naming.JoinedByUnique` | components/CaptureStation.tsx:246 | the four parts and the underscores between them determine the name: no other string has the same layout |
| `Naming.GenerateFilename` | components/CaptureStation.tsx:239-247 | a burst frame with an index gets a frame name; every other call gets the dated name |
| `Naming.BurstFolderName` | components/CaptureStation.tsx:470 | the burst folder name is the ISO date, the safe patient name, `BURST` and the six-digit time joined by underscores, made of path-safe characters only |
| `Naming.BurstFolderMatchesFilename` | components/CaptureStation.tsx:470 | the folder name is exactly the unnumbered `BURST` file name without its extension |
| `Naming.FrameNameRoundTrip` | components/CaptureStation.tsx:243-245 | the index can be read back from the frame name |
| `Naming.FrameNameInjective` | components/CaptureStation.tsx:243-245 | two indices give the same frame name only when they are equal |
| `Naming.FrameNameOrder` | components/CaptureStation.tsx:850 | for indices below 10000, sorting frame names by code units orders them by index |
| `Naming.LexLeDigitsNumeric` | components/CaptureStation.tsx:850 | equal-length digit strings compare by code units as their numbers compare |
| `Naming.IsoDatePortable` | components/CaptureStation.tsx:240 | the ISO date holds only path-safe characters |
| `Detection.Include` | components/CaptureStation.tsx:309-312 | the four comparisons grow the box just enough to cover the pixel |
| `Detection.ScanBounds` | components/CaptureStation.tsx:304-315 | the nested stride-4 loops compute the functional scan `Scan` |
| `Detection.ScanIsBoundingBox` | components/CaptureStation.tsx:300-315 | the scanned box covers every lit sampled pixel; it stays at the start box (minX = w, maxX = 0) exactly when the frame is dark, and otherwise every edge is attained by a lit pixel |
| `Detection.Pad` | components/CaptureStation.tsx:317-322 | padding by 20 and clamping keeps the box inside the frame and strictly grows each far edge that was inside |
| `Detection.RoundRatioExact` | components/CaptureStation.tsx:328-330 | the ratio test 0.8 < w/h < 1.2 holds exactly when 4h < 5w < 6h |
| `Detection.DetectScopeArea` | components/CaptureStation.tsx:283-345 | a box larger than 50 in both sides becomes the mask: at the box position, active, circular exactly for the round ratio, inside the frame; any other result, and a frame of width 0, keep the mask |
| `Detection.DarkFrameKeepsMask` | components/CaptureStation.tsx:324-344 | an all-dark frame never changes the mask |
| `Detection.DetectedMaskCoversLit` | components/CaptureStation.tsx:304-340 | when the mask is replaced, it covers every lit sampled pixel |
| `Detection.DetectIdempotent` | components/CaptureStation.tsx:283-345 | detecting twice on the same frame gives the same mask as once |
| `Mask.InitialMask` | components/CaptureStation.tsx:80-87 | the mask starts as the circle at (100, 100) of size 400 × 400, active as the auto-crop setting says |
| `Mask.SyncAutoCrop` | components/CaptureStation.tsx:138-140 | a change of the setting sets `active` and nothing else |
| `Mask.ToggleActive` | components/CaptureStation.tsx:1044 | the button flips `active` and nothing else |
| `Mask.ToggleShape` | components/CaptureStation.tsx:1054 | the button swaps circle and rectangle and nothing else |
| `Mask.ToggleShapeInvolution` | components/CaptureStation.tsx:1054 | two presses restore the shape |
| `Mask.ToggleActiveInvolution` | components/CaptureStation.tsx:1044 | two presses restore `active` |
| `Mask.MaskMouseDown` | components/CaptureStation.tsx:740-746 | pressing sets exactly one of move and resize, the one for the handle pressed, and records the pointer |
| `Mask.MaskMouseUp` | components/CaptureStation.tsx:779-782 | releasing clears both flags |
| `Mask.ScaleX` | components/CaptureStation.tsx:753-758 | a display delta is rescaled by videoWidth / rect.width |
| `Mask.ClampMove` | components/CaptureStation.tsx:763-764 | the clamp keeps the position in [0, limit − size] when the mask fits, leaves an in-range move alone, and gives the negative limit − size when it does not fit |
| `Mask.MaskMouseMove` | components/CaptureStation.tsx:748-777 | with no video, an inactive mask or no drag, nothing changes; a move shifts only x and y by the clamped delta; a resize grows only the size with a floor of 50; the flags stay exclusive and the anchor moves to the pointer |
| `Mask.MoveKeepsMaskInside` | components/CaptureStation.tsx:760-765 | moving a mask that fits the video keeps it inside the frame |
| `Mask.MoveOfWideMaskGoesNegative` | components/CaptureStation.tsx:763 | moving a mask wider than the video puts x below 0, as the code does |
| `Mask.ResizeCanLeaveFrame` | components/CaptureStation.tsx:766-771 | a resize is not clamped to the frame: a mask inside a 640 × 480 video can be dragged out of it |
| `Mask.ScaleAdditive` | components/CaptureStation.tsx:753-758 | the display-to-video scaling is linear, so the scaled deltas of two moves add up to the scaled delta of both |
| `Mask.ResizeTelescopes` | components/CaptureStation.tsx:753-776 | while no move reaches the 50-pixel floor, a run of resize moves grows the mask by exactly the scaled pointer travel since the pointer went down, at any display scale, and leaves its position alone |
| `Mask.InitialEditorInRange` | components/CaptureStation.tsx:108-118 | the initial mosaic editor state is within the slider ranges |
| `Mask.PanMouseDown` | components/CaptureStation.tsx:785-789 | pressing starts a pan at the pointer |
| `Mask.PanMouseUp` | components/CaptureStation.tsx:804-806 | releasing ends the pan |
| `Mask.PanMouseMove` | components/CaptureStation.tsx:791-802 | while panning, the pan offset moves by the pointer delta and nothing else changes; otherwise the move is ignored |
| `Mask.PanTelescopes` | components/CaptureStation.tsx:791-802 | a run of pan moves adds up to the total pointer travel and leaves the other settings alone |
| `Burst.Interval` | components/CaptureStation.tsx:489 | the sampling interval 1000 / burstSpeed is positive |
| `Burst.IntervalPerSecond` | components/CaptureStation.tsx:489 | burstSpeed intervals make one second |
| `Burst.FasterIsDenser` | components/CaptureStation.tsx:489 | a higher speed gives a shorter interval |
| `Burst.HourMinute` | components/CaptureStation.tsx:511 | the session time is `HH:MM` whose digits read back as the hour and minute |
| `Burst.StartBurst` | components/CaptureStation.tsx:456-486 | a running burst ignores the call; a missing directory or permission changes nothing; a folder error closes the folder; success opens the folder, names it and resets count, frame and last time to 0 |
| `Burst.Tick` | components/CaptureStation.tsx:488-497 | a tick that is due (running, and at least one interval after the last sample) numbers the next frame, records its time and, when a folder is held, queues one save; any other tick changes nothing |
| `Burst.CaptureSaved` | components/CaptureStation.tsx:374-386 | a finished save of a burst frame counts only when the folder is open and the save succeeded, under the frame number current when it finishes |
| `Burst.StopBurst` | components/CaptureStation.tsx:500-519 | stopping always ends the burst and closes the folder; it reports a session with the folder name and count exactly when the count is positive |
| `Burst.StepKeepsCountInvariant` | components/CaptureStation.tsx:383-385 | every event keeps the count plus the pending saves within the frame index, provided a burst is started with no save pending |
| `Burst.CountBoundedByFrame` | components/CaptureStation.tsx:383-385 | under that invariant the count never exceeds the frame index |
| `Burst.Ticks` | components/CaptureStation.tsx:488-497 | a run of ticks never changes running, folder or count, and never lowers the frame index |
| `Burst.TicksNumberSamples` | components/CaptureStation.tsx:488-497 | after a run of ticks the frame index has grown by exactly the number of samples, and the last time is the last sample's |
| `Burst.SampleTimesSpaced` | components/CaptureStation.tsx:490-494 | no two samples are closer than the interval, and neither is the first to the previous sample |
| `Burst.NameRaceOverwrites` | components/CaptureStation.tsx:376-378 | two samples before the first save finishes are both written under `IMG_0002.jpg` |
| `Burst.StaleCaptureCountsInNextBurst` | components/CaptureStation.tsx:383-385 | a save of the previous burst that finishes after a new burst starts is counted in the new burst |
| `Burst.SavedNames` | components/CaptureStation.tsx:376-378 | the corrected sampler writes frame k under the name of its own index |
| `Burst.SnapshotStart` | components/CaptureStation.tsx:456-486 | the corrected start behaves as the original and begins a new burst generation |
| `Burst.SnapshotTick` | components/CaptureStation.tsx:488-497 | a due tick of the corrected sampler advances the frame index and queues it with the burst generation when a folder is open, and only advances it when none is; a tick that is not due changes nothing |
| `Burst.SnapshotSaved` | components/CaptureStation.tsx:374-386 | the corrected save records its frame only when it belongs to the current burst and succeeded |
| `Burst.SnapshotStop` | components/CaptureStation.tsx:500-519 | the corrected stop reports a session exactly when a frame was saved, with that count |
| `Burst.SnapshotStepKeepsInvariant` | components/CaptureStation.tsx:456-519 | every event keeps the saved indices strictly increasing and within the frames taken |
| `Burst.SnapshotCountBounded` | components/CaptureStation.tsx:383-385 | in the corrected sampler the count never exceeds the frame index |
| `Burst.SnapshotNamesDistinct` | components/CaptureStation.tsx:376-378 | in the corrected sampler no two saved frames share a name |
| `Burst.SnapshotRaceKeepsBothFrames` | components/CaptureStation.tsx:376-378 | the race of the first finding saves `IMG_0001.jpg` and `IMG_0002.jpg` in the corrected sampler |
| `Burst.TwoSamplesPending` | components/CaptureStation.tsx:488-497 | two due ticks queue frames 1 and 2 in order |
| `Burst.TwoSavesInOrder` | components/CaptureStation.tsx:374-386 | two successful saves record their two indices in order |
| `PhotoKey.PhotoDown` | components/CaptureStation.tsx:633-641 | a press does nothing while the timer reference is set; otherwise it suspends in the permission check when a folder is chosen and arms the timer at once when none is; the burst and its loops are untouched |
| `PhotoKey.PermissionResolved` | components/CaptureStation.tsx:635-640 | the resumed key-down handler arms the timer whether or not the key is still held; a timer still ticking in the reference is orphaned |
| `PhotoKey.Called` | components/CaptureStation.tsx:456-457 | a call of `startBurst` returns at once while a burst is marked as running and otherwise suspends, changing nothing else |
| `PhotoKey.TimerFires` | components/CaptureStation.tsx:638-640 | the timer fires and calls `startBurst`, which suspends exactly when no burst is marked as running; the timer reference stays set |
| `PhotoKey.StrayTimerFires` | components/CaptureStation.tsx:638-640 | an orphaned timer that no release can clear still calls `startBurst`, with the same test |
| `PhotoKey.Reopened` | components/CaptureStation.tsx:472-497 | on an idle sampler the resumed start is the sampler's own start; a created folder resets the counters even when a burst already runs; otherwise whether a burst runs, its count and its frame are kept |
| `PhotoKey.StartResolved` | components/CaptureStation.tsx:456-497 | the resumed `startBurst` starts the burst on the folder named for the date, time and patient whether or not the key is still held, and a created folder adds one more animation-frame loop to those already live |
| `PhotoKey.PhotoUp` | components/CaptureStation.tsx:642-652 | a release clears the timer in the reference but not suspended handlers, starts or orphaned timers; it stops a running burst, cancelling one loop and reporting a session exactly when frames were saved, and otherwise takes one single photo |
| `PhotoKey.LoopsRun` | components/CaptureStation.tsx:488-497 | at an animation frame, no live loop leaves the sampler alone; any live loop sets the handle reference again and takes one sample exactly when the interval has passed |
| `PhotoKey.KeyStep` | components/CaptureStation.tsx:632-653 | a release always leaves the handle reference cleared and cancels exactly one loop of a running burst; only a release, a resumed start and an animation frame change whether a burst runs, and a frame makes it run exactly when a loop is live; only a release has a visible effect |
| `PhotoKey.KeyRepeatIgnored` | components/CaptureStation.tsx:634 | once the timer reference is set, a further press changes nothing more |
| `PhotoKey.ShortPressTakesOnePhoto` | components/CaptureStation.tsx:632-653 | press and release before the timer fires take exactly one photo; without a folder nothing stays scheduled, with one the permission check is still pending |
| `PhotoKey.HeldPressArmsTimer` | components/CaptureStation.tsx:633-640 | a press, with the permission check resolved when a folder is chosen, leaves exactly the key held and the timer armed and ticking |
| `PhotoKey.ReleaseEndsSoleLoop` | components/CaptureStation.tsx:500-519 | releasing the key while one loop runs stops the burst and returns the key state to idle |
| `PhotoKey.LongPressStartsAndStopsBurst` | components/CaptureStation.tsx:632-653 | a press held through the permission check, the timer and the folder creation runs one loop, and the release stops it and leaves nothing scheduled |
| `PhotoKey.FailedBurstFallsBackToPhoto` | components/CaptureStation.tsx:642-652 | when the burst could not start, the release takes a single photo |
| `PhotoKey.ReleaseDuringPermissionStartsBurst` | components/CaptureStation.tsx:634-640 | a release during the permission check takes a photo, and the timer armed afterwards still starts a burst with the key up |
| `PhotoKey.ReleaseDuringStartStartsBurst` | components/CaptureStation.tsx:456-497 | a release after the timer fired but before `startBurst` resumed takes a photo, and the burst then starts with the key up |
| `PhotoKey.KeyStepBreaksTied` | components/CaptureStation.tsx:456-497 | one step of the handler as written starts a burst while the key is up |
| `PhotoKey.RepressQueuesTwoStarts` | components/CaptureStation.tsx:633-652 | press, release and press again while the permission check is pending: one photo, then the two resolved checks leave an orphaned timer, and both timers pass the `isBursting` test |
| `PhotoKey.CreatedStartResets` | components/CaptureStation.tsx:472-497 | a resumed start that creates its folder adds a loop and resets frame, time and count, whether or not a burst already runs |
| `PhotoKey.DoubleStartOutlivesRelease` | components/CaptureStation.tsx:456-519 | two passed starts run two loops; the release cancels one, the other samples on at the next due frame, and the next short press stops a burst instead of taking a photo |
| `PhotoKey.GuardedPermissionResolved` | components/CaptureStation.tsx:635-640 | the corrected key-down handler arms the timer after the check only if the key is still held |
| `PhotoKey.GuardedStartResolved` | components/CaptureStation.tsx:456-497 | the corrected `startBurst` starts the burst only if the key is still held and no burst started meanwhile, and leaves the sampler alone otherwise |
| `PhotoKey.GuardedStep` | components/CaptureStation.tsx:632-653 | in the corrected handler a loop is added only on a resumed start while the key is held and no burst runs; every event other than the two resumptions behaves as written |
| `PhotoKey.GuardedStepKeepsTied` | components/CaptureStation.tsx:632-653 | every event of the corrected handler keeps at most one loop, tied to the burst flag, the handle reference and a held key |
| `PhotoKey.GuardedRunKeepsTied` | components/CaptureStation.tsx:632-653 | in the corrected handler, whatever the order of presses, releases, resumptions and frames, at most one loop lives and none once the key is up |
| `PhotoKey.GuardedReleaseDuringPermission` | components/CaptureStation.tsx:634-640 | in the corrected handler, a release during the permission check leaves no timer armed |
| `PhotoKey.GuardedReleaseDuringStart` | components/CaptureStation.tsx:456-497 | in the corrected handler, a release before `startBurst` resumes leaves the sampler idle |
| `PhotoKey.GuardedSecondStartGivesUp` | components/CaptureStation.tsx:456-497 | in the corrected handler, of two passed starts the second gives up once the first has started the burst |
| `Mosaic.ImageNames` | components/CaptureStation.tsx:845-849 | an empty folder gives no names; the files taken are exactly the entries that are files ending in `.jpg`, `.jpeg` or `.png` in any case |
| `Mosaic.ImageNamesAppend` | components/CaptureStation.tsx:845-849 | walking one more entry pushes its name exactly when it is such a file: one name per image entry, in directory order |
| `Mosaic.Preview` | components/CaptureStation.tsx:718-733 | the preview is the first image in directory order, present exactly when there is one |
| `Mosaic.Insert` | components/CaptureStation.tsx:850 | inserting into a sorted list keeps it sorted and adds exactly the new name |
| `Mosaic.SortNames` | components/CaptureStation.tsx:850 | the sort returns a sorted permutation of the names |
| `Mosaic.SortedUnique` | components/CaptureStation.tsx:850 | two sorted lists with the same names are equal, so the order depends only on the set of names |
| `Mosaic.SortIdempotent` | components/CaptureStation.tsx:850 | sorting sorted names changes nothing |
| `Mosaic.CeilDiv` | components/CaptureStation.tsx:854 | the row count is the least number of full rows that hold every frame |
| `Mosaic.GridColumns` | components/CaptureStation.tsx:853 | a grid has between 1 and N columns |
| `Mosaic.Compose` | components/CaptureStation.tsx:836-931 | no preview or no image is an error; a preview and at least one image always succeed, laying out the frames in sorted order as a kymogram in kymogram mode and as a grid otherwise |
| `Mosaic.GridOf` | components/CaptureStation.tsx:905-911 | a grid has one tile per frame in the given order |
| `Mosaic.KymogramOf` | components/CaptureStation.tsx:900-904 | a kymogram has one strip per frame in the given order |
| `Mosaic.GridLayout` | components/CaptureStation.tsx:852-911 | the canvas is cropW·cols + gapX·(cols − 1) by cropH·rows + gapY·(rows − 1); frame i sits at column i mod cols and row i div cols; every tile lies inside the canvas and no two overlap |
| `Mosaic.GridTileInside` | components/CaptureStation.tsx:864-865 | a grid tile lies inside the canvas |
| `Mosaic.GridTilesDisjoint` | components/CaptureStation.tsx:906-910 | distinct frames get non-overlapping tiles |
| `Mosaic.KymogramLayout` | components/CaptureStation.tsx:862-869 | the kymogram is as wide as the preview and cropH·N high; strip i spans the width at height i·cropH; strips do not overlap and fill the canvas from the top |
| `Mosaic.KymogramWidthFromPreview` | components/CaptureStation.tsx:868 | the kymogram takes its width from the first image in directory order, not the first sorted frame |
| `Mosaic.ImagesHavePreview` | components/CaptureStation.tsx:718-733 | a folder with images always has a preview |
| `App.Merge` | App.tsx:108-110 | spreading the updates over an image: each of the eight fields takes the given value when the update has it and keeps its old value otherwise |
| `App.MergeNoChange` | App.tsx:108-110 | an empty update leaves the image as it is |
| `App.MergeIdempotent` | App.tsx:108-110 | applying the same update twice is applying it once |
| `App.CaptureImage` | App.tsx:86-88 | capturing appends at the end and keeps every earlier image |
| `App.FindIndex` | App.tsx:92 | `findIndex` returns the first position with the id, or nothing when no image has it |
| `App.AddImageAfter` | App.tsx:90-98 | the new image is inserted at one position, with the images before and after it unchanged, and the length grows by one |
| `App.AddImageAfterFollowsTarget` | App.tsx:90-98 | the new image goes immediately after the first image with the target id |
| `App.AddImageAfterMissingAppends` | App.tsx:93 | with no image of the target id, the new image is appended |
| `App.RemoveImage` | App.tsx:104-106 | no image with the id remains |
| `App.RemoveCounts` | App.tsx:104-106 | removal deletes every image with the id and keeps every other image as often as before |
| `App.RemoveDistributes` | App.tsx:104-106 | removal distributes over concatenation, so the kept images stay in order |
| `App.RemoveAbsent` | App.tsx:104-106 | removing an absent id changes nothing |
| `App.RemoveIdempotent` | App.tsx:104-106 | removing twice is removing once |
| `App.CaptureThenRemove` | App.tsx:86-106 | capturing an image with a fresh id and removing it restores the list |
| `App.AddAfterThenRemove` | App.tsx:90-106 | inserting an image with a fresh id and removing it restores the list |
| `App.UpdateImage` | App.tsx:108-110 | the update is merged into every image with the id, and every other image is unchanged |
| `App.UpdateIdempotent` | App.tsx:108-110 | applying the same update twice is applying it once, when it keeps the id |
| `App.UpdateThenRemove` | App.tsx:104-110 | an update that keeps ids does not change what removal leaves |
| `App.CompleteBurst` | App.tsx:100-102 | a completed session is put first, in front of the history |
| `App.CompleteAllReverses` | App.tsx:100-102 | after a run of sessions, the history lists them newest first, ahead of the older history |
| `App.SessionFolderName` | App.tsx:156-158 | the session folder is the date, `_` and the sanitised trimmed patient name, and holds only path-safe characters |
| `App.SessionFolderDate` | App.tsx:157 | the folder name starts with the zero-padded `YYYY-MM-DD` date |
| `App.StationPropsOf` | App.tsx:193-199 | burst speed falls back to 15, shortcuts to F8, F9 and F10, and auto-crop is off only when the setting is explicitly false |
| `App.FreshSettingsDefaults` | App.tsx:193-199 | settings with nothing set give speed 15, F8/F9/F10 and auto-crop on |
| `App.BurstSpeedPositive` | App.tsx:193 | the burst speed passed on is always positive, so the sampling interval is defined |
| `App.MosaicCapture` | components/CaptureStation.tsx:919-925 | a mosaic capture is typed as a mosaic at 100% width with no original URL |
| `Report.RegularImages` | components/ReportEditor.tsx:84 | the regular list holds only images not typed as mosaics; no image gives none, and one image is kept exactly when it is regular |
| `Report.RegularImagesDistributes` | components/ReportEditor.tsx:84 | the regular list of a split capture list is the two parts' regular lists in turn, so the grid keeps capture order |
| `Report.MosaicImages` | components/ReportEditor.tsx:85 | the mosaic list holds only images typed as mosaics; no image gives none, and one image is kept exactly when it is a mosaic |
| `Report.MosaicImagesDistributes` | components/ReportEditor.tsx:85 | the mosaic list of a split capture list is the two parts' mosaic lists in turn, so the mosaic section keeps capture order |
| `Report.PartitionExact` | components/ReportEditor.tsx:84-85 | the two lists together hold every image exactly as often as the input |
| `Report.PartitionSizes` | components/ReportEditor.tsx:84-85 | the lengths of the two lists add up to the input's |
| `Report.PartitionMembership` | components/ReportEditor.tsx:84-85 | every image is shown in exactly one of the two lists |
| `Report.MosaicCaptureShownAsMosaic` | components/ReportEditor.tsx:85 | a mosaic capture is shown among the mosaics, not the regular images |
| `Report.MosaicImagesAppend` | components/ReportEditor.tsx:85 | capturing a mosaic appends it to the mosaic list |
| `Report.FindImage` | components/ReportEditor.tsx:116 | `find` returns an image with the id exactly when one exists |
| `Report.Enhance` | components/ReportEditor.tsx:113-129 | a failed enhancement changes nothing; a successful one sets the new URL and keeps the existing original, or else the current URL, as the original, and keeps every other field of that image; other images are unchanged |
| `Report.UndoEnhancement` | components/ReportEditor.tsx:131-139 | undo restores the original URL and clears it when there is one, keeping every other field, and otherwise changes nothing |
| `Report.EnhanceThenUndo` | components/ReportEditor.tsx:113-139 | enhancing an unenhanced image and undoing restores the list |
| `Report.EnhanceTwiceKeepsFirstOriginal` | components/ReportEditor.tsx:117 | enhancing twice keeps the very first URL as the original |
| `Report.StartDrag` | components/ReportEditor.tsx:36-38 | a drag starts at the stored width when it is set and non-zero, else 100%; at the stored height when set and non-zero, else the rendered height when non-zero, else 300; and at the measured page width when non-zero, else 1000 |
| `Report.ResizeMove` | components/ReportEditor.tsx:40-45 | a drag that moves the width sets it to the start plus the delta as a percentage of the page when that lies in [10, 100], and to 10 or 100 below or above; a drag that moves the height sets it to the start plus the delta when that is at least 50, else to 50; a size the handle does not move keeps its start value; the six other fields are left alone |
| `Report.ResizeMonotone` | components/ReportEditor.tsx:40-45 | dragging further right or down never gives a smaller width or height |
| `Report.ResizeKeepsWidthInRange` | components/ReportEditor.tsx:33-49 | a resize keeps a width in [10, 100] within that range |
| `Report.ResizeBackToStart` | components/ReportEditor.tsx:40-45 | a drag with no pointer travel writes back the start size |
| `Report.SaveEquipment` | components/ReportEditor.tsx:106 | the saved list is kept as a prefix and gains one entry exactly when the trimmed entry is not blank and not yet saved, that entry being the trimmed one at the end; it stays duplicate-free |
| `Report.DeleteEquipment` | components/ReportEditor.tsx:107 | without confirmation nothing is saved; with it, the saved list is the old one with every copy of the entry removed, every other entry keeping its count and order |
| `Report.SaveThenDeleteEquipment` | components/ReportEditor.tsx:106-107 | saving a new item and deleting it restores the list |
| `Report.ExamKey` | components/ReportEditor.tsx:102 | the key has the label's length; letters and digits are lower-cased and every other character becomes `_` |
| `Report.ExamKeyIdempotent` | components/ReportEditor.tsx:102 | a key is its own key |
| `Report.ExamKeyOfLetters` | components/ReportEditor.tsx:102 | an alphanumeric label's key is the label in lower case |
| `Report.SaveNewExamAsWritten` | components/ReportEditor.tsx:102 | a blank label is refused; an accepted key is new among the default and custom exams |
| `Report.InheritedKeyRefused` | components/ReportEditor.tsx:102 | as written, a label whose key names an inherited object property is refused as already existing |
| `Report.ConstructorLabelRefused` | components/ReportEditor.tsx:102 | as written, the label `Constructor` is refused as already existing although no exam has the key `constructor` |
| `Report.SaveNewExam` | components/ReportEditor.tsx:102 | corrected: a blank label is refused, and an accepted label yields its key |
| `Report.SaveNewExamAccepts` | components/ReportEditor.tsx:102 | corrected: a label is accepted exactly when it is not blank and its key is not among the default and custom exams |
| `Report.SaveNewExamOnce` | components/ReportEditor.tsx:102 | once a key is saved, another label with the same key is refused |
| `Report.AppendTranscript` | components/ReportEditor.tsx:110 | an empty field becomes the transcript; otherwise the field, one space and the transcript |
| `Report.DictationRecoversText` | components/ReportEditor.tsx:110 | the old text and the transcript can both be read back from the result |
| `Report.GridColsClass` | components/ReportEditor.tsx:176 | the class is `grid-cols-n` for n in 1..6, with 0 or absent meaning 4 and anything else giving `grid-cols-4` |
| `Report.GridColsFromSlider` | components/ReportEditor.tsx:176 | every slider value 2..6 gives the class of that many columns |
| `YouTube.FirstLineBreak` | components/ReportEditor.tsx:93 | `.` in the regular expression stops at the first line terminator |
| `YouTube.MarkerEnd` | components/ReportEditor.tsx:93 | a marker found at a position ends within the string, at least two characters later |
| `YouTube.LastMarker` | components/ReportEditor.tsx:93 | the greedy `^.*` picks the last position with a marker, before the first line break |
| `YouTube.IdRun` | components/ReportEditor.tsx:93 | `[^#&?]*` takes the longest run of id characters |
| `YouTube.VideoId` | components/ReportEditor.tsx:93 | an id found is exactly 11 characters, none of them `#`, `&` or `?` |
| `YouTube.WatchUrl` | components/ReportEditor.tsx:96 | the watch URL is the fixed prefix followed by the id |
| `YouTube.QrData` | components/ReportEditor.tsx:95-97 | the QR payload is the watch URL when an id is found, and the raw link otherwise |
| `YouTube.QrShownIffLink` | components/ReportEditor.tsx:99 | the QR code is shown exactly when the link is not empty |
| `YouTube.MarkerEndsInSeparator` | components/ReportEditor.tsx:93 | every marker ends in `/` or `=` |
| `YouTube.NoMarkerInIdChars` | components/ReportEditor.tsx:93 | no marker starts inside a run of YouTube id characters |
| `YouTube.WatchUrlId` | components/ReportEditor.tsx:93-97 | reading an 11-character id back from its watch URL gives nothing or that id |
| `YouTube.WatchUrlRoundTrip` | components/ReportEditor.tsx:93-97 | an 11-character YouTube id reads back from its watch URL |
| `YouTube.QrDataIdempotent` | components/ReportEditor.tsx:93-97 | the QR payload of a QR payload is the same payload |
| `Lists.AddTrimmedIfNew` | components/ReportEditor.tsx:106 | the list is kept as a prefix and grows by at most one; it grows exactly when the trimmed entry is non-blank and not yet listed, and then by that trimmed entry |
| `Lists.AddTrimmedKeepsUnique` | components/SettingsModal.tsx:47-55 | the list never gains a duplicate, and afterwards holds every non-blank entry added |
| `Lists.AddTrimmedIdempotent` | components/SettingsModal.tsx:47-55 | adding the same entry twice is adding it once |
| `Lists.RemoveAll` | components/SettingsModal.tsx:57-62 | the entry is gone and nothing new appears |
| `Lists.RemoveAllCounts` | components/SettingsModal.tsx:57-62 | every other entry keeps its number of occurrences |
| `Lists.RemoveAllDistributes` | components/SettingsModal.tsx:57-62 | the kept entries stay in their order |
| `Lists.RemoveAllAbsent` | components/SettingsModal.tsx:57-62 | removing an absent entry changes nothing |
| `Lists.RemoveAllKeepsUnique` | components/SettingsModal.tsx:57-62 | removal keeps a duplicate-free list duplicate-free |
| `Lists.AddThenRemove` | components/SettingsModal.tsx:47-62 | adding a new entry and removing it restores the list |
| `Settings.WithoutWhite` | components/SettingsModal.tsx:89-97 | the reference buffer: the same length, with the alpha of every pixel whose red, green and blue exceed 230 set to 0 |
| `Settings.RemoveWhiteBackground` | components/SettingsModal.tsx:89-97 | the in-place pixel loop zeroes exactly the alpha bytes of near-white pixels and leaves every other byte as it was |
| `Settings.WithoutWhiteKeepsColours` | components/SettingsModal.tsx:89-97 | no red, green or blue byte changes |
| `Settings.WithoutWhiteIdempotent` | components/SettingsModal.tsx:89-97 | processing a processed signature again changes nothing |
| `Settings.AddCustomField` | components/SettingsModal.tsx:47-55 | a new non-blank field is appended trimmed and clears the input; anything else changes nothing; the list stays duplicate-free |
| `Settings.RemoveCustomField` | components/SettingsModal.tsx:57-62 | the field is gone, no other field appears, the input stays, and a duplicate-free list stays duplicate-free |
| `Settings.AddThenRemoveField` | components/SettingsModal.tsx:47-62 | adding a new field and removing it restores the list |
| `Settings.RemoveFieldCounts` | components/SettingsModal.tsx:57-62 | every other field is kept as often as it was listed |
| `Settings.ToggleField` | components/SettingsModal.tsx:37-45 | a toggle flips the one switch and leaves the other five unchanged |
| `Settings.ToggleFieldInvolution` | components/SettingsModal.tsx:37-45 | toggling twice restores the switches |
| `Settings.ToggleFieldsCommute` | components/SettingsModal.tsx:37-45 | toggles of two fields commute |
| `Settings.RecordKey` | components/SettingsModal.tsx:64-69 | modifier keys and Tab are ignored; single characters are stored upper-cased and named keys verbatim |
| `Settings.RecordKeyStable` | components/SettingsModal.tsx:64-69 | a recorded shortcut is not a modifier, and recording it again stores the same name |
| `Settings.RecordKeyIgnoresCase` | components/SettingsModal.tsx:67 | a letter records the same shortcut in either case |

## Left out

- The camera, the video element, recording and the record shortcut, fullscreen, the flash effect and the key-listener wiring are browser plumbing. The photo key's press and release, and the resumption of each suspended handler, are the model's events, and `handleRecordAction` is not part of this model.
- Canvas drawing is not modelled: the circular clip of a single photo, each slice's translate, rotate and scale, `drawImage`, `toBlob` and `toDataURL`. Only the integer layout of the mosaic is.
- File-system access is not modelled: `saveBlobToDirectory`, `verifyPermission`, folder creation and directory iteration. A save is a success flag. Folder creation is one of four outcomes. A folder is a sequence of entries.
- services/geminiService.ts and services/storageService.ts are not part of this model. The enhanced URL is a parameter, and a failed call is `None`.
- Loading and merging stored settings in App.tsx, hooks/useAppLogic.ts, and the landing, manual and patient-form components are not part of this model.
- Timestamps, dates, clock readings and random ids are inputs. `requestAnimationFrame` becomes a sequence of tick times.
- The asynchronous saves complete in first-in, first-out order. Other interleavings of the encoder callbacks are not modelled.
- `Mosaic.SortNames`: `localeCompare` with numeric collation is replaced by the order of Unicode scalar values. That is JavaScript's code-unit order on names inside the Basic Multilingual Plane, but not beyond it: `😀` sorts before `＃` by code units and after it here. `Naming.FrameNameOrder` shows the two agree on the frame names `IMG_0000` to `IMG_9999`, which is every name a burst of under 10000 frames writes.
- `Text.ToLower`: only ASCII letters are mapped. JavaScript's `toLowerCase` and `toUpperCase` also map other letters; for example the Kelvin sign becomes `k`, which the exam-key pattern then keeps. `Text.ToUpper`, `Report.ExamKey` and `Settings.RecordKey` share this.
- `Text.Trim`: white space is the set JavaScript's `trim` uses; all of it lies below U+FFFF.
- `Report.ExamKey`: the key has one character per character of the label, where the source writes one per UTF-16 code unit of the lower-cased label. A character outside the Basic Multilingual Plane becomes `_` here and `__` in the source, so `a😀` gives `a_` here and `a__` there, the key of the label `a__`; and `İ` lower-cases to two code units in JavaScript, giving `i_` there and `_` here. The model therefore misses these key collisions, which the existing-key test then refuses as duplicates.
- `Text.Sanitize`: a character is a Unicode scalar value, where JavaScript replaces each UTF-16 code unit. A character outside the Basic Multilingual Plane becomes one `_` in the model and two in the source: `Jo😀` gives `Jo_` here and `Jo__` there, so the model's safe name can be one character shorter per such character. `Naming.SafeName` and the name lengths stated for the dated names share this.
- `YouTube.VideoId`: the 11-character test counts characters, where the source's pattern counts UTF-16 code units. An id containing a character outside the Basic Multilingual Plane is counted shorter here than in the source.
- `YouTube.VideoId`: the regular expression is decided by hand for this one pattern. `QrData` gives the payload text; the `encodeURIComponent` call and the QR service URL around it are not modelled.
- `Report.DeleteEquipment`: the confirm dialog is the `confirmed` parameter.
- `Report.SaveNewExamAsWritten`: the template lookup is modelled only as the test for an existing key; the template text that is saved with the new exam is not modelled.
- `Burst.Interval`: the interval and the tick times are exact reals. IEEE rounding of `1000 / burstSpeed` and of `timestamp - last` is not modelled.
- `Detection.DetectScopeArea`: the ratio test uses exact reals (`Detection.RoundRatioExact` turns it into integers). IEEE rounding of `detectedW / detectedH` is not modelled.
- `Mask.MaskMouseMove`: positions and scale factors are exact reals. A display rectangle of size 0, where JavaScript divides by zero, is excluded by the `Displayed` precondition.
- `Report.ResizeMove`: the percentage arithmetic is exact. The parent width is positive because `StartDrag` falls back to 1000.
- `Mosaic.Compose`: an empty image list is an error in the model. The code computes `NaN` rows there, the canvas has zero area and the encoder reports the failure. The grid layout lemmas assume at least one frame.
- `PhotoKey.StartResolved`: the burst folder name is computed from the date, time and patient name given to it. `startBurst`'s own permission request and the folder creation are one suspension, whose result is one of the start outcomes.
- `PhotoKey.TimerFires`: the `isBursting` test reads the flag when the timer fires. In the source the timer calls the `startBurst` its closure captured at the render before the press, so a stray timer armed before a burst started can still see `false` and start a second loop while that burst runs; the model drops such a start. `PhotoKey.StrayTimerFires` and `PhotoKey.Called` share this, so the model's double start (two starts queued before either resumes) is a lower bound on the ways the source gets two loops.
- `PhotoKey.PhotoDown`: the permission check is one suspension; its result does not matter, because the source arms the timer whatever it returns. Whether a folder is chosen is read when the key goes down.

## Findings

| source | as written | input that shows it | evidently intended | confidence | as-written member | corrected member |
|---|---|---|---|---|---|---|
| components/CaptureStation.tsx:376-378 | a burst frame's file name is computed inside the encoder callback from the frame counter at that moment | two samples taken before the first encoding finishes: both are saved as `IMG_0002.jpg`, and frame 1 is lost | each frame is saved under the index it was sampled with | not executed | `Burst.NameRaceOverwrites` | `Burst.SnapshotNamesDistinct` |
| components/CaptureStation.tsx:383-385 | a save that finishes after a new burst started increments the new burst's count | stop a burst while a save is pending, start another and let the old save finish: the new burst counts a frame it never took | a save counts only for the burst that sampled it, so the count never exceeds the frames taken | not executed | `Burst.StaleCaptureCountsInNextBurst` | `Burst.SnapshotCountBounded` |
| components/ReportEditor.tsx:102 | the existing-key test looks the key up on a plain object, so inherited properties count as existing exams | the label `Constructor` gives the key `constructor`, which every object inherits, so it is refused as already existing | only the default and custom exam keys are taken | not executed | `Report.ConstructorLabelRefused` | `Report.SaveNewExamAccepts` |
| components/CaptureStation.tsx:632-653 | the key-down handler arms the hold timer after awaiting the permission check, and `startBurst` starts the loop after awaiting its own checks; neither looks at the key again, and a release cannot cancel either | with a folder chosen, press and release the key while the permission prompt is open: a photo is taken, then the timer is armed and a burst starts one second later with the key up, and runs until the next press and release | a burst runs only while the key is held | not executed | `PhotoKey.ReleaseDuringPermissionStartsBurst` | `PhotoKey.GuardedRunKeepsTied` |
| components/CaptureStation.tsx:456-519 | `startBurst` tests `isBursting` before its awaits and stores each new loop's handle in the one reference `burstRequestRef`; `stopBurst` cancels only the handle in that reference | with a folder chosen, press, release and press again while the first permission prompt is open, and hold: both timers fire, both starts pass the test and create folders, and two loops run; the release cancels one, the other keeps sampling and sets the reference again, so the next short press stops a burst instead of taking a photo | at most one loop runs, and a release ends the burst | not executed | `PhotoKey.DoubleStartOutlivesRelease` | `PhotoKey.GuardedRunKeepsTied` |

=== FILE: app.dfy ===
/**
 * The report's image list and burst history as the application keeps them,
 * the exam-session folder name, and the values the application hands to the
 * capture station.
 */
module App {
  import opened Wrappers
  import opened Text
  import opened Naming
  import opened Burst

  /** `'regular' | 'mosaic'` */
  datatype ImageType = Regular | MosaicImage

  /** An image attached to the report. Optional fields are `None` when absent or `undefined`. */
  datatype CapturedImage = CapturedImage(
    id: string, url: string, timestamp: int,
    imageType: Option<ImageType>,
    customWidth: Option<real>,     // per cent of the page width
    customHeight: Option<real>,    // pixels
    originalUrl: Option<string>,   // the picture before an AI enhancement
    isAiEnhanced: Option<bool>)

  /** One field of a partial update: left alone, or overwritten (possibly with `undefined`). */
  datatype Change<T> = Keep | Set(value: T)

  /** `Partial<CapturedImage>` */
  datatype ImageUpdate = ImageUpdate(
    id: Change<string>, url: Change<string>, timestamp: Change<int>,
    imageType: Change<Option<ImageType>>, customWidth: Change<Option<real>>,
    customHeight: Change<Option<real>>, originalUrl: Change<Option<string>>,
    isAiEnhanced: Change<Option<bool>>)

  const NoChange: ImageUpdate := ImageUpdate(Keep, Keep, Keep, Keep, Keep, Keep, Keep, Keep)

  function Pick<T>(c: Change<T>, current: T): (r: T)
    ensures c.Keep? ==> r == current
    ensures c.Set? ==> r == c.value
  {
    if c.Set? then c.value else current
  }

  /** A field after a spread: the given value when the update has the key, the old one otherwise. */
  predicate Takes<T(==)>(c: Change<T>, before: T, after: T) {
    (c.Keep? ==> after == before) && (c.Set? ==> after == c.value)
  }

  /** `{ ...img, ...updates }`: each field is overridden exactly when the update gives it. */
  function Merge(img: CapturedImage, u: ImageUpdate): (r: CapturedImage)
    ensures Takes(u.id, img.id, r.id) && Takes(u.url, img.url, r.url)
    ensures Takes(u.timestamp, img.timestamp, r.timestamp) && Takes(u.imageType, img.imageType, r.imageType)
    ensures Takes(u.customWidth, img.customWidth, r.customWidth)
    ensures Takes(u.customHeight, img.customHeight, r.customHeight)
    ensures Takes(u.originalUrl, img.originalUrl, r.originalUrl)
    ensures Takes(u.isAiEnhanced, img.isAiEnhanced, r.isAiEnhanced)
  {
    CapturedImage(Pick(u.id, img.id), Pick(u.url, img.url), Pick(u.timestamp, img.timestamp),
                  Pick(u.imageType, img.imageType), Pick(u.customWidth, img.customWidth),
                  Pick(u.customHeight, img.customHeight), Pick(u.originalUrl, img.originalUrl),
                  Pick(u.isAiEnhanced, img.isAiEnhanced))
  }

  lemma MergeNoChange(img: CapturedImage)
    ensures Merge(img, NoChange) == img
  {
  }

  /** Merging the same update twice is merging it once. */
  lemma MergeIdempotent(img: CapturedImage, u: ImageUpdate)
    ensures Merge(Merge(img, u), u) == Merge(img, u)
  {
  }

  // ---------------------------------------------------------------------------
  // The image list
  // ---------------------------------------------------------------------------

  /** A new capture goes to the end; the images before it are untouched. */
  function CaptureImage(images: seq<CapturedImage>, img: CapturedImage): (r: seq<CapturedImage>)
    ensures |r| == |images| + 1 && r[..|images|] == images && r[|images|] == img
  {
    images + [img]
  }

  /** `findIndex(img => img.id === id)`: the first position holding the id. */
  function FindIndex(images: seq<CapturedImage>, id: string): (r: Option<nat>)
    ensures r.None? <==> forall k :: 0 <= k < |images| ==> images[k].id != id
    ensures r.Some? ==> r.value < |images| && images[r.value].id == id
    ensures r.Some? ==> forall k :: 0 <= k < r.value ==> images[k].id != id
  {
    if images == [] then None
    else if images[0].id == id then Some(0)
    else
      var r := FindIndex(images[1..], id);
      assert forall k :: 0 < k < |images| ==> images[k] == images[1..][k - 1];
      if r.None? then None else Some(r.value + 1)
  }

  /** Where `AddImageAfter` puts the new image. */
  function InsertPosition(images: seq<CapturedImage>, targetId: string): (p: nat)
    ensures p <= |images|
  {
    match FindIndex(images, targetId)
    case None => |images|
    case Some(k) => k + 1
  }

  /**
   * The new image goes right after the first image with the target id, or
   * to the end when there is none; nothing else moves.
   */
  function AddImageAfter(images: seq<CapturedImage>, targetId: string, img: CapturedImage): (r: seq<CapturedImage>)
    ensures |r| == |images| + 1
    ensures var p := InsertPosition(images, targetId);
      r[p] == img && r[..p] == images[..p] && r[p + 1..] == images[p..]
  {
    var p := InsertPosition(images, targetId);
    images[..p] + [img] + images[p..]
  }

  /** The image before the new one is the target when the target exists. */
  lemma AddImageAfterFollowsTarget(images: seq<CapturedImage>, targetId: string, img: CapturedImage)
    requires exists k :: 0 <= k < |images| && images[k].id == targetId
    ensures var r := AddImageAfter(images, targetId, img);
      var p := InsertPosition(images, targetId);
      1 <= p && r[p - 1].id == targetId && r[p] == img
      && forall k :: 0 <= k < p - 1 ==> r[k].id != targetId
  {
  }

  /** Without the target, adding after it is capturing. */
  lemma AddImageAfterMissingAppends(images: seq<CapturedImage>, targetId: string, img: CapturedImage)
    requires forall k :: 0 <= k < |images| ==> images[k].id != targetId
    ensures AddImageAfter(images, targetId, img) == CaptureImage(images, img)
  {
    assert images[..|images|] == images;
  }

  /** `filter(img => img.id !== id)` */
  function RemoveImage(images: seq<CapturedImage>, id: string): (r: seq<CapturedImage>)
    ensures |r| <= |images|
    ensures forall k :: 0 <= k < |r| ==> r[k].id != id
    decreases |images|
  {
    if images == [] then []
    else (if images[0].id == id then [] else [images[0]]) + RemoveImage(images[1..], id)
  }

  /** Removal keeps every other image as often as it occurred, and no image of the id. */
  lemma {:induction false} RemoveCounts(images: seq<CapturedImage>, id: string, x: CapturedImage)
    ensures multiset(RemoveImage(images, id))[x] == if x.id == id then 0 else multiset(images)[x]
    decreases |images|
  {
    if images != [] {
      RemoveCounts(images[1..], id, x);
      assert images == [images[0]] + images[1..];
      var head := if images[0].id == id then [] else [images[0]];
      assert RemoveImage(images, id) == head + RemoveImage(images[1..], id);
      assert multiset(RemoveImage(images, id)) == multiset(head) + multiset(RemoveImage(images[1..], id));
      assert multiset(images) == multiset([images[0]]) + multiset(images[1..]);
    }
  }

  /** Removal keeps the order of what stays: it distributes over concatenation. */
  lemma {:induction false} RemoveDistributes(a: seq<CapturedImage>, b: seq<CapturedImage>, id: string)
    ensures RemoveImage(a + b, id) == RemoveImage(a, id) + RemoveImage(b, id)
    decreases |a|
  {
    if a == [] {
      assert a + b == b;
    } else {
      var head := if a[0].id == id then [] else [a[0]];
      assert (a + b)[0] == a[0];
      assert (a + b)[1..] == a[1..] + b;
      assert RemoveImage(a + b, id) == head + RemoveImage(a[1..] + b, id);
      RemoveDistributes(a[1..], b, id);
      assert RemoveImage(a, id) == head + RemoveImage(a[1..], id);
    }
  }

  /** A list with no image of the id is left as it is. */
  lemma {:induction false} RemoveAbsent(images: seq<CapturedImage>, id: string)
    requires forall k :: 0 <= k < |images| ==> images[k].id != id
    ensures RemoveImage(images, id) == images
    decreases |images|
  {
    if images != [] {
      RemoveAbsent(images[1..], id);
    }
  }

  lemma RemoveIdempotent(images: seq<CapturedImage>, id: string)
    ensures RemoveImage(RemoveImage(images, id), id) == RemoveImage(images, id)
  {
    RemoveAbsent(RemoveImage(images, id), id);
  }

  /** Capturing an image with a fresh id and removing it again restores the list. */
  lemma CaptureThenRemove(images: seq<CapturedImage>, img: CapturedImage)
    requires forall k :: 0 <= k < |images| ==> images[k].id != img.id
    ensures RemoveImage(CaptureImage(images, img), img.id) == images
  {
    RemoveDistributes(images, [img], img.id);
    RemoveAbsent(images, img.id);
    assert RemoveImage([img], img.id) == [];
  }

  /** Adding an image with a fresh id after any target and removing it again restores the list. */
  lemma AddAfterThenRemove(images: seq<CapturedImage>, targetId: string, img: CapturedImage)
    requires forall k :: 0 <= k < |images| ==> images[k].id != img.id
    ensures RemoveImage(AddImageAfter(images, targetId, img), img.id) == images
  {
    var p := InsertPosition(images, targetId);
    var a, b := images[..p], images[p..];
    assert forall k :: 0 <= k < |a| ==> a[k].id != img.id by {
      forall k | 0 <= k < |a| ensures a[k].id != img.id {
        assert a[k] == images[k];
      }
    }
    assert forall k :: 0 <= k < |b| ==> b[k].id != img.id by {
      forall k | 0 <= k < |b| ensures b[k].id != img.id {
        assert b[k] == images[p + k];
      }
    }
    assert AddImageAfter(images, targetId, img) == a + ([img] + b);
    RemoveSplice(a, b, img);
    assert a + b == images;
  }

  /** Removing an image spliced between two lists without its id rejoins the lists. */
  lemma RemoveSplice(a: seq<CapturedImage>, b: seq<CapturedImage>, img: CapturedImage)
    requires forall k :: 0 <= k < |a| ==> a[k].id != img.id
    requires forall k :: 0 <= k < |b| ==> b[k].id != img.id
    ensures RemoveImage(a + ([img] + b), img.id) == a + b
  {
    var id := img.id;
    assert RemoveImage([img] + b, id) == b by {
      RemoveDistributes([img], b, id);
      assert RemoveImage([img], id) == [] by {
        assert [img][1..] == [];
      }
      RemoveAbsent(b, id);
    }
    RemoveDistributes(a, [img] + b, id);
    RemoveAbsent(a, id);
  }

  /** Every image with the id takes the update; all others stay as they are. */
  function UpdateImage(images: seq<CapturedImage>, id: string, u: ImageUpdate): (r: seq<CapturedImage>)
    ensures |r| == |images|
    ensures forall k :: 0 <= k < |images| && images[k].id != id ==> r[k] == images[k]
    ensures forall k :: 0 <= k < |images| && images[k].id == id ==> r[k] == Merge(images[k], u)
  {
    seq(|images|, k requires 0 <= k < |images| => if images[k].id == id then Merge(images[k], u) else images[k])
  }

  /** An update that keeps the id, applied twice, is applied once. */
  lemma UpdateIdempotent(images: seq<CapturedImage>, id: string, u: ImageUpdate)
    requires u.id.Keep? || u.id == Set(id)
    ensures UpdateImage(UpdateImage(images, id, u), id, u) == UpdateImage(images, id, u)
  {
  }

  /** Updating and then removing the same id is just removing it. */
  lemma {:induction false} UpdateThenRemove(images: seq<CapturedImage>, id: string, u: ImageUpdate)
    requires u.id.Keep?
    ensures RemoveImage(UpdateImage(images, id, u), id) == RemoveImage(images, id)
    decreases |images|
  {
    if images != [] {
      var up := UpdateImage(images, id, u);
      assert up[1..] == UpdateImage(images[1..], id, u);
      UpdateThenRemove(images[1..], id, u);
    }
  }

  // ---------------------------------------------------------------------------
  // Burst history
  // ---------------------------------------------------------------------------

  /** A finished burst goes in front: the history lists the newest first. */
  function CompleteBurst(history: seq<BurstSession>, session: BurstSession): (r: seq<BurstSession>)
    ensures |r| == |history| + 1 && r[0] == session && r[1..] == history
  {
    [session] + history
  }

  function CompleteAll(history: seq<BurstSession>, sessions: seq<BurstSession>): seq<BurstSession>
    decreases |sessions|
  {
    if sessions == [] then history else CompleteAll(CompleteBurst(history, sessions[0]), sessions[1..])
  }

  function Reverse<T>(s: seq<T>): (r: seq<T>)
    ensures |r| == |s| && forall k :: 0 <= k < |s| ==> r[k] == s[|s| - 1 - k]
  {
    seq(|s|, k requires 0 <= k < |s| => s[|s| - 1 - k])
  }

  /** Sessions completed one after another end up in reverse order of completion. */
  lemma {:induction false} CompleteAllReverses(history: seq<BurstSession>, sessions: seq<BurstSession>)
    ensures CompleteAll(history, sessions) == Reverse(sessions) + history
    decreases |sessions|
  {
    if sessions != [] {
      CompleteAllReverses([sessions[0]] + history, sessions[1..]);
      assert Reverse(sessions[1..]) + ([sessions[0]] + history) == Reverse(sessions) + history;
    }
  }

  // ---------------------------------------------------------------------------
  // Session folder
  // ---------------------------------------------------------------------------

  /** `Y-MM-DD_<name>`: the local date with the year unpadded, then the trimmed, sanitised name. */
  function SessionFolderName(today: CalendarDate, patientName: string): (r: string)
    requires ValidDate(today)
    ensures var name := Sanitize(Trim(patientName));
      |r| >= |name| + 1 && r[|r| - |name|..] == name && r[|r| - |name| - 1] == '_'
    ensures AllPathChars(r)
  {
    var y, m, d := NatToDecimal(today.year), ZeroPad(today.month, 2), ZeroPad(today.day, 2);
    var name := Sanitize(Trim(patientName));
    ZeroPad2(today.month);
    ZeroPad2(today.day);
    SanitizeOnlyNameChars(Trim(patientName));
    DigitsArePathChars(y);
    DigitsArePathChars(m);
    DigitsArePathChars(d);
    NameCharsArePathChars(name);
    var datePart := DashJoin3(y, m, d);
    assert AllPathChars(datePart) by { DashJoinPortable(y, m, d); }
    WithSeparator(datePart, name)
  }

  /** `a-b-c` */
  function DashJoin3(a: string, b: string, c: string): (r: string)
    ensures r == a + "-" + b + "-" + c
  {
    a + "-" + b + "-" + c
  }

  lemma DashJoinPortable(a: string, b: string, c: string)
    requires AllPathChars(a) && AllPathChars(b) && AllPathChars(c)
    ensures AllPathChars(DashJoin3(a, b, c))
  {
    PathCharsConcat(a, "-");
    PathCharsConcat(a + "-", b);
    PathCharsConcat(a + "-" + b, "-");
    PathCharsConcat(a + "-" + b + "-", c);
  }

  /** `a_b` */
  function WithSeparator(a: string, b: string): (r: string)
    ensures |r| == |a| + 1 + |b| && r[..|a|] == a && r[|a|] == '_' && r[|r| - |b|..] == b
    ensures AllPathChars(a) && AllPathChars(b) ==> AllPathChars(r)
  {
    PathCharsConcat(a, "_");
    PathCharsConcat(a + "_", b);
    a + "_" + b
  }

  /**
   * For four-digit years the session folder starts with the same date text
   * as the capture station's file names (both dates being given).
   */
  lemma SessionFolderDate(today: CalendarDate, patientName: string)
    requires ValidDate(today) && 1000 <= today.year
    ensures SessionFolderName(today, patientName)[..10] == IsoDate(today)
  {
    SmallPowers();
    DecimalLength(today.year, 4);
    ZeroPadWidth(today.year, 4);
    assert ZeroPad(today.year, 4) == NatToDecimal(today.year);
  }

  // ---------------------------------------------------------------------------
  // Values handed to the capture station
  // ---------------------------------------------------------------------------

  /** The stored settings the capture station depends on; `None` when never set. */
  datatype StationSettings = StationSettings(
    burstSpeed: Option<int>, photoShortcut: Option<string>, recordShortcut: Option<string>,
    fullscreenShortcut: Option<string>, autoCropEnabled: Option<bool>)

  datatype Shortcuts = Shortcuts(photo: string, record: string, fullscreen: string)

  datatype StationProps = StationProps(burstSpeed: int, shortcuts: Shortcuts, autoCropEnabled: bool)

  const DefaultBurstSpeed: int := 15

  /** `value || fallback` for a number: 0 and `undefined` are falsy. */
  function OrNumber(value: Option<int>, fallback: int): (r: int)
    ensures value.Some? && value.value != 0 ==> r == value.value
    ensures value.None? || value.value == 0 ==> r == fallback
  {
    if value.Some? && value.value != 0 then value.value else fallback
  }

  /** `value || fallback` for a string: the empty string and `undefined` are falsy. */
  function OrString(value: Option<string>, fallback: string): (r: string)
    ensures value.Some? && value.value != "" ==> r == value.value
    ensures value.None? || value.value == "" ==> r == fallback
  {
    if value.Some? && value.value != "" then value.value else fallback
  }

  function StationPropsOf(s: StationSettings): (p: StationProps)
    ensures p.burstSpeed == OrNumber(s.burstSpeed, DefaultBurstSpeed)
    ensures p.shortcuts.photo == OrString(s.photoShortcut, "F8")
    ensures p.shortcuts.record == OrString(s.recordShortcut, "F9")
    ensures p.shortcuts.fullscreen == OrString(s.fullscreenShortcut, "F10")
    ensures !p.autoCropEnabled <==> s.autoCropEnabled == Some(false)
  {
    StationProps(OrNumber(s.burstSpeed, DefaultBurstSpeed),
                 Shortcuts(OrString(s.photoShortcut, "F8"), OrString(s.recordShortcut, "F9"),
                           OrString(s.fullscreenShortcut, "F10")),
                 s.autoCropEnabled != Some(false))
  }

  /** Settings never saved give speed 15, keys F8/F9/F10 and automatic cropping. */
  lemma FreshSettingsDefaults()
    ensures StationPropsOf(StationSettings(None, None, None, None, None))
      == StationProps(15, Shortcuts("F8", "F9", "F10"), true)
  {
  }

  /** Any non-negative stored speed yields a positive one, as the sampler needs. */
  lemma BurstSpeedPositive(s: StationSettings)
    requires s.burstSpeed.Some? ==> s.burstSpeed.value >= 0
    ensures StationPropsOf(s).burstSpeed > 0
  {
  }

  /** `sessionDirectoryHandle || directoryHandle` */
  function OrElse<T>(first: Option<T>, second: Option<T>): (r: Option<T>)
    ensures first.Some? ==> r == first
    ensures first.None? ==> r == second
  {
    if first.Some? then first else second
  }

  /** The image a finished mosaic adds to the report: a mosaic at full width. */
  function MosaicCapture(id: string, url: string, timestamp: int): (r: CapturedImage)
    ensures r.imageType == Some(MosaicImage) && r.customWidth == Some(100.0)
    ensures r.originalUrl.None? && r.customHeight.None?
  {
    CapturedImage(id, url, timestamp, Some(MosaicImage), Some(100.0), None, None, None)
  }
}

=== FILE: burst.dfy ===
/**
 * The burst sampler of the capture station. While a burst runs, every
 * animation frame is a tick; a tick at least `1000 / burstSpeed`
 * milliseconds after the last sample takes a new sample, numbers it with
 * the next frame index and asks the browser to encode it. When an encoded
 * frame is ready it is written into the burst folder as `IMG_<index>.jpg`,
 * and each successful write counts. Stopping reports a session when
 * anything was written.
 *
 * Two machines are modelled. `Sampler` is the station as written: the
 * file name is built when the encoding finishes, from the frame index at
 * that moment. `SnapshotSampler` takes the index, and the burst it belongs
 * to, at the moment the sample is taken.
 *
 * Encoding and writing are one event each; the events of different frames
 * finish in the order they were started. Timestamps are the animation-frame
 * timestamps in milliseconds.
 */
module Burst {
  import opened Wrappers
  import opened Text
  import opened Naming

  /** A finished burst as handed to the report. */
  datatype BurstSession = BurstSession(id: string, folderName: string, timestamp: string, count: nat)

  /** How the attempt to open a burst folder ended. */
  datatype StartOutcome =
    | NoDirectory        // no output folder chosen in the settings
    | PermissionDenied   // write permission refused
    | FolderError        // creating the sub-folder failed
    | FolderCreated

  /** `HH:MM` */
  function ColonJoin(a: string, b: string): (r: string)
    requires |a| == 2 && |b| == 2
    ensures |r| == 5 && r[2] == ':' && r[..2] == a && r[3..] == b
  {
    a + ":" + b
  }

  /** The session time stamp, hours and minutes padded to two digits. */
  function HourMinute(t: ClockTime): (r: string)
    requires ValidTime(t)
    ensures |r| == 5 && r[2] == ':'
    ensures AllDigits(r[..2]) && DecimalValue(r[..2]) == t.hours
    ensures AllDigits(r[3..]) && DecimalValue(r[3..]) == t.minutes
  {
    ZeroPad2(t.hours);
    ZeroPad2(t.minutes);
    ColonJoin(ZeroPad(t.hours, 2), ZeroPad(t.minutes, 2))
  }

  /** Milliseconds between samples at a speed in frames per second. */
  function Interval(speed: nat): (r: real)
    requires speed > 0
    ensures r > 0.0
  {
    1000.0 / speed as real
  }

  /** `speed` samples fit exactly in one second. */
  lemma IntervalPerSecond(speed: nat)
    requires speed > 0
    ensures Interval(speed) * speed as real == 1000.0
  {
  }

  /** A faster burst samples more often. */
  lemma FasterIsDenser(slow: nat, fast: nat)
    requires 0 < slow < fast
    ensures Interval(fast) < Interval(slow)
  {
    IntervalPerSecond(slow);
    IntervalPerSecond(fast);
    assert Interval(fast) * fast as real == Interval(slow) * slow as real;
  }

  // ---------------------------------------------------------------------------
  // The station as written
  // ---------------------------------------------------------------------------

  /**
   * `running`: the animation loop is scheduled (and the burst flag is set;
   * the two change together). `dirOpen`: a burst folder is held.
   * `pending`: encodings asked for and not yet finished. `written`: the
   * names written into the current folder, in order, repeats included.
   */
  datatype Sampler = Sampler(
    running: bool, dirOpen: bool, folderName: string,
    count: nat, frame: nat, last: real, pending: nat, written: seq<string>)

  const IdleSampler: Sampler := Sampler(false, false, "", 0, 0, 0.0, 0, [])

  /**
   * `startBurst`: ignored while a burst runs; otherwise the outcome of
   * opening the folder decides whether a new burst starts with frame
   * index, count and last sample time at zero. `folder` is the name read
   * from the clock at that moment (`BurstFolderName`).
   */
  function StartBurst(s: Sampler, outcome: StartOutcome, folder: string): (r: Sampler)
    ensures s.running ==> r == s
    ensures !s.running && outcome == FolderCreated ==>
      r.running && r.dirOpen && r.count == 0 && r.frame == 0 && r.last == 0.0 && r.written == []
      && r.folderName == folder && r.pending == s.pending
    ensures !s.running && outcome == FolderError ==> r == s.(dirOpen := false)
    ensures !s.running && (outcome == NoDirectory || outcome == PermissionDenied) ==> r == s
  {
    if s.running then s
    else
      match outcome
      case NoDirectory => s
      case PermissionDenied => s
      case FolderError => s.(dirOpen := false)
      case FolderCreated =>
        s.(running := true, dirOpen := true, folderName := folder,
           count := 0, frame := 0, last := 0.0, written := [])
  }

  /** Whether a tick at `ts` takes a sample. */
  predicate Due(s: Sampler, speed: nat, ts: real)
    requires speed > 0
  {
    s.running && ts - s.last >= Interval(speed)
  }

  /**
   * One animation frame of the burst loop: a due tick advances the frame
   * index by one, remembers its time and starts an encoding.
   */
  function Tick(s: Sampler, speed: nat, ts: real): (r: Sampler)
    requires speed > 0
    ensures Due(s, speed, ts) ==>
      r == s.(frame := s.frame + 1, last := ts, pending := s.pending + if s.dirOpen then 1 else 0)
    ensures !Due(s, speed, ts) ==> r == s
  {
    if !s.running then s
    else if ts - s.last >= Interval(speed) then
      s.(frame := s.frame + 1, last := ts, pending := s.pending + if s.dirOpen then 1 else 0)
    else s
  }

  /**
   * The oldest encoding finishes. Its name is taken from the frame index
   * as it is now; it is written into the folder held now, if any, and a
   * successful write counts.
   */
  function CaptureSaved(s: Sampler, ok: bool): (r: Sampler)
    requires s.pending > 0
    ensures r.pending == s.pending - 1 && r.frame == s.frame && r.running == s.running
    ensures s.dirOpen && ok ==> r.count == s.count + 1 && r.written == s.written + [FrameName(s.frame, "jpg")]
    ensures !(s.dirOpen && ok) ==> r.count == s.count && r.written == s.written
  {
    var s1 := s.(pending := s.pending - 1);
    if s.dirOpen && ok then
      s1.(count := s.count + 1, written := s.written + [FrameName(s.frame, "jpg")])
    else s1
  }

  /**
   * `stopBurst`: the loop stops and the folder is released; a session is
   * reported exactly when something was written.
   */
  function StopBurst(s: Sampler, id: string, now: ClockTime): (r: (Sampler, Option<BurstSession>))
    requires ValidTime(now)
    ensures !r.0.running && !r.0.dirOpen
    ensures r.0.count == s.count && r.0.frame == s.frame && r.0.pending == s.pending
    ensures r.1.Some? <==> s.count > 0
    ensures r.1.Some? ==>
      r.1.value.count == s.count && r.1.value.folderName == s.folderName
      && r.1.value.id == id && r.1.value.timestamp == HourMinute(now)
  {
    (s.(running := false, dirOpen := false),
     if s.count > 0 then Some(BurstSession(id, s.folderName, HourMinute(now), s.count)) else None)
  }

  /** The counting invariant: successes and outstanding encodings never outrun the samples. */
  predicate CountInvariant(s: Sampler) {
    (s.running ==> s.dirOpen) && s.count + s.pending <= s.frame
  }

  /** The events of the sampler. */
  datatype Event =
    | Start(outcome: StartOutcome, folder: string)
    | AnimationFrame(ts: real)
    | Encoded(ok: bool)
    | Stop(id: string, now: ClockTime)

  predicate Enabled(s: Sampler, e: Event) {
    match e
    case Start(_, _) => true
    case AnimationFrame(_) => true
    case Encoded(_) => s.pending > 0
    case Stop(_, now) => ValidTime(now)
  }

  function Step(s: Sampler, speed: nat, e: Event): (r: Sampler)
    requires speed > 0 && Enabled(s, e)
    ensures e.Stop? ==> !r.running
  {
    match e
    case Start(outcome, folder) => StartBurst(s, outcome, folder)
    case AnimationFrame(ts) => Tick(s, speed, ts)
    case Encoded(ok) => CaptureSaved(s, ok)
    case Stop(id, now) => StopBurst(s, id, now).0
  }

  /**
   * Every event keeps the counting invariant, provided a burst is never
   * started while an encoding of an earlier one is still outstanding.
   */
  lemma StepKeepsCountInvariant(s: Sampler, speed: nat, e: Event)
    requires speed > 0 && Enabled(s, e) && CountInvariant(s)
    requires e.Start? && !s.running ==> s.pending == 0
    ensures CountInvariant(Step(s, speed, e))
  {
  }

  /** Hence the count never exceeds the frame index. */
  lemma CountBoundedByFrame(s: Sampler)
    requires CountInvariant(s)
    ensures s.count <= s.frame
  {
  }

  /**
   * An encoding still outstanding when the next burst starts is written
   * into the new folder and counted there, before the new burst has taken
   * any sample of its own.
   */
  lemma StaleCaptureCountsInNextBurst(first: string, second: string, time: ClockTime, speed: nat, t: real)
    requires ValidTime(time) && speed > 0 && t >= Interval(speed)
    ensures var s0 := StartBurst(IdleSampler, FolderCreated, first);
      var s1 := Tick(s0, speed, t);
      var s2 := StopBurst(s1, "a", time).0;
      var s3 := StartBurst(s2, FolderCreated, second);
      var s4 := CaptureSaved(s3, true);
      s4.count == 1 && s4.frame == 0 && !CountInvariant(s4)
  {
  }

  /**
   * Two samples taken before the first encoding finishes are both written
   * under the second index: the folder holds one file while the count says
   * two.
   */
  lemma NameRaceOverwrites(folder: string, speed: nat, t1: real, t2: real)
    requires speed > 0 && t1 >= Interval(speed) && t2 - t1 >= Interval(speed)
    ensures var s0 := StartBurst(IdleSampler, FolderCreated, folder);
      var s1 := Tick(Tick(s0, speed, t1), speed, t2);
      var s2 := CaptureSaved(CaptureSaved(s1, true), true);
      s2.count == 2 && s2.written == [FrameName(2, "jpg"), FrameName(2, "jpg")]
  {
    var s0 := StartBurst(IdleSampler, FolderCreated, folder);
    assert s0.running && s0.dirOpen && s0.last == 0.0 && s0.frame == 0 && s0.pending == 0;
    var a := Tick(s0, speed, t1);
    assert a.running && a.dirOpen && a.last == t1 && a.frame == 1 && a.pending == 1;
    var b := Tick(a, speed, t2);
    assert b.dirOpen && b.frame == 2 && b.pending == 2 && b.count == 0 && b.written == [];
    var c := CaptureSaved(b, true);
    assert c.dirOpen && c.frame == 2 && c.pending == 1 && c.count == 1 && c.written == [FrameName(2, "jpg")];
  }

  // ---------------------------------------------------------------------------
  // Sample times
  // ---------------------------------------------------------------------------

  /** Feeding a sequence of animation-frame timestamps to the loop. */
  function Ticks(s: Sampler, speed: nat, ts: seq<real>): (r: Sampler)
    requires speed > 0
    ensures r.running == s.running && r.dirOpen == s.dirOpen && r.count == s.count
    ensures r.frame >= s.frame
    decreases |ts|
  {
    if ts == [] then s else Ticks(Tick(s, speed, ts[0]), speed, ts[1..])
  }

  /** The timestamps at which samples are taken. */
  function SampleTimes(s: Sampler, speed: nat, ts: seq<real>): seq<real>
    requires speed > 0
    decreases |ts|
  {
    if ts == [] then []
    else (if Due(s, speed, ts[0]) then [ts[0]] else []) + SampleTimes(Tick(s, speed, ts[0]), speed, ts[1..])
  }

  /**
   * The samples of a run of ticks are numbered consecutively after the
   * frame index the run started from, and the loop remembers the time of
   * the last one.
   */
  lemma {:induction false} TicksNumberSamples(s: Sampler, speed: nat, ts: seq<real>)
    requires speed > 0
    ensures var times := SampleTimes(s, speed, ts);
      var r := Ticks(s, speed, ts);
      r.frame == s.frame + |times|
      && (times != [] ==> r.last == times[|times| - 1])
      && (times == [] ==> r.last == s.last)
    decreases |ts|
  {
    if ts != [] {
      var s' := Tick(s, speed, ts[0]);
      TicksNumberSamples(s', speed, ts[1..]);
      var rest := SampleTimes(s', speed, ts[1..]);
      if Due(s, speed, ts[0]) {
        assert SampleTimes(s, speed, ts) == [ts[0]] + rest;
      } else {
        assert SampleTimes(s, speed, ts) == rest;
      }
    }
  }

  /** Consecutive samples, and the first after the last one before the run, are an interval apart. */
  lemma {:induction false} SampleTimesSpaced(s: Sampler, speed: nat, ts: seq<real>)
    requires speed > 0
    ensures var times := SampleTimes(s, speed, ts);
      (times != [] ==> times[0] - s.last >= Interval(speed))
      && (forall k :: 0 <= k < |times| - 1 ==> times[k + 1] - times[k] >= Interval(speed))
    decreases |ts|
  {
    if ts != [] {
      var s' := Tick(s, speed, ts[0]);
      SampleTimesSpaced(s', speed, ts[1..]);
      var rest := SampleTimes(s', speed, ts[1..]);
      var times := SampleTimes(s, speed, ts);
      if Due(s, speed, ts[0]) {
        assert times == [ts[0]] + rest;
        assert s'.last == ts[0];
        forall k | 0 <= k < |times| - 1 ensures times[k + 1] - times[k] >= Interval(speed) {
          if k > 0 {
            assert times[k] == rest[k - 1] && times[k + 1] == rest[k];
          }
        }
      } else {
        assert times == rest;
        assert s'.last == s.last;
      }
    }
  }

  // ---------------------------------------------------------------------------
  // Numbering at sample time
  // ---------------------------------------------------------------------------

  /** An encoding in flight, with the burst and frame index it was taken for. */
  datatype Capture = Capture(burst: nat, index: nat)

  /**
   * `burst` numbers the bursts started so far; `savedIndices` are the
   * frame indices written into the current folder, in order.
   */
  datatype SnapshotSampler = SnapshotSampler(
    running: bool, dirOpen: bool, folderName: string, burst: nat,
    frame: nat, last: real, pending: seq<Capture>, savedIndices: seq<nat>)

  const IdleSnapshot: SnapshotSampler := SnapshotSampler(false, false, "", 0, 0, 0.0, [], [])

  /** The files in the current folder. */
  function SavedNames(s: SnapshotSampler): (r: seq<string>)
    ensures |r| == |s.savedIndices|
    ensures forall k :: 0 <= k < |r| ==> r[k] == FrameName(s.savedIndices[k], "jpg")
  {
    seq(|s.savedIndices|, k requires 0 <= k < |s.savedIndices| => FrameName(s.savedIndices[k], "jpg"))
  }

  /** The count reported on stop: the files written in this burst. */
  function SnapshotCount(s: SnapshotSampler): nat { |s.savedIndices| }

  function SnapshotStart(s: SnapshotSampler, outcome: StartOutcome, folder: string): (r: SnapshotSampler)
    ensures s.running ==> r == s
    ensures !s.running && outcome == FolderCreated ==>
      r.running && r.dirOpen && r.burst == s.burst + 1 && r.frame == 0 && r.last == 0.0
      && r.savedIndices == [] && r.pending == s.pending
      && r.folderName == folder
    ensures !s.running && outcome != FolderCreated ==> !r.running && r.pending == s.pending
  {
    if s.running then s
    else
      match outcome
      case NoDirectory => s
      case PermissionDenied => s
      case FolderError => s.(dirOpen := false)
      case FolderCreated =>
        s.(running := true, dirOpen := true, folderName := folder,
           burst := s.burst + 1, frame := 0, last := 0.0, savedIndices := [])
  }

  /** A due tick records the new index together with the burst it belongs to. */
  function SnapshotTick(s: SnapshotSampler, speed: nat, ts: real): (r: SnapshotSampler)
    requires speed > 0
    ensures !s.running || ts - s.last < Interval(speed) ==> r == s
    ensures s.running && ts - s.last >= Interval(speed) && s.dirOpen ==>
      r == s.(frame := s.frame + 1, last := ts, pending := s.pending + [Capture(s.burst, s.frame + 1)])
    ensures s.running && ts - s.last >= Interval(speed) && !s.dirOpen ==>
      r == s.(frame := s.frame + 1, last := ts)
  {
    if !s.running || ts - s.last < Interval(speed) then s
    else
      s.(frame := s.frame + 1, last := ts,
         pending := s.pending + if s.dirOpen then [Capture(s.burst, s.frame + 1)] else [])
  }

  /**
   * The oldest encoding finishes: it is written under the index it was
   * taken with, and only a frame of the current burst counts there.
   */
  function SnapshotSaved(s: SnapshotSampler, ok: bool): (r: SnapshotSampler)
    requires s.pending != []
    ensures r.pending == s.pending[1..] && r.frame == s.frame && r.burst == s.burst
    ensures var c := s.pending[0];
      if ok && s.dirOpen && c.burst == s.burst then r.savedIndices == s.savedIndices + [c.index]
      else r.savedIndices == s.savedIndices
  {
    var c := s.pending[0];
    var s1 := s.(pending := s.pending[1..]);
    if ok && s.dirOpen && c.burst == s.burst then s1.(savedIndices := s.savedIndices + [c.index]) else s1
  }

  function SnapshotStop(s: SnapshotSampler, id: string, now: ClockTime): (r: (SnapshotSampler, Option<BurstSession>))
    requires ValidTime(now)
    ensures !r.0.running && !r.0.dirOpen && r.0.savedIndices == s.savedIndices
    ensures r.1.Some? <==> SnapshotCount(s) > 0
    ensures r.1.Some? ==> r.1.value.count == SnapshotCount(s) && r.1.value.folderName == s.folderName
  {
    (s.(running := false, dirOpen := false),
     if SnapshotCount(s) > 0 then Some(BurstSession(id, s.folderName, HourMinute(now), SnapshotCount(s))) else None)
  }

  predicate SnapshotEnabled(s: SnapshotSampler, e: Event) {
    match e
    case Start(_, _) => true
    case AnimationFrame(_) => true
    case Encoded(_) => s.pending != []
    case Stop(_, now) => ValidTime(now)
  }

  function SnapshotStep(s: SnapshotSampler, speed: nat, e: Event): SnapshotSampler
    requires speed > 0 && SnapshotEnabled(s, e)
  {
    match e
    case Start(outcome, folder) => SnapshotStart(s, outcome, folder)
    case AnimationFrame(ts) => SnapshotTick(s, speed, ts)
    case Encoded(ok) => SnapshotSaved(s, ok)
    case Stop(id, now) => SnapshotStop(s, id, now).0
  }

  predicate StrictlyIncreasing(xs: seq<nat>) {
    forall i, j :: 0 <= i < j < |xs| ==> xs[i] < xs[j]
  }

  /** The indices of the encodings in flight for burst `b`, oldest first. */
  function IndicesOf(pending: seq<Capture>, b: nat): (r: seq<nat>)
    ensures |r| <= |pending|
  {
    if pending == [] then []
    else (if pending[0].burst == b then [pending[0].index] else []) + IndicesOf(pending[1..], b)
  }

  lemma {:induction false} IndicesOfAppend(pending: seq<Capture>, c: Capture, b: nat)
    ensures IndicesOf(pending + [c], b) == IndicesOf(pending, b) + (if c.burst == b then [c.index] else [])
    decreases |pending|
  {
    if pending == [] {
      assert pending + [c] == [c];
    } else {
      var head := if pending[0].burst == b then [pending[0].index] else [];
      var tail := if c.burst == b then [c.index] else [];
      assert (pending + [c])[0] == pending[0];
      assert (pending + [c])[1..] == pending[1..] + [c];
      assert IndicesOf(pending + [c], b) == head + IndicesOf(pending[1..] + [c], b);
      IndicesOfAppend(pending[1..], c, b);
      assert IndicesOf(pending, b) == head + IndicesOf(pending[1..], b);
      assert head + (IndicesOf(pending[1..], b) + tail) == (head + IndicesOf(pending[1..], b)) + tail;
    }
  }

  /** No encoding in flight was taken for a burst that has not started yet. */
  predicate NoFutureBursts(pending: seq<Capture>, b: nat) {
    forall k :: 0 <= k < |pending| ==> pending[k].burst <= b
  }

  /**
   * The saved indices followed by the indices in flight for the current
   * burst are strictly increasing and between 1 and the frame index.
   */
  predicate SnapshotInvariant(s: SnapshotSampler) {
    var all := s.savedIndices + IndicesOf(s.pending, s.burst);
    StrictlyIncreasing(all)
    && (forall k :: 0 <= k < |all| ==> 1 <= all[k] <= s.frame)
    && NoFutureBursts(s.pending, s.burst)
  }

  lemma IdleSnapshotInvariant()
    ensures SnapshotInvariant(IdleSnapshot)
  {
  }

  /** Dropping one element of a strictly increasing sequence keeps it strictly increasing. */
  lemma DropKeepsIncreasing(a: seq<nat>, x: nat, b: seq<nat>)
    requires StrictlyIncreasing(a + [x] + b)
    ensures StrictlyIncreasing(a + b)
  {
    var whole := a + [x] + b;
    forall i, j | 0 <= i < j < |a + b| ensures (a + b)[i] < (a + b)[j] {
      var i' := if i < |a| then i else i + 1;
      var j' := if j < |a| then j else j + 1;
      assert (a + b)[i] == whole[i'] && (a + b)[j] == whole[j'];
    }
  }

  /** Captures of another burst are not among the indices of burst `b`. */
  lemma {:induction false} IndicesOfOldBurst(pending: seq<Capture>, b: nat)
    requires NoFutureBursts(pending, b)
    ensures IndicesOf(pending, b + 1) == []
    decreases |pending|
  {
    if pending != [] {
      IndicesOfOldBurst(pending[1..], b);
    }
  }

  lemma SnapshotStartKeepsInvariant(s: SnapshotSampler, outcome: StartOutcome, folder: string)
    requires SnapshotInvariant(s)
    ensures SnapshotInvariant(SnapshotStart(s, outcome, folder))
  {
    if !s.running && outcome == FolderCreated {
      var r := SnapshotStart(s, outcome, folder);
      FreshBurstInvariant(r, s.pending, s.burst);
    }
  }

  /** A burst that has just started owns no encoding in flight. */
  lemma FreshBurstInvariant(r: SnapshotSampler, pending: seq<Capture>, b: nat)
    requires NoFutureBursts(pending, b)
    requires r.pending == pending && r.burst == b + 1 && r.savedIndices == []
    ensures SnapshotInvariant(r)
  {
    IndicesOfOldBurst(pending, b);
    assert r.savedIndices + IndicesOf(r.pending, r.burst) == [];
  }

  lemma SnapshotTickKeepsInvariant(s: SnapshotSampler, speed: nat, ts: real)
    requires speed > 0 && SnapshotInvariant(s)
    ensures SnapshotInvariant(SnapshotTick(s, speed, ts))
  {
    var r := SnapshotTick(s, speed, ts);
    if s.running && ts - s.last >= Interval(speed) {
      var before := s.savedIndices + IndicesOf(s.pending, s.burst);
      if s.dirOpen {
        var c := Capture(s.burst, s.frame + 1);
        IndicesOfAppend(s.pending, c, s.burst);
        assert r.savedIndices + IndicesOf(r.pending, r.burst) == before + [s.frame + 1];
        AppendNextIndex(before, s.frame);
        assert NoFutureBursts(r.pending, r.burst) by {
          assert forall k :: 0 <= k < |s.pending| ==> r.pending[k] == s.pending[k];
        }
      } else {
        assert r.pending == s.pending;
      }
    }
  }

  /** Appending the next frame index to indices in 1..n keeps them increasing and in 1..n+1. */
  lemma AppendNextIndex(xs: seq<nat>, n: nat)
    requires StrictlyIncreasing(xs) && forall k :: 0 <= k < |xs| ==> 1 <= xs[k] <= n
    ensures var ys := xs + [n + 1];
      StrictlyIncreasing(ys) && forall k :: 0 <= k < |ys| ==> 1 <= ys[k] <= n + 1
  {
    var ys := xs + [n + 1];
    forall k | 0 <= k < |xs| ensures ys[k] == xs[k] {
    }
  }

  lemma SnapshotSavedKeepsInvariant(s: SnapshotSampler, ok: bool)
    requires s.pending != [] && SnapshotInvariant(s)
    ensures SnapshotInvariant(SnapshotSaved(s, ok))
  {
    var r := SnapshotSaved(s, ok);
    var c := s.pending[0];
    assert s.pending == [c] + s.pending[1..];
    var rest := IndicesOf(s.pending[1..], s.burst);
    var whole := s.savedIndices + IndicesOf(s.pending, s.burst);
    if c.burst == s.burst {
      assert IndicesOf(s.pending, s.burst) == [c.index] + rest;
      assert whole == s.savedIndices + [c.index] + rest;
      if ok && s.dirOpen {
        assert r.savedIndices + IndicesOf(r.pending, r.burst) == whole;
      } else {
        DropKeepsIncreasing(s.savedIndices, c.index, rest);
        var all := s.savedIndices + rest;
        assert r.savedIndices + IndicesOf(r.pending, r.burst) == all;
        forall k | 0 <= k < |all| ensures 1 <= all[k] <= s.frame {
          if k < |s.savedIndices| { assert all[k] == whole[k]; } else { assert all[k] == whole[k + 1]; }
        }
      }
    } else {
      assert IndicesOf(s.pending, s.burst) == rest;
      assert r.savedIndices + IndicesOf(r.pending, r.burst) == whole;
    }
  }

  /** Every event keeps the invariant of numbering at sample time, with no restriction. */
  lemma SnapshotStepKeepsInvariant(s: SnapshotSampler, speed: nat, e: Event)
    requires speed > 0 && SnapshotEnabled(s, e) && SnapshotInvariant(s)
    ensures SnapshotInvariant(SnapshotStep(s, speed, e))
  {
    match e
    case Start(outcome, folder) => SnapshotStartKeepsInvariant(s, outcome, folder);
    case AnimationFrame(ts) => SnapshotTickKeepsInvariant(s, speed, ts);
    case Encoded(ok) => SnapshotSavedKeepsInvariant(s, ok);
    case Stop(id, now) =>
  }

  /** A strictly increasing sequence of positive indices up to n has at most n elements. */
  lemma {:induction false} IncreasingBounded(xs: seq<nat>, n: nat)
    requires StrictlyIncreasing(xs) && forall k :: 0 <= k < |xs| ==> 1 <= xs[k] <= n
    ensures |xs| <= n
    decreases |xs|
  {
    if xs != [] {
      var init := xs[..|xs| - 1];
      var top := xs[|xs| - 1];
      forall k | 0 <= k < |init| ensures 1 <= init[k] <= n - 1 {
        assert init[k] == xs[k] < top;
      }
      IncreasingBounded(init, n - 1);
    }
  }

  /** With numbering at sample time, the count never exceeds the frame index. */
  lemma SnapshotCountBounded(s: SnapshotSampler)
    requires SnapshotInvariant(s)
    ensures SnapshotCount(s) <= s.frame
  {
    var all := s.savedIndices + IndicesOf(s.pending, s.burst);
    IncreasingBounded(all, s.frame);
  }

  /** With numbering at sample time, the files of a burst have pairwise distinct names. */
  lemma SnapshotNamesDistinct(s: SnapshotSampler)
    requires SnapshotInvariant(s)
    ensures forall i, j :: 0 <= i < j < |SavedNames(s)| ==> SavedNames(s)[i] != SavedNames(s)[j]
  {
    var all := s.savedIndices + IndicesOf(s.pending, s.burst);
    forall i, j | 0 <= i < j < |SavedNames(s)| ensures SavedNames(s)[i] != SavedNames(s)[j] {
      assert all[i] == s.savedIndices[i] && all[j] == s.savedIndices[j];
      if SavedNames(s)[i] == SavedNames(s)[j] {
        FrameNameInjective(s.savedIndices[i], s.savedIndices[j], "jpg");
      }
    }
  }

  /** Two samples, both still encoding, taken at the first two due ticks of a fresh burst. */
  lemma TwoSamplesPending(folder: string, speed: nat, t1: real, t2: real)
    requires speed > 0 && t1 >= Interval(speed) && t2 - t1 >= Interval(speed)
    ensures var s0 := SnapshotStart(IdleSnapshot, FolderCreated, folder);
      var b := SnapshotTick(SnapshotTick(s0, speed, t1), speed, t2);
      b.dirOpen && b.pending == [Capture(b.burst, 1), Capture(b.burst, 2)] && b.savedIndices == []
  {
  }

  /** Both outstanding frames of the current burst are written, each under its own index. */
  lemma TwoSavesInOrder(b: SnapshotSampler, i: nat, j: nat)
    requires b.dirOpen && b.pending == [Capture(b.burst, i), Capture(b.burst, j)] && b.savedIndices == []
    ensures SnapshotSaved(SnapshotSaved(b, true), true).savedIndices == [i, j]
  {
    var c := SnapshotSaved(b, true);
    assert c.dirOpen && c.burst == b.burst && c.pending == [Capture(b.burst, j)] && c.savedIndices == [i];
  }

  /** The race scenario of the station as written, replayed with numbering at sample time. */
  lemma SnapshotRaceKeepsBothFrames(folder: string, speed: nat, t1: real, t2: real)
    requires speed > 0 && t1 >= Interval(speed) && t2 - t1 >= Interval(speed)
    ensures var s0 := SnapshotStart(IdleSnapshot, FolderCreated, folder);
      var s1 := SnapshotTick(SnapshotTick(s0, speed, t1), speed, t2);
      var s2 := SnapshotSaved(SnapshotSaved(s1, true), true);
      SnapshotCount(s2) == 2 && SavedNames(s2) == [FrameName(1, "jpg"), FrameName(2, "jpg")]
  {
    var s0 := SnapshotStart(IdleSnapshot, FolderCreated, folder);
    var s1 := SnapshotTick(SnapshotTick(s0, speed, t1), speed, t2);
    TwoSamplesPending(folder, speed, t1, t2);
    TwoSavesInOrder(s1, 1, 2);
    var names := SavedNames(SnapshotSaved(SnapshotSaved(s1, true), true));
    assert |names| == 2 && names[0] == FrameName(1, "jpg") && names[1] == FrameName(2, "jpg");
  }
}

=== FILE: detection.dfy ===
/**
 * Automatic detection of the endoscope's bright disc in a video frame, which
 * places the capture mask around it.
 *
 * The frame is scanned every fourth pixel in both directions; a sampled
 * pixel is lit when its brightest colour channel exceeds 25. The bounding
 * box of the lit samples is padded by 20 pixels, clamped to the frame and
 * accepted only when it is more than 50 pixels in each direction.
 */
module Detection {
  import opened Mask

  type Byte = b: int | 0 <= b < 256

  /** An RGBA frame as `getImageData` returns it: four bytes per pixel, row by row. */
  datatype Frame = Frame(width: nat, height: nat, data: seq<Byte>)

  predicate ValidFrame(f: Frame) { |f.data| == f.width * f.height * 4 }

  const Stride: nat := 4
  const Threshold: int := 25
  const Padding: int := 20
  const MinDetectedSide: int := 50

  lemma PixelInRange(f: Frame, x: nat, y: nat)
    requires ValidFrame(f) && x < f.width && y < f.height
    ensures (y * f.width + x) * 4 + 3 < |f.data|
  {
    assert y * f.width + x < (y + 1) * f.width;
    assert (y + 1) * f.width <= f.height * f.width by {
      MulMonotone(y + 1, f.height, f.width);
    }
  }

  lemma MulMonotone(a: nat, b: nat, c: nat)
    requires a <= b
    ensures a * c <= b * c
  {
  }

  function Max3(r: int, g: int, b: int): (m: int)
    ensures m >= r && m >= g && m >= b && (m == r || m == g || m == b)
  {
    if r >= g && r >= b then r else if g >= b then g else b
  }

  /** `max(r, g, b)` of the pixel at column x, row y. */
  function Brightness(f: Frame, x: nat, y: nat): (v: int)
    requires ValidFrame(f) && x < f.width && y < f.height
    ensures 0 <= v < 256
  {
    PixelInRange(f, x, y);
    var i := (y * f.width + x) * 4;
    Max3(f.data[i], f.data[i + 1], f.data[i + 2])
  }

  /** A pixel the scan looks at. */
  predicate Sampled(f: Frame, x: nat, y: nat) {
    x % Stride == 0 && y % Stride == 0 && x < f.width && y < f.height
  }

  /** A sampled pixel brighter than the threshold. */
  predicate Lit(f: Frame, x: nat, y: nat)
    requires ValidFrame(f)
  {
    Sampled(f, x, y) && Brightness(f, x, y) > Threshold
  }

  ghost predicate Dark(f: Frame)
    requires ValidFrame(f)
  {
    forall x: nat, y: nat :: !Lit(f, x, y)
  }

  // ---------------------------------------------------------------------------
  // Bounding box of the lit samples
  // ---------------------------------------------------------------------------

  /** `minX, maxX, minY, maxY` of the scan. */
  datatype Box = Box(minX: int, maxX: int, minY: int, maxY: int)

  /** The box before any lit sample: empty, with the minimum past the maximum. */
  function StartBox(f: Frame): Box {
    Box(f.width, 0, f.height, 0)
  }

  /** The four comparisons made for a lit sample. */
  function Include(b: Box, x: int, y: int): (r: Box)
    ensures Covers(r, x, y) && Extends(r, b)
    ensures r.minX == b.minX || r.minX == x
    ensures r.maxX == b.maxX || r.maxX == x
    ensures r.minY == b.minY || r.minY == y
    ensures r.maxY == b.maxY || r.maxY == y
  {
    Box(if x < b.minX then x else b.minX,
        if x > b.maxX then x else b.maxX,
        if y < b.minY then y else b.minY,
        if y > b.maxY then y else b.maxY)
  }

  predicate Covers(b: Box, x: int, y: int) {
    b.minX <= x <= b.maxX && b.minY <= y <= b.maxY
  }

  /** `a` contains everything `b` contains. */
  predicate Extends(a: Box, b: Box) {
    a.minX <= b.minX && a.maxX >= b.maxX && a.minY <= b.minY && a.maxY >= b.maxY
  }

  /** The rest of row y from column x on, as the inner loop walks it. */
  function ScanRow(f: Frame, y: nat, x: nat, b: Box): Box
    requires ValidFrame(f) && y < f.height
    decreases f.width - x
  {
    if x >= f.width then b
    else ScanRow(f, y, x + Stride, if Brightness(f, x, y) > Threshold then Include(b, x, y) else b)
  }

  /** The rows from y on, as the outer loop walks them. */
  function ScanRows(f: Frame, y: nat, b: Box): Box
    requires ValidFrame(f)
    decreases f.height - y
  {
    if y >= f.height then b
    else ScanRows(f, y + Stride, ScanRow(f, y, 0, b))
  }

  /** The bounding box the whole scan computes. */
  function Scan(f: Frame): Box
    requires ValidFrame(f)
  {
    ScanRows(f, 0, StartBox(f))
  }

  /** The strided double loop of the detector, computing the scan's box. */
  method ScanBounds(f: Frame) returns (b: Box)
    requires ValidFrame(f)
    ensures b == Scan(f)
  {
    b := StartBox(f);
    var y: nat := 0;
    while y < f.height
      invariant ScanRows(f, y, b) == Scan(f)
      decreases f.height - y
    {
      assert ScanRows(f, y, b) == ScanRows(f, y + Stride, ScanRow(f, y, 0, b));
      var x: nat := 0;
      while x < f.width
        invariant ScanRows(f, y + Stride, ScanRow(f, y, x, b)) == Scan(f)
        decreases f.width - x
      {
        ScanRowStep(f, y, x, b);
        if Brightness(f, x, y) > Threshold {
          b := Include(b, x, y);
        }
        x := x + Stride;
      }
      y := y + Stride;
    }
  }

  /** One sample of the inner loop. */
  lemma ScanRowStep(f: Frame, y: nat, x: nat, b: Box)
    requires ValidFrame(f) && y < f.height && x < f.width
    ensures ScanRow(f, y, x, b)
      == ScanRow(f, y, x + Stride, if Brightness(f, x, y) > Threshold then Include(b, x, y) else b)
  {
  }

  lemma NextMultiple(a: nat, b: nat)
    requires a % 4 == 0 && b % 4 == 0 && a < b
    ensures a + 4 <= b
  {
  }

  /** The rest of a row covers every lit sample in it and only grows the box. */
  lemma {:induction false} ScanRowCovers(f: Frame, y: nat, x: nat, b: Box)
    requires ValidFrame(f) && y < f.height && x % Stride == 0
    ensures Extends(ScanRow(f, y, x, b), b)
    ensures forall x': nat :: x <= x' && Lit(f, x', y) ==> Covers(ScanRow(f, y, x, b), x', y)
    decreases f.width - x
  {
    if x < f.width {
      var b' := if Brightness(f, x, y) > Threshold then Include(b, x, y) else b;
      ScanRowCovers(f, y, x + Stride, b');
      forall x': nat | x <= x' && Lit(f, x', y) ensures Covers(ScanRow(f, y, x, b), x', y) {
        if x' != x {
          NextMultiple(x, x');
        }
      }
    }
  }

  /** Extending a box keeps what it covered. */
  lemma ExtendsCovers(a: Box, b: Box, x: int, y: int)
    requires Extends(a, b) && Covers(b, x, y)
    ensures Covers(a, x, y)
  {
  }

  lemma {:induction false} ScanRowsCovers(f: Frame, y: nat, b: Box)
    requires ValidFrame(f) && y % Stride == 0
    ensures Extends(ScanRows(f, y, b), b)
    ensures forall x': nat, y': nat :: y <= y' && Lit(f, x', y') ==> Covers(ScanRows(f, y, b), x', y')
    decreases f.height - y
  {
    if y < f.height {
      var row := ScanRow(f, y, 0, b);
      ScanRowCovers(f, y, 0, b);
      ScanRowsCovers(f, y + Stride, row);
      var r := ScanRows(f, y, b);
      forall x': nat, y': nat | y <= y' && Lit(f, x', y') ensures Covers(r, x', y') {
        if y' == y {
          ExtendsCovers(r, row, x', y');
        } else {
          NextMultiple(y, y');
        }
      }
    }
  }

  /** Where nothing is lit, the scan leaves the box alone. */
  lemma {:induction false} ScanRowDark(f: Frame, y: nat, x: nat, b: Box)
    requires ValidFrame(f) && y < f.height && x % Stride == 0 && y % Stride == 0
    requires forall x': nat :: x <= x' ==> !Lit(f, x', y)
    ensures ScanRow(f, y, x, b) == b
    decreases f.width - x
  {
    if x < f.width {
      assert !Lit(f, x, y);
      ScanRowDark(f, y, x + Stride, b);
    }
  }

  lemma {:induction false} ScanRowsDark(f: Frame, y: nat, b: Box)
    requires ValidFrame(f) && y % Stride == 0 && Dark(f)
    ensures ScanRows(f, y, b) == b
    decreases f.height - y
  {
    if y < f.height {
      ScanRowDark(f, y, 0, b);
      ScanRowsDark(f, y + Stride, b);
    }
  }

  /** Each side of the box lies on some lit sample. */
  ghost predicate Attained(f: Frame, b: Box)
    requires ValidFrame(f)
  {
    (exists x: nat, y: nat :: Lit(f, x, y) && x == b.minX)
    && (exists x: nat, y: nat :: Lit(f, x, y) && x == b.maxX)
    && (exists x: nat, y: nat :: Lit(f, x, y) && y == b.minY)
    && (exists x: nat, y: nat :: Lit(f, x, y) && y == b.maxY)
  }

  /** Including a lit sample in the start box or an attained box gives an attained box. */
  lemma IncludeAttained(f: Frame, b: Box, x: nat, y: nat)
    requires ValidFrame(f) && Lit(f, x, y) && (b == StartBox(f) || Attained(f, b))
    ensures Attained(f, Include(b, x, y))
  {
    var r := Include(b, x, y);
    if b == StartBox(f) {
      assert r == Box(x, x, y, y);
    } else {
      assert r.minX == x || exists x': nat, y': nat :: Lit(f, x', y') && x' == r.minX;
      assert r.maxX == x || exists x': nat, y': nat :: Lit(f, x', y') && x' == r.maxX;
      assert r.minY == y || exists x': nat, y': nat :: Lit(f, x', y') && y' == r.minY;
      assert r.maxY == y || exists x': nat, y': nat :: Lit(f, x', y') && y' == r.maxY;
    }
  }

  lemma {:induction false} ScanRowAttained(f: Frame, y: nat, x: nat, b: Box)
    requires ValidFrame(f) && y < f.height && x % Stride == 0 && y % Stride == 0
    requires b == StartBox(f) || Attained(f, b)
    ensures ScanRow(f, y, x, b) == StartBox(f) || Attained(f, ScanRow(f, y, x, b))
    decreases f.width - x
  {
    if x < f.width {
      var b' := b;
      if Brightness(f, x, y) > Threshold {
        IncludeAttained(f, b, x, y);
        b' := Include(b, x, y);
      }
      ScanRowAttained(f, y, x + Stride, b');
    }
  }

  lemma {:induction false} ScanRowsAttained(f: Frame, y: nat, b: Box)
    requires ValidFrame(f) && y % Stride == 0
    requires b == StartBox(f) || Attained(f, b)
    ensures ScanRows(f, y, b) == StartBox(f) || Attained(f, ScanRows(f, y, b))
    decreases f.height - y
  {
    if y < f.height {
      ScanRowAttained(f, y, 0, b);
      ScanRowsAttained(f, y + Stride, ScanRow(f, y, 0, b));
    }
  }

  /**
   * The scan's box is exactly the bounding box of the lit samples: it covers
   * every one of them and each side touches one; with no lit sample it is
   * the start box.
   */
  lemma ScanIsBoundingBox(f: Frame)
    requires ValidFrame(f)
    ensures forall x: nat, y: nat :: Lit(f, x, y) ==> Covers(Scan(f), x, y)
    ensures Dark(f) ==> Scan(f) == StartBox(f)
    ensures !Dark(f) ==> Attained(f, Scan(f))
  {
    ScanRowsCovers(f, 0, StartBox(f));
    ScanRowsAttained(f, 0, StartBox(f));
    if Dark(f) {
      ScanRowsDark(f, 0, StartBox(f));
    } else {
      var x: nat, y: nat :| Lit(f, x, y);
      assert Covers(Scan(f), x, y);
      if Scan(f) == StartBox(f) {
        assert false;
      }
    }
  }

  // ---------------------------------------------------------------------------
  // Padding, acceptance and shape
  // ---------------------------------------------------------------------------

  function MaxInt(a: int, b: int): int { if a >= b then a else b }
  function MinInt(a: int, b: int): int { if a <= b then a else b }

  /** The box grown by the padding on every side and clamped to the frame. */
  function Pad(b: Box, w: nat, h: nat): (r: Box)
    ensures 0 <= r.minX && r.maxX <= w && 0 <= r.minY && r.maxY <= h
    ensures r.minX <= MaxInt(0, b.minX) && r.minY <= MaxInt(0, b.minY)
    ensures b.maxX < w ==> r.maxX > b.maxX
    ensures b.maxY < h ==> r.maxY > b.maxY
  {
    Box(MaxInt(0, b.minX - Padding), MinInt(w, b.maxX + Padding),
        MaxInt(0, b.minY - Padding), MinInt(h, b.maxY + Padding))
  }

  /** The padded, clamped box of the frame. */
  function DetectedBox(f: Frame): Box
    requires ValidFrame(f)
  {
    Pad(Scan(f), f.width, f.height)
  }

  /** A box large enough to be taken for the scope image. */
  predicate Accepted(b: Box) {
    b.maxX - b.minX > MinDetectedSide && b.maxY - b.minY > MinDetectedSide
  }

  /** `0.8 < width / height < 1.2`, computed exactly. */
  predicate RoundRatio(width: real, height: real)
    requires height > 0.0
  {
    0.8 < width / height < 1.2
  }

  /** Comparing a quotient with a constant is comparing the dividend with a multiple. */
  lemma QuotientCompare(a: real, h: real, c: real)
    requires h > 0.0
    ensures c < a / h <==> c * h < a
    ensures a / h < c <==> a < c * h
  {
    var q := a / h;
    assert q * h == a;
    if c < q {
      assert c * h < q * h;
    } else {
      assert q * h <= c * h;
    }
    if q < c {
      assert q * h < c * h;
    } else {
      assert c * h <= q * h;
    }
  }

  /** The ratio test on whole numbers, without division. */
  lemma RoundRatioExact(w: int, h: int)
    requires h > 0
    ensures RoundRatio(w as real, h as real) <==> 4 * h < 5 * w && 5 * w < 6 * h
  {
    QuotientCompare(w as real, h as real, 0.8);
    QuotientCompare(w as real, h as real, 1.2);
  }

  /**
   * The detector: with no picture nothing changes; otherwise an accepted
   * box becomes the mask's position and size, the shape follows the aspect
   * ratio and the mask is switched on. A rejected box changes nothing.
   */
  function DetectScopeArea(f: Frame, m: CropMask): (r: CropMask)
    requires ValidFrame(f)
    ensures !(f.width > 0 && Accepted(DetectedBox(f))) ==> r == m
    ensures f.width > 0 && Accepted(DetectedBox(f)) ==>
      var b := DetectedBox(f);
      r.x == b.minX as real && r.y == b.minY as real
      && r.width == (b.maxX - b.minX) as real && r.height == (b.maxY - b.minY) as real
      && r.active
      && (r.shape == Circle <==> RoundRatio(r.width, r.height))
      && 0.0 <= r.x && 0.0 <= r.y
      && r.x + r.width <= f.width as real && r.y + r.height <= f.height as real
      && r.width > MinDetectedSide as real && r.height > MinDetectedSide as real
  {
    if f.width == 0 then m
    else
      var b := DetectedBox(f);
      var w, h := b.maxX - b.minX, b.maxY - b.minY;
      if w > MinDetectedSide && h > MinDetectedSide then
        m.(x := b.minX as real, y := b.minY as real, width := w as real, height := h as real,
           shape := if RoundRatio(w as real, h as real) then Circle else Rect,
           active := true)
      else m
  }

  /** An all-dark frame never moves the mask. */
  lemma DarkFrameKeepsMask(f: Frame, m: CropMask)
    requires ValidFrame(f) && Dark(f)
    ensures DetectScopeArea(f, m) == m
  {
    ScanIsBoundingBox(f);
    var b := DetectedBox(f);
    assert b.maxX - b.minX <= 40 || b.maxY - b.minY <= 40;
  }

  /** A mask placed by the detector contains every lit sample. */
  lemma DetectedMaskCoversLit(f: Frame, m: CropMask, x: nat, y: nat)
    requires ValidFrame(f) && Lit(f, x, y)
    requires DetectScopeArea(f, m) != m
    ensures var r := DetectScopeArea(f, m);
      r.x <= x as real < r.x + r.width && r.y <= y as real < r.y + r.height
  {
    ScanIsBoundingBox(f);
  }

  /** Detecting twice on the same frame gives what detecting once gave. */
  lemma DetectIdempotent(f: Frame, m: CropMask)
    requires ValidFrame(f)
    ensures DetectScopeArea(f, DetectScopeArea(f, m)) == DetectScopeArea(f, m)
  {
  }
}

=== FILE: lists.dfy ===
/**
 * The two list edits the settings use for user-maintained name lists
 * (saved equipment, custom patient fields): add a trimmed entry unless it
 * is blank or already there, and delete every copy of an entry.
 */
module Lists {
  import opened Text

  predicate NoDuplicates<T(==)>(s: seq<T>) {
    forall i, j :: 0 <= i < j < |s| ==> s[i] != s[j]
  }

  /**
   * `list.includes(entry.trim())` decides: a blank or known entry leaves
   * the list as it is, any other is appended in trimmed form.
   */
  function AddTrimmedIfNew(list: seq<string>, entry: string): (r: seq<string>)
    ensures |list| <= |r| <= |list| + 1 && r[..|list|] == list
    ensures |r| == |list| + 1 <==> Trim(entry) != [] && Trim(entry) !in list
    ensures |r| == |list| + 1 ==> r[|list|] == Trim(entry)
  {
    var t := Trim(entry);
    if t != [] && t !in list then list + [t] else list
  }

  /** The list never gains a duplicate, and afterwards holds every non-blank entry added. */
  lemma AddTrimmedKeepsUnique(list: seq<string>, entry: string)
    ensures NoDuplicates(list) ==> NoDuplicates(AddTrimmedIfNew(list, entry))
    ensures Trim(entry) != [] ==> Trim(entry) in AddTrimmedIfNew(list, entry)
  {
  }

  /** Adding the same entry twice is adding it once. */
  lemma AddTrimmedIdempotent(list: seq<string>, entry: string)
    ensures AddTrimmedIfNew(AddTrimmedIfNew(list, entry), entry) == AddTrimmedIfNew(list, entry)
  {
  }

  /** `list.filter(item => item !== x)` */
  function RemoveAll<T(==)>(list: seq<T>, x: T): (r: seq<T>)
    ensures |r| <= |list|
    ensures x !in r
    ensures forall y :: y in r ==> y in list
    decreases |list|
  {
    if list == [] then []
    else (if list[0] == x then [] else [list[0]]) + RemoveAll(list[1..], x)
  }

  /** Every other entry keeps its number of occurrences. */
  lemma {:induction false} RemoveAllCounts<T>(list: seq<T>, x: T, y: T)
    ensures multiset(RemoveAll(list, x))[y] == if y == x then 0 else multiset(list)[y]
    decreases |list|
  {
    if list != [] {
      RemoveAllCounts(list[1..], x, y);
      var head := if list[0] == x then [] else [list[0]];
      assert list == [list[0]] + list[1..];
      assert multiset(RemoveAll(list, x)) == multiset(head) + multiset(RemoveAll(list[1..], x));
      assert multiset(list) == multiset([list[0]]) + multiset(list[1..]);
    }
  }

  /** The kept entries stay in their order: removal distributes over concatenation. */
  lemma {:induction false} RemoveAllDistributes<T>(a: seq<T>, b: seq<T>, x: T)
    ensures RemoveAll(a + b, x) == RemoveAll(a, x) + RemoveAll(b, x)
    decreases |a|
  {
    if a == [] {
      assert a + b == b;
    } else {
      var head := if a[0] == x then [] else [a[0]];
      assert (a + b)[0] == a[0];
      assert (a + b)[1..] == a[1..] + b;
      assert RemoveAll(a + b, x) == head + RemoveAll(a[1..] + b, x);
      RemoveAllDistributes(a[1..], b, x);
    }
  }

  /** Removing what is absent changes nothing; so removal is idempotent. */
  lemma {:induction false} RemoveAllAbsent<T>(list: seq<T>, x: T)
    requires x !in list
    ensures RemoveAll(list, x) == list
    decreases |list|
  {
    if list != [] {
      assert x !in list[1..] by {
        assert forall k :: 0 <= k < |list[1..]| ==> list[1..][k] == list[k + 1];
      }
      RemoveAllAbsent(list[1..], x);
    }
  }

  lemma {:induction false} RemoveAllKeepsUnique<T>(list: seq<T>, x: T)
    requires NoDuplicates(list)
    ensures NoDuplicates(RemoveAll(list, x))
    decreases |list|
  {
    if list != [] {
      var tail := list[1..];
      assert NoDuplicates(tail) by {
        forall i, j | 0 <= i < j < |tail| ensures tail[i] != tail[j] {
          assert tail[i] == list[i + 1] && tail[j] == list[j + 1];
        }
      }
      RemoveAllKeepsUnique(tail, x);
      assert list[0] !in tail by {
        forall k | 0 <= k < |tail| ensures tail[k] != list[0] {
          assert tail[k] == list[k + 1];
        }
      }
      var rest := RemoveAll(tail, x);
      assert list[0] !in rest;
      var r := RemoveAll(list, x);
      if list[0] != x {
        assert r == [list[0]] + rest;
        forall i, j | 0 <= i < j < |r| ensures r[i] != r[j] {
          if i == 0 {
            assert r[j] == rest[j - 1];
          } else {
            assert r[i] == rest[i - 1] && r[j] == rest[j - 1];
          }
        }
      }
    }
  }

  /** Adding a fresh entry and deleting it again restores the list. */
  lemma AddThenRemove(list: seq<string>, entry: string)
    requires Trim(entry) != [] && Trim(entry) !in list
    ensures RemoveAll(AddTrimmedIfNew(list, entry), Trim(entry)) == list
  {
    var t := Trim(entry);
    RemoveAllDistributes(list, [t], t);
    RemoveAllAbsent(list, t);
    assert RemoveAll([t], t) == [];
  }
}

=== FILE: mask.dfy ===
/**
 * The capture mask (the green frame drawn over the live video) and the two
 * pointer gestures of the capture station: dragging or resizing the mask,
 * and panning the preview of the manual mosaic editor.
 *
 * Mask coordinates are in video pixels; pointer coordinates are in display
 * pixels. Both are modelled as reals.
 */
module Mask {
  import opened Wrappers

  datatype Shape = Rect | Circle

  /** Position, size and shape of the capture mask, in video pixels. */
  datatype CropMask = CropMask(x: real, y: real, width: real, height: real, shape: Shape, active: bool)

  /** The mask the capture station starts with. */
  function InitialMask(autoCropEnabled: bool): (m: CropMask)
    ensures m.x == 100.0 && m.y == 100.0 && m.width == 400.0 && m.height == 400.0
    ensures m.shape == Circle && m.active == autoCropEnabled
  {
    CropMask(100.0, 100.0, 400.0, 400.0, Circle, autoCropEnabled)
  }

  /** Following the auto-crop setting only switches the mask on or off. */
  function SyncAutoCrop(m: CropMask, autoCropEnabled: bool): (r: CropMask)
    ensures r.active == autoCropEnabled
    ensures r.(active := m.active) == m
  {
    m.(active := autoCropEnabled)
  }

  /** The ON/OFF button. */
  function ToggleActive(m: CropMask): (r: CropMask)
    ensures r.active != m.active
    ensures r.(active := m.active) == m
  {
    m.(active := !m.active)
  }

  /** The shape button: a circle becomes a rectangle and vice versa. */
  function ToggleShape(m: CropMask): (r: CropMask)
    ensures r.shape != m.shape
    ensures r.(shape := m.shape) == m
  {
    m.(shape := if m.shape == Circle then Rect else Circle)
  }

  lemma ToggleShapeInvolution(m: CropMask)
    ensures ToggleShape(ToggleShape(m)) == m
  {
  }

  lemma ToggleActiveInvolution(m: CropMask)
    ensures ToggleActive(ToggleActive(m)) == m
  {
  }

  // ---------------------------------------------------------------------------
  // Dragging and resizing the mask
  // ---------------------------------------------------------------------------

  /** Which handle the pointer went down on. */
  datatype Handle = MoveHandle | ResizeHandle

  /** The two gesture flags and the last pointer position, in display pixels. */
  datatype MaskDrag = MaskDrag(dragging: bool, resizing: bool, startX: real, startY: real)

  const IdleDrag: MaskDrag := MaskDrag(false, false, 0.0, 0.0)

  /** Moving and resizing are never under way at the same time. */
  predicate Exclusive(d: MaskDrag) { !(d.dragging && d.resizing) }

  /**
   * The video element: the intrinsic resolution of the stream and the size
   * the element is displayed at.
   */
  datatype Viewport = Viewport(videoWidth: real, videoHeight: real, rectWidth: real, rectHeight: real)

  /** A viewport that is on screen, so the display-to-video scale is defined. */
  predicate Displayed(v: Viewport) {
    v.videoWidth >= 0.0 && v.videoHeight >= 0.0 && v.rectWidth > 0.0 && v.rectHeight > 0.0
  }

  /** Pointer down on a handle: exactly the matching flag is raised. */
  function MaskMouseDown(d: MaskDrag, h: Handle, clientX: real, clientY: real): (r: MaskDrag)
    ensures Exclusive(r)
    ensures r.dragging <==> h == MoveHandle
    ensures r.resizing <==> h == ResizeHandle
    ensures r.startX == clientX && r.startY == clientY
  {
    MaskDrag(h == MoveHandle, h == ResizeHandle, clientX, clientY)
  }

  /** Pointer up or leaving the video: both flags drop. */
  function MaskMouseUp(d: MaskDrag): (r: MaskDrag)
    ensures !r.dragging && !r.resizing
    ensures r.startX == d.startX && r.startY == d.startY
  {
    d.(dragging := false, resizing := false)
  }

  /** A horizontal display delta converted to video pixels. */
  function ScaleX(v: Viewport, displayDelta: real): (r: real)
    requires Displayed(v)
    ensures r * v.rectWidth == displayDelta * v.videoWidth
  {
    displayDelta * (v.videoWidth / v.rectWidth)
  }

  /** A vertical display delta converted to video pixels. */
  function ScaleY(v: Viewport, displayDelta: real): (r: real)
    requires Displayed(v)
    ensures r * v.rectHeight == displayDelta * v.videoHeight
  {
    displayDelta * (v.videoHeight / v.rectHeight)
  }

  function Max(a: real, b: real): (r: real)
    ensures r >= a && r >= b && (r == a || r == b)
  {
    if a >= b then a else b
  }

  function Min(a: real, b: real): (r: real)
    ensures r <= a && r <= b && (r == a || r == b)
  {
    if a <= b then a else b
  }

  /** `min(max(0, p + delta), limit - size)`: the clamp used by a move. */
  function ClampMove(p: real, delta: real, size: real, limit: real): (r: real)
    ensures size <= limit ==> 0.0 <= r <= limit - size
    ensures 0.0 <= p + delta <= limit - size ==> r == p + delta
    ensures size > limit ==> r == limit - size && r < 0.0
  {
    Min(Max(0.0, p + delta), limit - size)
  }

  /** The smallest side length a resize leaves. */
  const MinMaskSide: real := 50.0

  /**
   * Pointer movement over the video. Without a video element or with the
   * mask off nothing happens. Otherwise the display delta since the last
   * position is scaled to video pixels and either moves the mask (clamped
   * to the frame) or grows/shrinks it (never below 50, not clamped to the
   * frame); the last position follows the pointer only during a gesture.
   */
  function MaskMouseMove(m: CropMask, d: MaskDrag, video: Option<Viewport>,
                         clientX: real, clientY: real): (r: (CropMask, MaskDrag))
    requires video.Some? ==> Displayed(video.value)
    requires Exclusive(d)
    ensures Exclusive(r.1)
    ensures r.1.dragging == d.dragging && r.1.resizing == d.resizing
    ensures video.None? || !m.active || !(d.dragging || d.resizing) ==> r.0 == m
    ensures video.Some? && m.active && (d.dragging || d.resizing) ==>
      r.1.startX == clientX && r.1.startY == clientY
    ensures video.Some? && m.active && d.dragging ==>
      r.0.width == m.width && r.0.height == m.height && r.0.shape == m.shape && r.0.active
      && r.0.x == ClampMove(m.x, ScaleX(video.value, clientX - d.startX), m.width, video.value.videoWidth)
      && r.0.y == ClampMove(m.y, ScaleY(video.value, clientY - d.startY), m.height, video.value.videoHeight)
    ensures video.Some? && m.active && d.resizing ==>
      r.0.x == m.x && r.0.y == m.y && r.0.shape == m.shape && r.0.active
      && r.0.width >= MinMaskSide && r.0.height >= MinMaskSide
      && r.0.width == Max(MinMaskSide, m.width + ScaleX(video.value, clientX - d.startX))
      && r.0.height == Max(MinMaskSide, m.height + ScaleY(video.value, clientY - d.startY))
  {
    if video.None? || !m.active then (m, d)
    else
      var v := video.value;
      var dx := ScaleX(v, clientX - d.startX);
      var dy := ScaleY(v, clientY - d.startY);
      var m' :=
        if d.dragging then
          m.(x := ClampMove(m.x, dx, m.width, v.videoWidth), y := ClampMove(m.y, dy, m.height, v.videoHeight))
        else if d.resizing then
          m.(width := Max(MinMaskSide, m.width + dx), height := Max(MinMaskSide, m.height + dy))
        else m;
      var d' := if d.dragging || d.resizing then d.(startX := clientX, startY := clientY) else d;
      (m', d')
  }

  /** A mask that lies entirely inside the video frame. */
  predicate InsideFrame(m: CropMask, v: Viewport) {
    0.0 <= m.x && 0.0 <= m.y && m.x + m.width <= v.videoWidth && m.y + m.height <= v.videoHeight
  }

  /** A move keeps a mask that fits in the frame inside the frame. */
  lemma MoveKeepsMaskInside(m: CropMask, d: MaskDrag, v: Viewport, clientX: real, clientY: real)
    requires Displayed(v) && Exclusive(d) && d.dragging
    requires m.width <= v.videoWidth && m.height <= v.videoHeight
    ensures InsideFrame(MaskMouseMove(m, d, Some(v), clientX, clientY).0, v) || !m.active
  {
  }

  /** A mask wider than the frame is pushed to a negative x by any move. */
  lemma MoveOfWideMaskGoesNegative(m: CropMask, d: MaskDrag, v: Viewport, clientX: real, clientY: real)
    requires Displayed(v) && Exclusive(d) && d.dragging && m.active
    requires m.width > v.videoWidth
    ensures MaskMouseMove(m, d, Some(v), clientX, clientY).0.x < 0.0
  {
  }

  /**
   * A resize is not clamped to the frame: a mask inside a 640x480 frame
   * dragged 200 display pixels to the right ends up sticking out of it.
   */
  lemma ResizeCanLeaveFrame()
    ensures var v := Viewport(640.0, 480.0, 640.0, 480.0);
            var m := CropMask(100.0, 100.0, 400.0, 300.0, Circle, true);
            var d := MaskMouseDown(IdleDrag, ResizeHandle, 0.0, 0.0);
            InsideFrame(m, v) && !InsideFrame(MaskMouseMove(m, d, Some(v), 200.0, 0.0).0, v)
  {
  }

  /** With the video shown at its own width a display delta is a video delta. */
  lemma ScaleAtOwnSize(v: Viewport, delta: real)
    requires Displayed(v) && v.rectWidth == v.videoWidth
    ensures ScaleX(v, delta) == delta
  {
    assert v.videoWidth / v.rectWidth == 1.0;
  }

  /**
   * Applying the pointer positions of one gesture in order. The state is
   * threaded through every move, as the handlers see it.
   */
  function MaskMoves(m: CropMask, d: MaskDrag, v: Viewport, xs: seq<real>, ys: seq<real>): (r: (CropMask, MaskDrag))
    requires Displayed(v) && Exclusive(d) && |xs| == |ys|
    ensures Exclusive(r.1) && r.1.dragging == d.dragging && r.1.resizing == d.resizing
    decreases |xs|
  {
    if xs == [] then (m, d)
    else
      var s := MaskMouseMove(m, d, Some(v), xs[0], ys[0]);
      MaskMoves(s.0, s.1, v, xs[1..], ys[1..])
  }

  /** Scaling is linear: two display deltas scale to the sum of their scalings. */
  lemma ScaleAdditive(v: Viewport, a: real, b: real)
    requires Displayed(v)
    ensures ScaleX(v, a) + ScaleX(v, b) == ScaleX(v, a + b)
    ensures ScaleY(v, a) + ScaleY(v, b) == ScaleY(v, a + b)
  {
  }

  /**
   * While resizing without reaching the 50-pixel floor, the mask grows by
   * exactly the scaled distance the pointer travelled since it went down:
   * the per-move deltas telescope, at any display scale.
   */
  lemma {:induction false} ResizeTelescopes(m: CropMask, d: MaskDrag, v: Viewport, xs: seq<real>, ys: seq<real>)
    requires Displayed(v)
    requires Exclusive(d) && d.resizing && m.active && |xs| == |ys| && xs != []
    requires forall k :: 0 <= k < |xs| ==> m.width + ScaleX(v, xs[k] - d.startX) >= MinMaskSide
    requires forall k :: 0 <= k < |ys| ==> m.height + ScaleY(v, ys[k] - d.startY) >= MinMaskSide
    ensures MaskMoves(m, d, v, xs, ys).0.width == m.width + ScaleX(v, xs[|xs| - 1] - d.startX)
    ensures MaskMoves(m, d, v, xs, ys).0.height == m.height + ScaleY(v, ys[|ys| - 1] - d.startY)
    ensures MaskMoves(m, d, v, xs, ys).0.x == m.x && MaskMoves(m, d, v, xs, ys).0.y == m.y
    decreases |xs|
  {
    var s := MaskMouseMove(m, d, Some(v), xs[0], ys[0]);
    assert s.0.width == m.width + ScaleX(v, xs[0] - d.startX);
    assert s.0.height == m.height + ScaleY(v, ys[0] - d.startY);
    if |xs| > 1 {
      forall k | 0 <= k < |xs[1..]|
        ensures s.0.width + ScaleX(v, xs[1..][k] - s.1.startX) >= MinMaskSide
      {
        assert xs[1..][k] == xs[k + 1];
        ScaleAdditive(v, xs[0] - d.startX, xs[k + 1] - xs[0]);
        assert (xs[0] - d.startX) + (xs[k + 1] - xs[0]) == xs[k + 1] - d.startX;
      }
      forall k | 0 <= k < |ys[1..]|
        ensures s.0.height + ScaleY(v, ys[1..][k] - s.1.startY) >= MinMaskSide
      {
        assert ys[1..][k] == ys[k + 1];
        ScaleAdditive(v, ys[0] - d.startY, ys[k + 1] - ys[0]);
        assert (ys[0] - d.startY) + (ys[k + 1] - ys[0]) == ys[k + 1] - d.startY;
      }
      ResizeTelescopes(s.0, s.1, v, xs[1..], ys[1..]);
      var lx := xs[|xs| - 1];
      var ly := ys[|ys| - 1];
      assert xs[1..][|xs[1..]| - 1] == lx;
      assert ys[1..][|ys[1..]| - 1] == ly;
      ScaleAdditive(v, xs[0] - d.startX, lx - xs[0]);
      assert (xs[0] - d.startX) + (lx - xs[0]) == lx - d.startX;
      ScaleAdditive(v, ys[0] - d.startY, ly - ys[0]);
      assert (ys[0] - d.startY) + (ly - ys[0]) == ly - d.startY;
    }
  }

  // ---------------------------------------------------------------------------
  // Manual mosaic editor
  // ---------------------------------------------------------------------------

  /** The free-form editor settings of the manual mosaic editor. */
  datatype MosaicEditorState = MosaicEditorState(
    rotation: real, scale: real, panX: real, panY: real,
    cropWidth: int, cropHeight: int, columns: int, gapX: int, gapY: int)

  /** The editor the mosaic dialog opens with. */
  const InitialEditor: MosaicEditorState := MosaicEditorState(0.0, 1.0, 0.0, 0.0, 200, 300, 8, 0, 0)

  /** The ranges the editor's sliders allow. */
  predicate SliderRanges(e: MosaicEditorState) {
    -180.0 <= e.rotation <= 180.0 && 0.5 <= e.scale <= 3.0
    && 50 <= e.cropWidth <= 500 && 1 <= e.cropHeight <= 400
    && 1 <= e.columns <= 10 && 0 <= e.gapX <= 50 && 0 <= e.gapY <= 50
  }

  lemma InitialEditorInRange()
    ensures SliderRanges(InitialEditor)
  {
  }

  /** Whether the preview is being dragged, and the last pointer position. */
  datatype PanDrag = PanDrag(dragging: bool, lastX: real, lastY: real)

  function PanMouseDown(p: PanDrag, clientX: real, clientY: real): (r: PanDrag)
    ensures r.dragging && r.lastX == clientX && r.lastY == clientY
  {
    PanDrag(true, clientX, clientY)
  }

  function PanMouseUp(p: PanDrag): (r: PanDrag)
    ensures !r.dragging && r.lastX == p.lastX && r.lastY == p.lastY
  {
    p.(dragging := false)
  }

  /** Dragging shifts the pan by the pointer delta and nothing else. */
  function PanMouseMove(e: MosaicEditorState, p: PanDrag, clientX: real, clientY: real): (r: (MosaicEditorState, PanDrag))
    ensures !p.dragging ==> r == (e, p)
    ensures p.dragging ==> r.1 == PanDrag(true, clientX, clientY)
    ensures p.dragging ==> r.0.(panX := e.panX, panY := e.panY) == e
    ensures p.dragging ==> r.0.panX - e.panX == clientX - p.lastX && r.0.panY - e.panY == clientY - p.lastY
  {
    if !p.dragging then (e, p)
    else (e.(panX := e.panX + (clientX - p.lastX), panY := e.panY + (clientY - p.lastY)),
          PanDrag(true, clientX, clientY))
  }

  function PanMoves(e: MosaicEditorState, p: PanDrag, xs: seq<real>, ys: seq<real>): (r: (MosaicEditorState, PanDrag))
    requires |xs| == |ys|
    ensures r.1.dragging == p.dragging
    decreases |xs|
  {
    if xs == [] then (e, p)
    else
      var s := PanMouseMove(e, p, xs[0], ys[0]);
      PanMoves(s.0, s.1, xs[1..], ys[1..])
  }

  /**
   * After pressing at (x0, y0) and moving through a sequence of positions,
   * the pan has moved by the distance from the press to the last position.
   */
  lemma {:induction false} PanTelescopes(e: MosaicEditorState, p: PanDrag, xs: seq<real>, ys: seq<real>)
    requires p.dragging && |xs| == |ys| && xs != []
    ensures PanMoves(e, p, xs, ys).0.panX == e.panX + (xs[|xs| - 1] - p.lastX)
    ensures PanMoves(e, p, xs, ys).0.panY == e.panY + (ys[|ys| - 1] - p.lastY)
    ensures PanMoves(e, p, xs, ys).0.(panX := e.panX, panY := e.panY) == e
    decreases |xs|
  {
    var s := PanMouseMove(e, p, xs[0], ys[0]);
    if |xs| > 1 {
      PanTelescopes(s.0, s.1, xs[1..], ys[1..]);
      assert xs[1..][|xs[1..]| - 1] == xs[|xs| - 1];
      assert ys[1..][|ys[1..]| - 1] == ys[|ys| - 1];
    }
  }
}

=== FILE: mosaic.dfy ===
/**
 * Assembling a mosaic from the frames of a burst folder: which files take
 * part and in which order, the size of the output canvas and where each
 * frame's crop is placed. In kymogram mode (a single column of slices less
 * than 5 pixels high) the slices are stacked at the width of the preview
 * image instead.
 *
 * The rendering of each crop (rotation, scaling, panning) is not modelled;
 * only the integer layout is.
 */
module Mosaic {
  import opened Wrappers
  import opened Text
  import opened Mask

  /** An entry of the burst folder as the directory iterator lists it. */
  datatype Entry = Entry(name: string, isFile: bool, imageWidth: nat)

  /** `name` ends with `ext`, ignoring the case of ASCII letters. */
  predicate EndsWithIgnoringCase(name: string, ext: string) {
    |name| >= |ext| && ToLower(name[|name| - |ext|..]) == ext
  }

  /** A file whose name ends in `.jpg`, `.jpeg` or `.png`, in any letter case. */
  predicate IsImageEntry(e: Entry) {
    e.isFile
    && (EndsWithIgnoringCase(e.name, ".jpg") || EndsWithIgnoringCase(e.name, ".jpeg")
        || EndsWithIgnoringCase(e.name, ".png"))
  }

  /** The names of the image files, in directory order. */
  function ImageNames(entries: seq<Entry>): (r: seq<string>)
    ensures entries == [] ==> r == []
    ensures |r| <= |entries|
    ensures forall n :: n in r <==> exists k :: 0 <= k < |entries| && IsImageEntry(entries[k]) && entries[k].name == n
  {
    if entries == [] then []
    else
      var rest := ImageNames(entries[1..]);
      assert forall k :: 0 < k < |entries| ==> entries[k] == entries[1..][k - 1];
      if IsImageEntry(entries[0]) then [entries[0].name] + rest else rest
  }

  /**
   * Listing one more entry pushes its name exactly when it is an image:
   * one name per image entry, in directory order.
   */
  lemma {:induction false} ImageNamesAppend(entries: seq<Entry>, e: Entry)
    ensures ImageNames(entries + [e]) == ImageNames(entries) + (if IsImageEntry(e) then [e.name] else [])
    decreases |entries|
  {
    if entries == [] {
      assert entries + [e] == [e];
      assert [e][1..] == [];
    } else {
      var all := entries + [e];
      assert all[0] == entries[0];
      assert all[1..] == entries[1..] + [e];
      ImageNamesAppend(entries[1..], e);
    }
  }

  /** The image the manual editor previews: the first image file in directory order. */
  function Preview(entries: seq<Entry>): (r: Option<Entry>)
    ensures r.Some? <==> exists k :: 0 <= k < |entries| && IsImageEntry(entries[k])
    ensures r.Some? ==>
      exists k :: (0 <= k < |entries| && entries[k] == r.value && IsImageEntry(r.value)
                   && forall j :: 0 <= j < k ==> !IsImageEntry(entries[j]))
  {
    if entries == [] then None
    else if IsImageEntry(entries[0]) then Some(entries[0])
    else
      assert forall k :: 0 < k < |entries| ==> entries[k] == entries[1..][k - 1];
      var r := Preview(entries[1..]);
      if r.Some? then
        var k :| 0 <= k < |entries[1..]| && entries[1..][k] == r.value && IsImageEntry(r.value)
          && forall j :: 0 <= j < k ==> !IsImageEntry(entries[1..][j]);
        assert entries[k + 1] == r.value;
        r
      else r
  }

  // ---------------------------------------------------------------------------
  // Ordering the frames
  // ---------------------------------------------------------------------------

  predicate SortedNames(s: seq<string>) {
    forall i, j :: 0 <= i < j < |s| ==> LexLe(s[i], s[j])
  }

  /** Inserting a name into a sorted list, before the first name above it. */
  function Insert(x: string, s: seq<string>): (r: seq<string>)
    requires SortedNames(s)
    ensures SortedNames(r) && multiset(r) == multiset(s) + multiset{x}
    decreases |s|
  {
    if s == [] then [x]
    else if LexLe(x, s[0]) then
      InsertFrontSorted(x, s);
      [x] + s
    else
      LexLeTotal(x, s[0]);
      var rest := Insert(x, s[1..]);
      assert s == [s[0]] + s[1..];
      HeadBelowAll(s[0], s[1..], x, rest);
      [s[0]] + rest
  }

  lemma InsertFrontSorted(x: string, s: seq<string>)
    requires SortedNames(s) && s != [] && LexLe(x, s[0])
    ensures SortedNames([x] + s)
  {
    var r := [x] + s;
    forall i, j | 0 <= i < j < |r| ensures LexLe(r[i], r[j]) {
      if i == 0 {
        assert r[j] == s[j - 1];
        if j > 1 {
          assert LexLe(s[0], s[j - 1]);
          LexLeTransitive(x, s[0], s[j - 1]);
        }
      } else {
        assert r[i] == s[i - 1] && r[j] == s[j - 1];
      }
    }
  }

  /** A head below every element of a sorted tail keeps the list sorted. */
  lemma HeadBelowAll(h: string, s: seq<string>, x: string, rest: seq<string>)
    requires SortedNames([h] + s) && LexLe(h, x) && SortedNames(rest)
    requires multiset(rest) == multiset(s) + multiset{x}
    ensures SortedNames([h] + rest)
  {
    var r := [h] + rest;
    forall i, j | 0 <= i < j < |r| ensures LexLe(r[i], r[j]) {
      if i == 0 {
        var y := rest[j - 1];
        assert r[0] == h && r[j] == y;
        assert y in multiset(rest);
        if y != x {
          assert y in multiset(s);
          var k :| 0 <= k < |s| && s[k] == y;
          var hs := [h] + s;
          assert hs[0] == h && hs[k + 1] == y;
          assert LexLe(hs[0], hs[k + 1]);
        }
      } else {
        assert r[i] == rest[i - 1] && r[j] == rest[j - 1];
      }
    }
  }

  /** Sorting the frame names (insertion sort). */
  function SortNames(s: seq<string>): (r: seq<string>)
    ensures SortedNames(r) && multiset(r) == multiset(s)
    decreases |s|
  {
    if s == [] then []
    else
      assert s == [s[0]] + s[1..];
      Insert(s[0], SortNames(s[1..]))
  }

  /** Sorting sorted names changes nothing: the order is a function of the set of names. */
  lemma {:induction false} SortedUnique(a: seq<string>, b: seq<string>)
    requires SortedNames(a) && SortedNames(b) && multiset(a) == multiset(b)
    ensures a == b
    decreases |a|
  {
    if a != [] {
      SortedSameHead(a, b);
      assert a == [a[0]] + a[1..] && b == [b[0]] + b[1..];
      assert multiset(a[1..]) == multiset(b[1..]) by {
        assert multiset(a[1..]) == multiset(a) - multiset{a[0]};
        assert multiset(b[1..]) == multiset(b) - multiset{b[0]};
      }
      SortedTail(a);
      SortedTail(b);
      SortedUnique(a[1..], b[1..]);
    }
  }

  /** The first of a sorted list comes no later than any of its names. */
  lemma SortedFirstLeast(a: seq<string>, x: string)
    requires SortedNames(a) && x in multiset(a)
    ensures a != [] && LexLe(a[0], x)
  {
    var i :| 0 <= i < |a| && a[i] == x;
    if i > 0 {
      assert LexLe(a[0], a[i]);
    } else {
      LexLeReflexive(a[0]);
    }
  }

  /** Two sorted lists of the same names start with the same name. */
  lemma SortedSameHead(a: seq<string>, b: seq<string>)
    requires SortedNames(a) && SortedNames(b) && multiset(a) == multiset(b) && a != []
    ensures b != [] && a[0] == b[0]
  {
    assert a[0] in multiset(a);
    SortedFirstLeast(b, a[0]);
    SortedFirstLeast(a, b[0]);
    LexLeAntisymmetric(a[0], b[0]);
  }

  lemma SortedTail(a: seq<string>)
    requires SortedNames(a) && a != []
    ensures SortedNames(a[1..])
  {
    var t := a[1..];
    forall i, j | 0 <= i < j < |t| ensures LexLe(t[i], t[j]) {
      assert t[i] == a[i + 1] && t[j] == a[j + 1];
    }
  }

  lemma SortIdempotent(s: seq<string>)
    ensures SortNames(SortNames(s)) == SortNames(s)
  {
    SortedUnique(SortNames(SortNames(s)), SortNames(s));
  }

  // ---------------------------------------------------------------------------
  // Layout
  // ---------------------------------------------------------------------------

  /** Where a frame's crop is drawn on the output canvas. */
  datatype Placement = Placement(x: int, y: int, width: int, height: int)

  /** The output: canvas size, the frames in drawing order and their placements. */
  datatype Layout = Layout(width: int, height: int, kymogram: bool, order: seq<string>, tiles: seq<Placement>)

  datatype MosaicError =
    | NoPreview   // the editor has no preview image
    | NoImages    // the folder holds no image: the canvas has no area and no image is produced

  /** `columns || 8` */
  function UserColumns(columns: int): (c: int)
    ensures columns == 0 ==> c == 8
    ensures columns != 0 ==> c == columns
  {
    if columns == 0 then 8 else columns
  }

  /** Settings the layout arithmetic is meaningful for. */
  predicate LayoutSettings(e: MosaicEditorState) {
    e.columns >= 0 && e.cropWidth >= 0 && e.cropHeight >= 0 && e.gapX >= 0 && e.gapY >= 0
  }

  /** A single column of slices less than 5 pixels high. */
  predicate KymogramMode(e: MosaicEditorState) {
    e.cropHeight < 5 && UserColumns(e.columns) == 1
  }

  function MinInt(a: int, b: int): int { if a <= b then a else b }

  /** `Math.ceil(n / d)` for positive d. */
  function CeilDiv(n: nat, d: nat): (q: nat)
    requires d > 0
    ensures q * d >= n && (q == 0 || (q - 1) * d < n)
  {
    var q := (n + d - 1) / d;
    assert q * d <= n + d - 1 < q * d + d;
    q
  }

  function GridTile(i: nat, cols: nat, e: MosaicEditorState): Placement
    requires cols > 0
  {
    Placement((i % cols) * (e.cropWidth + e.gapX), (i / cols) * (e.cropHeight + e.gapY), e.cropWidth, e.cropHeight)
  }

  function Strip(i: nat, width: int, e: MosaicEditorState): Placement {
    Placement(0, i * e.cropHeight, width, e.cropHeight)
  }

  /**
   * The layout of `generateMosaicBatch`. Grid mode: `min(columns, N)`
   * columns, `ceil(N / columns)` rows, crops separated by the gaps, frame i
   * in row-major position i. Kymogram mode: the slices stacked from the
   * top at the preview's width.
   */
  function Compose(entries: seq<Entry>, e: MosaicEditorState, preview: Option<Entry>): (r: Result<Layout, MosaicError>)
    requires LayoutSettings(e)
    ensures preview.None? ==> r == Failure(NoPreview)
    ensures preview.Some? && ImageNames(entries) == [] ==> r == Failure(NoImages)
    ensures preview.Some? && ImageNames(entries) != [] ==> r.Success?
    ensures r.Success? ==>
      var n := |ImageNames(entries)|;
      n > 0 && |r.value.order| == n && |r.value.tiles| == n
      && SortedNames(r.value.order) && multiset(r.value.order) == multiset(ImageNames(entries))
      && (r.value.kymogram <==> KymogramMode(e))
    ensures r.Success? && KymogramMode(e) ==> r.value == KymogramOf(r.value.order, preview.value.imageWidth, e)
    ensures r.Success? && !KymogramMode(e) ==> r.value == GridOf(r.value.order, e)
  {
    if preview.None? then Failure(NoPreview)
    else
      var names := ImageNames(entries);
      var n := |names|;
      if n == 0 then Failure(NoImages)
      else
        var order := SortNames(names);
        if KymogramMode(e) then Success(KymogramOf(order, preview.value.imageWidth, e))
        else Success(GridOf(order, e))
  }

  /** The grid arrangement of frames in the given order. */
  function GridOf(order: seq<string>, e: MosaicEditorState): (r: Layout)
    requires LayoutSettings(e) && order != []
    ensures r.order == order && |r.tiles| == |order| && !r.kymogram
  {
    var n := |order|;
    var cols := GridColumns(n, e);
    var rows := CeilDiv(n, cols);
    Layout(e.cropWidth * cols + e.gapX * (cols - 1), e.cropHeight * rows + e.gapY * (rows - 1), false, order,
           seq(n, i requires 0 <= i < n => GridTile(i, cols, e)))
  }

  /** The kymogram arrangement: slices stacked at the given width. */
  function KymogramOf(order: seq<string>, width: nat, e: MosaicEditorState): (r: Layout)
    requires LayoutSettings(e)
    ensures r.order == order && |r.tiles| == |order| && r.kymogram
  {
    var n := |order|;
    Layout(width, e.cropHeight * n, true, order, seq(n, i requires 0 <= i < n => Strip(i, width, e)))
  }

  /** Columns of a grid of n frames. */
  function GridColumns(n: nat, e: MosaicEditorState): (c: nat)
    requires LayoutSettings(e) && n > 0
    ensures 1 <= c <= n
  {
    MinInt(UserColumns(e.columns), n)
  }

  predicate Inside(p: Placement, width: int, height: int) {
    0 <= p.x && 0 <= p.y && p.x + p.width <= width && p.y + p.height <= height
  }

  predicate Disjoint(p: Placement, q: Placement) {
    p.x + p.width <= q.x || q.x + q.width <= p.x || p.y + p.height <= q.y || q.y + q.height <= p.y
  }

  lemma MulLe(a: nat, b: nat, c: nat)
    requires a <= b
    ensures a * c <= b * c
  {
  }

  /** The far edge of the tile in position c of cnt is within the extent of cnt tiles. */
  lemma TileExtent(c: nat, cnt: nat, w: nat, g: nat)
    requires c < cnt
    ensures c * (w + g) + w <= w * cnt + g * (cnt - 1)
  {
    MulLe(c, cnt - 1, w + g);
    assert (cnt - 1) * (w + g) == (cnt - 1) * w + (cnt - 1) * g;
    assert (cnt - 1) * w + w == cnt * w;
  }

  /** The row of frame i is below `rows` when `rows · cols` frames fit. */
  lemma RowInRange(i: nat, n: nat, cols: nat, rows: nat)
    requires 0 < cols && i < n <= rows * cols
    ensures i / cols < rows
  {
    var row := i / cols;
    assert row * cols <= i;
    if row >= rows {
      MulLe(rows, row, cols);
    }
  }

  /** A grid tile lies inside the canvas. */
  lemma GridTileInside(i: nat, n: nat, cols: nat, rows: nat, e: MosaicEditorState)
    requires LayoutSettings(e) && 0 < cols && i < n && rows * cols >= n
    ensures Inside(GridTile(i, cols, e), e.cropWidth * cols + e.gapX * (cols - 1),
                   e.cropHeight * rows + e.gapY * (rows - 1))
  {
    RowInRange(i, n, cols, rows);
    TileExtent(i % cols, cols, e.cropWidth, e.gapX);
    TileExtent(i / cols, rows, e.cropHeight, e.gapY);
  }

  /** Distinct frames get non-overlapping grid tiles. */
  lemma GridTilesDisjoint(i: nat, j: nat, cols: nat, e: MosaicEditorState)
    requires LayoutSettings(e) && 0 < cols && i != j
    ensures Disjoint(GridTile(i, cols, e), GridTile(j, cols, e))
  {
    var ci, cj, ri, rj := i % cols, j % cols, i / cols, j / cols;
    var p, q := GridTile(i, cols, e), GridTile(j, cols, e);
    if ci != cj {
      SeparatedSlots(ci, cj, e.cropWidth, e.gapX);
      assert p.x == ci * (e.cropWidth + e.gapX) && q.x == cj * (e.cropWidth + e.gapX);
    } else {
      assert ri != rj by {
        assert i == ri * cols + ci && j == rj * cols + cj;
      }
      SeparatedSlots(ri, rj, e.cropHeight, e.gapY);
      assert p.y == ri * (e.cropHeight + e.gapY) && q.y == rj * (e.cropHeight + e.gapY);
    }
  }

  /** Two different slots of size `w` with gaps `g` do not overlap. */
  lemma SeparatedSlots(a: nat, b: nat, w: nat, g: nat)
    requires a != b
    ensures a * (w + g) + w <= b * (w + g) || b * (w + g) + w <= a * (w + g)
  {
    var lo, hi := if a < b then a else b, if a < b then b else a;
    MulLe(lo + 1, hi, w + g);
    assert (lo + 1) * (w + g) == lo * (w + g) + (w + g);
  }

  /**
   * Grid mode: the canvas is `cropW·cols + gapX·(cols−1)` by
   * `cropH·rows + gapY·(rows−1)` with `cols = min(columns, N)` and
   * `rows = ceil(N / cols)`; frame i sits at column `i mod cols` and row
   * `i div cols`; every tile lies inside the canvas and no two overlap.
   */
  lemma GridLayout(order: seq<string>, e: MosaicEditorState)
    requires LayoutSettings(e) && order != []
    ensures var r := GridOf(order, e);
      var n := |order|;
      var cols := GridColumns(n, e);
      var rows := CeilDiv(n, cols);
      r.width == e.cropWidth * cols + e.gapX * (cols - 1)
      && r.height == e.cropHeight * rows + e.gapY * (rows - 1)
      && rows * cols >= n && (rows - 1) * cols < n
      && (forall i :: 0 <= i < n ==> r.tiles[i] == GridTile(i, cols, e))
      && (forall i :: 0 <= i < n ==> Inside(r.tiles[i], r.width, r.height))
      && (forall i, j :: 0 <= i < j < n ==> Disjoint(r.tiles[i], r.tiles[j]))
  {
    var r := GridOf(order, e);
    var n := |order|;
    var cols := GridColumns(n, e);
    var rows := CeilDiv(n, cols);
    forall i | 0 <= i < n ensures Inside(r.tiles[i], r.width, r.height) {
      GridTileInside(i, n, cols, rows, e);
    }
    forall i, j | 0 <= i < j < n ensures Disjoint(r.tiles[i], r.tiles[j]) {
      GridTilesDisjoint(i, j, cols, e);
    }
  }

  /**
   * Kymogram mode: the canvas is as wide as the preview image and
   * `cropH · N` high; slice i spans the full width at height `i · cropH`,
   * the slices do not overlap and together fill the canvas from the top.
   */
  lemma KymogramLayout(order: seq<string>, width: nat, e: MosaicEditorState)
    requires LayoutSettings(e) && order != []
    ensures var r := KymogramOf(order, width, e);
      var n := |order|;
      r.width == width && r.height == e.cropHeight * n
      && (forall i :: 0 <= i < n ==> r.tiles[i] == Strip(i, width, e))
      && (forall i :: 0 <= i < n ==> Inside(r.tiles[i], r.width, r.height))
      && (forall i, j :: 0 <= i < j < n ==> r.tiles[i].y + e.cropHeight <= r.tiles[j].y)
      && r.tiles[n - 1].y + e.cropHeight == r.height
  {
    var r := KymogramOf(order, width, e);
    var n := |order|;
    var h := e.cropHeight;
    forall i | 0 <= i < n ensures Inside(r.tiles[i], r.width, r.height) {
      MulLe(i + 1, n, h);
    }
    forall i, j | 0 <= i < j < n ensures r.tiles[i].y + h <= r.tiles[j].y {
      MulLe(i + 1, j, h);
    }
  }

  /**
   * The kymogram takes its width from the editor's preview, which is the
   * first image in directory order, not the first frame of the sorted order.
   */
  lemma KymogramWidthFromPreview(entries: seq<Entry>, e: MosaicEditorState)
    requires LayoutSettings(e) && KymogramMode(e) && ImageNames(entries) != []
    requires Preview(entries).Some?
    ensures var r := Compose(entries, e, Preview(entries));
      r.Success? && r.value.kymogram && r.value.width == Preview(entries).value.imageWidth
  {
  }

  /** A folder with images always has a preview. */
  lemma ImagesHavePreview(entries: seq<Entry>)
    requires ImageNames(entries) != []
    ensures Preview(entries).Some?
  {
    var n := ImageNames(entries)[0];
    assert n in ImageNames(entries);
  }
}

=== FILE: naming.dfy ===
/**
 * File and folder names produced by the capture station: the burst frame
 * names `IMG_0001.jpg`, the dated `..._FOTO_...`/`..._MOSAICO_...` names and
 * the burst folder name. Wall-clock readings arrive as parameters.
 */
module Naming {
  import opened Wrappers
  import opened Text

  /** Stand-in used when no patient name was entered. */
  const DefaultPatient: string := "SemPaciente"

  /** A calendar date as `Date.prototype.toISOString` prints it (UTC). */
  datatype CalendarDate = CalendarDate(year: nat, month: nat, day: nat)

  /** A local time of day as `Date.prototype.toTimeString` prints it. */
  datatype ClockTime = ClockTime(hours: nat, minutes: nat, seconds: nat)

  predicate ValidDate(d: CalendarDate) {
    d.year <= 9999 && 1 <= d.month <= 12 && 1 <= d.day <= 31
  }

  predicate ValidTime(t: ClockTime) {
    t.hours < 24 && t.minutes < 60 && t.seconds < 60
  }

  /** The kinds of file `generateFilename` names. */
  datatype FileKind = Photo | Video | Burst | Mosaic

  function KindTag(k: FileKind): string {
    match k
    case Photo => "FOTO"
    case Video => "VIDEO"
    case Burst => "BURST"
    case Mosaic => "MOSAICO"
  }

  lemma KindTagPortable(k: FileKind)
    ensures AllPathChars(KindTag(k))
  {
    var t := KindTag(k);
    forall i | 0 <= i < |t| ensures IsPathChar(t[i]) {
      assert IsUpperLetter(t[i]);
    }
  }

  /** `(patientName || 'SemPaciente').replace(/[^a-z0-9]/gi, '_')`. */
  function SafeName(patientName: string): (r: string)
    ensures r != [] && AllNameChars(r)
    ensures patientName == [] ==> r == DefaultPatient
    ensures patientName != [] ==> |r| == |patientName|
    ensures forall i :: 0 <= i < |patientName| && IsAlnum(patientName[i]) ==> r[i] == patientName[i]
    ensures forall i :: 0 <= i < |patientName| && !IsAlnum(patientName[i]) ==> r[i] == '_'
  {
    SanitizeOnlyNameChars(DefaultPatient);
    SanitizeOnlyNameChars(patientName);
    DefaultPatientClean();
    Sanitize(if patientName == [] then DefaultPatient else patientName)
  }

  /** The default name needs no sanitising. */
  lemma DefaultPatientClean()
    ensures Sanitize(DefaultPatient) == DefaultPatient
  {
    var d := DefaultPatient;
    assert d == ['S', 'e', 'm', 'P', 'a', 'c', 'i', 'e', 'n', 't', 'e'];
    forall i | 0 <= i < |d| ensures IsAlnum(d[i]) {
      assert IsLowerLetter(d[i]) || IsUpperLetter(d[i]);
    }
    SanitizeKeepsAlnum(d);
  }

  /** A character that is safe in a portable file or directory name. */
  predicate IsPathChar(c: char) { IsNameChar(c) || c == '-' }

  predicate AllPathChars(s: string) { forall i :: 0 <= i < |s| ==> IsPathChar(s[i]) }

  lemma PathCharsConcat(a: string, b: string)
    ensures AllPathChars(a + b) <==> AllPathChars(a) && AllPathChars(b)
  {
    if AllPathChars(a + b) {
      forall i | 0 <= i < |a| ensures IsPathChar(a[i]) { assert a[i] == (a + b)[i]; }
      forall i | 0 <= i < |b| ensures IsPathChar(b[i]) { assert b[i] == (a + b)[|a| + i]; }
    }
    if AllPathChars(a) && AllPathChars(b) {
      forall i | 0 <= i < |a + b| ensures IsPathChar((a + b)[i]) {
        if i >= |a| { assert (a + b)[i] == b[i - |a|]; } else { assert (a + b)[i] == a[i]; }
      }
    }
  }

  lemma DigitsArePathChars(s: string)
    requires AllDigits(s)
    ensures AllPathChars(s)
  {
  }

  lemma NameCharsArePathChars(s: string)
    requires AllNameChars(s)
    ensures AllPathChars(s)
  {
  }

  /** `a-b-c` for a four-digit year and two-digit month and day. */
  function DashJoin(a: string, b: string, c: string): (r: string)
    requires |a| == 4 && |b| == 2 && |c| == 2
    ensures |r| == 10 && r[4] == '-' && r[7] == '-'
    ensures r[..4] == a && r[5..7] == b && r[8..] == c
  {
    a + "-" + b + "-" + c
  }

  /** `YYYY-MM-DD`, the date part of `toISOString()`. */
  function IsoDate(d: CalendarDate): (r: string)
    requires ValidDate(d)
    ensures |r| == 10 && r[4] == '-' && r[7] == '-'
    ensures AllDigits(r[..4]) && DecimalValue(r[..4]) == d.year
    ensures AllDigits(r[5..7]) && DecimalValue(r[5..7]) == d.month
    ensures AllDigits(r[8..]) && DecimalValue(r[8..]) == d.day
  {
    ZeroPad4(d.year);
    ZeroPad2(d.month);
    ZeroPad2(d.day);
    DashJoin(ZeroPad(d.year, 4), ZeroPad(d.month, 2), ZeroPad(d.day, 2))
  }

  /** An ISO date is made of digits and dashes. */
  lemma IsoDatePortable(d: CalendarDate)
    requires ValidDate(d)
    ensures AllPathChars(IsoDate(d))
  {
    var r := IsoDate(d);
    forall i | 0 <= i < 10 ensures IsPathChar(r[i]) {
      if i < 4 { assert r[i] == r[..4][i]; }
      else if 5 <= i < 7 { assert r[i] == r[5..7][i - 5]; }
      else if 8 <= i { assert r[i] == r[8..][i - 8]; }
    }
  }

  /** Three two-digit fields side by side. */
  function Join2x3(a: string, b: string, c: string): (r: string)
    requires |a| == 2 && |b| == 2 && |c| == 2
    ensures |r| == 6 && r[..2] == a && r[2..4] == b && r[4..] == c
  {
    a + b + c
  }

  /** `HHMMSS`: `toTimeString()` up to the first blank, colons removed. */
  function CompactTime(t: ClockTime): (r: string)
    requires ValidTime(t)
    ensures |r| == 6
    ensures AllDigits(r[..2]) && DecimalValue(r[..2]) == t.hours
    ensures AllDigits(r[2..4]) && DecimalValue(r[2..4]) == t.minutes
    ensures AllDigits(r[4..]) && DecimalValue(r[4..]) == t.seconds
  {
    ZeroPad2(t.hours);
    ZeroPad2(t.minutes);
    ZeroPad2(t.seconds);
    Join2x3(ZeroPad(t.hours, 2), ZeroPad(t.minutes, 2), ZeroPad(t.seconds, 2))
  }

  lemma CompactTimeDigits(t: ClockTime)
    requires ValidTime(t)
    ensures AllDigits(CompactTime(t))
  {
    var r := CompactTime(t);
    forall i | 0 <= i < 6 ensures IsDigit(r[i]) {
      if i < 2 { assert r[i] == r[..2][i]; }
      else if i < 4 { assert r[i] == r[2..4][i - 2]; }
      else { assert r[i] == r[4..][i - 4]; }
    }
  }

  /** `IMG_<digits>.<ext>` */
  function FramePattern(digits: string, ext: string): (r: string)
    ensures |r| == 5 + |digits| + |ext| && r[..4] == "IMG_"
    ensures r[4..|r| - |ext| - 1] == digits && r[|r| - |ext| - 1] == '.' && r[|r| - |ext|..] == ext
  {
    "IMG_" + digits + "." + ext
  }

  /** `IMG_` + the index padded with zeros to four digits + `.` + extension. */
  function FrameName(index: nat, ext: string): (r: string)
    ensures |r| >= 9 + |ext| && r[..4] == "IMG_"
    ensures index < 10000 ==> |r| == 9 + |ext| && r[8] == '.' && r[9..] == ext
    ensures AllDigits(r[4..|r| - |ext| - 1]) && r[|r| - |ext| - 1] == '.'
    ensures DecimalValue(r[4..|r| - |ext| - 1]) == index
  {
    SmallPowers();
    ZeroPadWidth(index, 4);
    ZeroPadRoundTrip(index, 4);
    FramePattern(ZeroPad(index, 4), ext)
  }

  /** `r` is the four parts in order with one underscore between neighbours. */
  predicate JoinedBy(r: string, a: string, b: string, c: string, d: string) {
    |r| == |a| + |b| + |c| + |d| + 3
    && r[..|a|] == a && r[|a|] == '_'
    && r[|a| + 1..|a| + 1 + |b|] == b && r[|a| + 1 + |b|] == '_'
    && r[|a| + |b| + 2..|a| + |b| + 2 + |c|] == c && r[|a| + |b| + |c| + 2] == '_'
    && r[|a| + |b| + |c| + 3..] == d
  }

  /** `a_b_c_d`: the stem shared by the dated file names and the burst folder. */
  function UnderscoreJoin(a: string, b: string, c: string, d: string): (r: string)
    ensures JoinedBy(r, a, b, c, d)
    ensures AllPathChars(a) && AllPathChars(b) && AllPathChars(c) && AllPathChars(d) ==> AllPathChars(r)
  {
    PathCharsConcat(a, "_");
    PathCharsConcat(a + "_", b);
    PathCharsConcat(a + "_" + b, "_");
    PathCharsConcat(a + "_" + b + "_", c);
    PathCharsConcat(a + "_" + b + "_" + c, "_");
    PathCharsConcat(a + "_" + b + "_" + c + "_", d);
    a + "_" + b + "_" + c + "_" + d
  }

  /** The parts and the underscores determine the joined string: there is only one. */
  lemma JoinedByUnique(r: string, s: string, a: string, b: string, c: string, d: string)
    requires JoinedBy(r, a, b, c, d) && JoinedBy(s, a, b, c, d)
    ensures r == s
  {
    forall i | 0 <= i < |r|
      ensures r[i] == s[i]
    {
      if i < |a| {
        assert r[..|a|][i] == s[..|a|][i];
      } else if i == |a| {
      } else if i < |a| + 1 + |b| {
        assert r[|a| + 1..|a| + 1 + |b|][i - |a| - 1] == s[|a| + 1..|a| + 1 + |b|][i - |a| - 1];
      } else if i == |a| + 1 + |b| {
      } else if i < |a| + |b| + 2 + |c| {
        assert r[|a| + |b| + 2..|a| + |b| + 2 + |c|][i - |a| - |b| - 2]
            == s[|a| + |b| + 2..|a| + |b| + 2 + |c|][i - |a| - |b| - 2];
      } else if i == |a| + |b| + |c| + 2 {
      } else {
        assert r[|a| + |b| + |c| + 3..][i - |a| - |b| - |c| - 3] == s[|a| + |b| + |c| + 3..][i - |a| - |b| - |c| - 3];
      }
    }
  }

  /** `date_name_TAG_time`, portable whenever the tag is. */
  function DatedStem(date: CalendarDate, time: ClockTime, patientName: string, tag: string): (r: string)
    requires ValidDate(date) && ValidTime(time)
    ensures |r| == 19 + |SafeName(patientName)| + |tag|
    ensures JoinedBy(r, IsoDate(date), SafeName(patientName), tag, CompactTime(time))
    ensures AllPathChars(tag) ==> AllPathChars(r)
  {
    IsoDatePortable(date);
    CompactTimeDigits(time);
    DigitsArePathChars(CompactTime(time));
    NameCharsArePathChars(SafeName(patientName));
    UnderscoreJoin(IsoDate(date), SafeName(patientName), tag, CompactTime(time))
  }

  /** `stem.ext` */
  function WithExtension(stem: string, ext: string): (r: string)
    ensures |r| == |stem| + 1 + |ext| && r[..|r| - |ext| - 1] == stem
    ensures r[|r| - |ext| - 1] == '.' && r[|r| - |ext|..] == ext
    ensures |stem| >= 10 ==> r[..10] == stem[..10]
  {
    stem + "." + ext
  }

  /**
   * `date_name_TYPE_time.ext`: the unnumbered file name, whose part before
   * the final dot uses only portable characters.
   */
  function DatedFilename(kind: FileKind, ext: string, date: CalendarDate, time: ClockTime,
                         patientName: string): (r: string)
    requires ValidDate(date) && ValidTime(time)
    ensures |r| == 20 + |SafeName(patientName)| + |KindTag(kind)| + |ext|
    ensures r[|r| - |ext| - 1] == '.' && r[|r| - |ext|..] == ext
    ensures AllPathChars(r[..|r| - |ext| - 1])
    ensures JoinedBy(r[..|r| - |ext| - 1], IsoDate(date), SafeName(patientName), KindTag(kind), CompactTime(time))
  {
    KindTagPortable(kind);
    WithExtension(DatedStem(date, time, patientName, KindTag(kind)), ext)
  }

  /**
   * `generateFilename(type, ext, index)`: a numbered frame name exactly when
   * a burst index is given, otherwise the dated name.
   */
  function GenerateFilename(kind: FileKind, ext: string, index: Option<nat>,
                            date: CalendarDate, time: ClockTime, patientName: string): (r: string)
    requires ValidDate(date) && ValidTime(time)
    ensures kind == Burst && index.Some? ==> r == FrameName(index.value, ext)
    ensures !(kind == Burst && index.Some?) ==> r == DatedFilename(kind, ext, date, time, patientName)
  {
    if kind == Burst && index.Some? then FrameName(index.value, ext)
    else DatedFilename(kind, ext, date, time, patientName)
  }

  /** The burst sub-folder: `date_name_BURST_time`, made of portable characters. */
  function BurstFolderName(date: CalendarDate, time: ClockTime, patientName: string): (r: string)
    requires ValidDate(date) && ValidTime(time)
    ensures AllPathChars(r) && |r| == 24 + |SafeName(patientName)|
    ensures JoinedBy(r, IsoDate(date), SafeName(patientName), "BURST", CompactTime(time))
  {
    assert AllPathChars("BURST");
    DatedStem(date, time, patientName, "BURST")
  }

  /**
   * The burst folder is named exactly like an unnumbered `BURST` file
   * without its extension.
   */
  lemma BurstFolderMatchesFilename(date: CalendarDate, time: ClockTime, patientName: string, ext: string)
    requires ValidDate(date) && ValidTime(time)
    ensures GenerateFilename(Burst, ext, None, date, time, patientName)
      == BurstFolderName(date, time, patientName) + "." + ext
  {
  }

  // ---------------------------------------------------------------------------
  // Reading a frame name back
  // ---------------------------------------------------------------------------

  /** The length of the run of digits at the start of `s`. */
  function DigitRun(s: string): (n: nat)
    ensures n <= |s| && AllDigits(s[..n])
    ensures n < |s| ==> !IsDigit(s[n])
  {
    if s == [] || !IsDigit(s[0]) then 0
    else
      var n := 1 + DigitRun(s[1..]);
      assert s[..n] == [s[0]] + s[1..][..n - 1];
      n
  }

  /** The frame index encoded in an `IMG_<digits>.<ext>` name, if any. */
  function FrameIndex(name: string): Option<nat> {
    if |name| < 4 || name[..4] != "IMG_" then None
    else
      var digits := DigitRun(name[4..]);
      if digits == 0 || 4 + digits >= |name| || name[4 + digits] != '.' then None
      else
        assert name[4..4 + digits] == name[4..][..digits];
        Some(DecimalValue(name[4..4 + digits]))
  }

  /** Every frame name reads back as the index it was made from. */
  lemma FrameNameRoundTrip(index: nat, ext: string)
    ensures FrameIndex(FrameName(index, ext)) == Some(index)
  {
    var r := FrameName(index, ext);
    var k := |r| - |ext| - 1;
    assert 4 < k < |r| && r[..4] == "IMG_" && AllDigits(r[4..k]) && r[k] == '.';
    assert DecimalValue(r[4..k]) == index;
    FrameIndexReads(r, k);
  }

  /** A name `IMG_<digits>.<rest>` reads as the value of its digits. */
  lemma FrameIndexReads(r: string, k: nat)
    requires 4 < k < |r| && r[..4] == "IMG_" && AllDigits(r[4..k]) && r[k] == '.'
    ensures FrameIndex(r) == Some(DecimalValue(r[4..k]))
  {
    var d := r[4..k];
    assert r[4..] == d + r[k..];
    assert r[k..][0] == '.';
    DigitRunStopsAt(d, r[k..]);
    assert r[4..][..|d|] == d;
  }

  lemma {:induction false} DigitRunStopsAt(d: string, rest: string)
    requires AllDigits(d) && (rest == [] || !IsDigit(rest[0]))
    ensures DigitRun(d + rest) == |d|
    decreases |d|
  {
    if d != [] {
      assert (d + rest)[1..] == d[1..] + rest;
      DigitRunStopsAt(d[1..], rest);
    } else {
      assert d + rest == rest;
    }
  }

  /** Distinct indices give distinct frame names. */
  lemma FrameNameInjective(i: nat, j: nat, ext: string)
    requires FrameName(i, ext) == FrameName(j, ext)
    ensures i == j
  {
    FrameNameRoundTrip(i, ext);
    FrameNameRoundTrip(j, ext);
  }

  // ---------------------------------------------------------------------------
  // Order of frame names
  // ---------------------------------------------------------------------------

  /** The value of a digit string read from its first digit. */
  lemma {:induction false} DecimalValueFront(s: string)
    requires AllDigits(s) && s != []
    ensures DecimalValue(s) == DigitValue(s[0]) * Pow10(|s| - 1) + DecimalValue(s[1..])
    decreases |s|
  {
    if |s| > 1 {
      var init, tail := s[..|s| - 1], s[1..];
      assert init[0] == s[0];
      assert init[1..] == tail[..|tail| - 1];
      assert tail[|tail| - 1] == s[|s| - 1];
      DecimalValueFront(init);
      ShiftFront(DigitValue(s[0]), Pow10(|s| - 2), DecimalValue(init[1..]), DigitValue(s[|s| - 1]),
                 DecimalValue(init), DecimalValue(tail), DecimalValue(s));
    }
  }

  /** The arithmetic step of `DecimalValueFront`: appending a digit multiplies the leading weight by ten. */
  lemma ShiftFront(a: int, p: int, middle: int, last: int, vInit: int, vTail: int, vAll: int)
    requires vInit == a * p + middle && vTail == 10 * middle + last && vAll == 10 * vInit + last
    ensures vAll == a * (10 * p) + vTail
  {
    assert 10 * (a * p) == a * (10 * p);
  }

  lemma {:induction false} DecimalValueBound(s: string)
    requires AllDigits(s)
    ensures DecimalValue(s) < Pow10(|s|)
    decreases |s|
  {
    if s != [] {
      DecimalValueBound(s[..|s| - 1]);
    }
  }

  lemma LeadingDigitDecides(a: nat, b: nat, ra: nat, rb: nat, p: nat)
    requires a < b && ra < p && rb < p
    ensures a * p + ra < b * p + rb
  {
    assert (b - a) * p >= p by {
      assert b - a >= 1;
    }
    assert b * p == a * p + (b - a) * p;
  }

  /**
   * Digit strings of equal length followed by the same tail compare,
   * character by character, exactly as the numbers they denote.
   */
  lemma {:induction false} LexLeDigitsNumeric(x: string, y: string, tail: string)
    requires AllDigits(x) && AllDigits(y) && |x| == |y|
    ensures LexLe(x + tail, y + tail) <==> DecimalValue(x) <= DecimalValue(y)
    decreases |x|
  {
    if x == [] {
      assert x + tail == y + tail;
      LexLeReflexive(x + tail);
    } else {
      DecimalValueFront(x);
      DecimalValueFront(y);
      DecimalValueBound(x[1..]);
      DecimalValueBound(y[1..]);
      var p := Pow10(|x| - 1);
      assert (x + tail)[0] == x[0] && (y + tail)[0] == y[0];
      assert (x + tail)[1..] == x[1..] + tail;
      assert (y + tail)[1..] == y[1..] + tail;
      if x[0] == y[0] {
        LexLeDigitsNumeric(x[1..], y[1..], tail);
      } else if x[0] < y[0] {
        LeadingDigitDecides(DigitValue(x[0]), DigitValue(y[0]), DecimalValue(x[1..]), DecimalValue(y[1..]), p);
      } else {
        LeadingDigitDecides(DigitValue(y[0]), DigitValue(x[0]), DecimalValue(y[1..]), DecimalValue(x[1..]), p);
      }
    }
  }

  lemma FrameNameShape(i: nat, ext: string)
    requires i < 10000
    ensures FrameName(i, ext) == "IMG_" + (ZeroPad(i, 4) + ("." + ext))
  {
    SmallPowers();
    ZeroPadWidth(i, 4);
  }

  /**
   * Up to index 9999 the plain character order of frame names is their
   * numeric order, so a name sort lists the frames in capture order.
   */
  lemma FrameNameOrder(i: nat, j: nat, ext: string)
    requires i < 10000 && j < 10000
    ensures LexLe(FrameName(i, ext), FrameName(j, ext)) <==> i <= j
  {
    var di, dj := ZeroPad(i, 4), ZeroPad(j, 4);
    ZeroPad4(i);
    ZeroPad4(j);
    var tail := "." + ext;
    FrameNameShape(i, ext);
    FrameNameShape(j, ext);
    LexLeCommonPrefix("IMG_", di + tail, dj + tail);
    LexLeDigitsNumeric(di, dj, tail);
  }
}

=== FILE: photokey.dfy ===
/**
 * The photo key (or button) of the capture station. Pressing it checks the
 * folder permission when a folder is chosen and then arms a one-second
 * timer whose expiry starts a burst; releasing it disarms the timer and then
 * either stops the running burst or, when none runs, takes one single photo.
 *
 * Both the key-down handler and `startBurst` suspend on `await`. The state
 * below therefore counts the handlers and starts that are suspended, and
 * their resumption is an event of its own, so that a release can fall
 * between a press and the timer it arms, or between the timer and the
 * burst it starts. `startBurst` tests `isBursting` before it suspends, so
 * two starts can both pass that test, and each successful start schedules
 * an animation-frame loop of its own; the live loops are counted too.
 */
module PhotoKey {
  import opened Wrappers
  import opened Naming
  import opened Burst

  /**
   * `held`: the last key event was a press (the handler itself does not
   * look at this; it records what the user is doing). `armed`: the timer
   * reference is set; it is not cleared when the timer fires, only on
   * release. `ticking`: the timer in the reference has neither fired nor
   * been cleared. `strays`: timers still scheduled whose reference was
   * overwritten, so that no release can clear them. `awaiting`: key-down
   * handlers suspended in the permission check. `starting`: `startBurst`
   * calls that passed the `isBursting` test and are suspended before their
   * loop is scheduled. `bursting`: the `isBursting` state. `loops`: the
   * animation-frame loops still scheduling themselves; the sampler's
   * `running` is the loop handle reference being set.
   */
  datatype KeyState = KeyState(held: bool, armed: bool, ticking: bool, strays: nat, awaiting: nat, starting: nat,
                               bursting: bool, loops: nat)

  const Idle: KeyState := KeyState(false, false, false, 0, 0, 0, false, 0)

  /** How long the key must be held before a burst starts, in milliseconds. */
  const HoldDelay: nat := 1000

  /** What a key event makes the station do besides changing state. */
  datatype Effect = NoEffect | SinglePhoto | BurstEnded(session: Option<BurstSession>)

  /** A new timer goes into the reference; a timer still ticking there is orphaned. */
  function Arm(k: KeyState): (r: KeyState)
    ensures r.armed && r.ticking
    ensures r.strays == k.strays + (if k.ticking then 1 else 0)
    ensures r.held == k.held && r.awaiting == k.awaiting && r.starting == k.starting
    ensures r.bursting == k.bursting && r.loops == k.loops
  {
    k.(armed := true, ticking := true, strays := k.strays + if k.ticking then 1 else 0)
  }

  /**
   * Key down: nothing happens while the timer reference is set. Otherwise,
   * with a folder chosen the handler suspends in the permission check, and
   * without one it arms the timer at once.
   */
  function PhotoDown(k: KeyState, hasDirectory: bool): (r: KeyState)
    ensures r.held
    ensures k.armed ==> r == k.(held := true)
    ensures !k.armed && hasDirectory ==> !r.armed && r.awaiting == k.awaiting + 1 && r.ticking == k.ticking
    ensures !k.armed && !hasDirectory ==> r.armed && r.ticking && r.awaiting == k.awaiting
    ensures r.starting == k.starting && r.bursting == k.bursting && r.loops == k.loops
  {
    var pressed := k.(held := true);
    if k.armed then pressed
    else if hasDirectory then pressed.(awaiting := k.awaiting + 1)
    else Arm(pressed)
  }

  /**
   * A suspended key-down handler resumes after the permission check and
   * arms the timer, whether or not the key is still held.
   */
  function PermissionResolved(k: KeyState): (r: KeyState)
    requires k.awaiting > 0
    ensures r.armed && r.ticking && r.held == k.held
    ensures r.awaiting == k.awaiting - 1 && r.starting == k.starting
    ensures r.bursting == k.bursting && r.loops == k.loops
  {
    Arm(k).(awaiting := k.awaiting - 1)
  }

  /** `startBurst` is called: it suspends only if no burst is marked as running. */
  function Called(k: KeyState): (r: KeyState)
    ensures r.starting == k.starting + (if k.bursting then 0 else 1)
    ensures r == k.(starting := r.starting)
  {
    if k.bursting then k else k.(starting := k.starting + 1)
  }

  /** The timer in the reference fires and calls `startBurst`; the reference stays set. */
  function TimerFires(k: KeyState): (r: KeyState)
    requires k.ticking
    ensures r.armed == k.armed && !r.ticking && r.held == k.held
    ensures !k.bursting ==> r.starting == k.starting + 1
    ensures k.bursting ==> r.starting == k.starting
    ensures r.awaiting == k.awaiting && r.strays == k.strays && r.bursting == k.bursting && r.loops == k.loops
  {
    Called(k.(ticking := false))
  }

  /** An orphaned timer fires and calls `startBurst` as well. */
  function StrayTimerFires(k: KeyState): (r: KeyState)
    requires k.strays > 0
    ensures r.strays == k.strays - 1
    ensures !k.bursting ==> r.starting == k.starting + 1
    ensures k.bursting ==> r.starting == k.starting
    ensures r.armed == k.armed && r.ticking == k.ticking && r.held == k.held
    ensures r.bursting == k.bursting && r.loops == k.loops
  {
    Called(k.(strays := k.strays - 1))
  }

  /**
   * The sampler after a suspended `startBurst` resumed: a created folder
   * resets the counters and schedules a loop whether or not one runs
   * already, a failed creation only drops the folder, and a refusal changes
   * nothing. On an idle sampler this is `StartBurst`.
   */
  function Reopened(s: Sampler, outcome: StartOutcome, folder: string): (r: Sampler)
    ensures !s.running ==> r == StartBurst(s, outcome, folder)
    ensures outcome == FolderCreated ==> r == StartBurst(s.(running := false), outcome, folder)
    ensures outcome != FolderCreated ==> r.running == s.running && r.count == s.count && r.frame == s.frame
  {
    var r := StartBurst(s.(running := false), outcome, folder);
    if outcome == FolderCreated then r else r.(running := s.running)
  }

  /**
   * A suspended `startBurst` resumes after its permission check and its
   * folder creation; `outcome` is how those ended, and the folder is named
   * from the clock read in between. A created folder adds a loop.
   */
  function StartResolved(k: KeyState, s: Sampler, outcome: StartOutcome, date: CalendarDate, time: ClockTime,
                         patientName: string): (r: (KeyState, Sampler))
    requires k.starting > 0 && ValidDate(date) && ValidTime(time)
    ensures r.0.starting == k.starting - 1 && r.0.held == k.held && r.0.armed == k.armed
    ensures outcome == FolderCreated ==> r.0.bursting && r.0.loops == k.loops + 1 && r.1.running
    ensures outcome != FolderCreated ==> r.0.bursting == k.bursting && r.0.loops == k.loops
    ensures r.1 == Reopened(s, outcome, BurstFolderName(date, time, patientName))
  {
    var k1 := k.(starting := k.starting - 1);
    var k2 := if outcome == FolderCreated then k1.(bursting := true, loops := k.loops + 1) else k1;
    (k2, Reopened(s, outcome, BurstFolderName(date, time, patientName)))
  }

  /**
   * Key up: the timer in the reference is cleared; a running burst is
   * stopped, which cancels the one loop whose handle is in the reference,
   * otherwise exactly one photo is taken and the sampler is left alone.
   * Suspended handlers, starts, orphaned timers and other loops are untouched.
   */
  function PhotoUp(k: KeyState, s: Sampler, id: string, now: ClockTime): (r: (KeyState, Sampler, Effect))
    requires ValidTime(now)
    ensures !r.0.held && !r.0.armed && !r.0.ticking
    ensures r.0.strays == k.strays && r.0.awaiting == k.awaiting && r.0.starting == k.starting
    ensures s.running ==> !r.1.running && !r.1.dirOpen && r.2.BurstEnded? && !r.0.bursting
    ensures s.running ==> r.0.loops == if k.loops > 0 then k.loops - 1 else 0
    ensures s.running ==> (r.2.session.Some? <==> s.count > 0)
    ensures !s.running ==> r.1 == s && r.2 == SinglePhoto && r.0.bursting == k.bursting && r.0.loops == k.loops
  {
    var released := k.(held := false, armed := false, ticking := false);
    if s.running then
      var stopped := StopBurst(s, id, now);
      (released.(bursting := false, loops := if k.loops > 0 then k.loops - 1 else 0), stopped.0,
       BurstEnded(stopped.1))
    else (released, s, SinglePhoto)
  }

  /**
   * An animation frame: every live loop runs once. The first one takes the
   * sample when it is due and the others then find it not due; each sets
   * the loop handle reference again.
   */
  function LoopsRun(k: KeyState, s: Sampler, speed: nat, ts: real): (r: Sampler)
    requires speed > 0
    ensures k.loops == 0 ==> r == s
    ensures k.loops > 0 ==> r.running
    ensures k.loops > 0 && ts - s.last >= Interval(speed) ==> r.frame == s.frame + 1 && r.last == ts
    ensures k.loops > 0 && ts - s.last < Interval(speed) ==> r == s.(running := true)
  {
    if k.loops == 0 then s else Tick(s.(running := true), speed, ts)
  }

  // ---------------------------------------------------------------------------
  // Events
  // ---------------------------------------------------------------------------

  /** Everything that can happen to the key handler and the burst it drives. */
  datatype KeyEvent =
    | Press(hasDirectory: bool)
    | Release(id: string, now: ClockTime)
    | PermissionChecked
    | HoldTimerFired
    | StrayTimerFired
    | StartSettled(outcome: StartOutcome, date: CalendarDate, time: ClockTime, patientName: string)
    | AnimationFrame(ts: real)
    | FrameEncoded(ok: bool)

  predicate KeyEnabled(k: KeyState, s: Sampler, e: KeyEvent) {
    match e
    case Press(_) => true
    case Release(_, now) => ValidTime(now)
    case PermissionChecked => k.awaiting > 0
    case HoldTimerFired => k.ticking
    case StrayTimerFired => k.strays > 0
    case StartSettled(_, date, time, _) => k.starting > 0 && ValidDate(date) && ValidTime(time)
    case AnimationFrame(_) => true
    case FrameEncoded(_) => s.pending > 0
  }

  /**
   * The handler as written: nothing that resumes looks at the key again.
   * A release clears the loop handle reference, but a loop it did not
   * cancel sets it again at the next animation frame.
   */
  function KeyStep(k: KeyState, s: Sampler, speed: nat, e: KeyEvent): (r: (KeyState, Sampler, Effect))
    requires speed > 0 && KeyEnabled(k, s, e)
    ensures e.Release? ==> !r.0.held && !r.1.running
    ensures e.Release? && s.running ==> r.0.loops == if k.loops > 0 then k.loops - 1 else 0
    ensures !e.Release? ==> r.2 == NoEffect
    ensures e.AnimationFrame? ==> r.1.running == (s.running || k.loops > 0)
    ensures !e.Release? && !e.StartSettled? && !e.AnimationFrame? ==> r.1.running == s.running
    ensures !e.StartSettled? && !e.Release? ==> r.0.loops == k.loops
  {
    match e
    case Press(hasDirectory) => (PhotoDown(k, hasDirectory), s, NoEffect)
    case Release(id, now) => PhotoUp(k, s, id, now)
    case PermissionChecked => (PermissionResolved(k), s, NoEffect)
    case HoldTimerFired => (TimerFires(k), s, NoEffect)
    case StrayTimerFired => (StrayTimerFires(k), s, NoEffect)
    case StartSettled(outcome, date, time, name) =>
      var started := StartResolved(k, s, outcome, date, time, name);
      (started.0, started.1, NoEffect)
    case AnimationFrame(ts) => (k, LoopsRun(k, s, speed, ts), NoEffect)
    case FrameEncoded(ok) => (k, CaptureSaved(s, ok), NoEffect)
  }

  /**
   * The burst is tied to the key: at most one loop lives, it lives exactly
   * while the loop handle is set and the burst is marked as running, and
   * only while the key is held.
   */
  predicate Tied(k: KeyState, s: Sampler) {
    k.loops <= 1 && (s.running <==> k.loops == 1) && (k.bursting <==> k.loops == 1) && (k.loops == 1 ==> k.held)
  }

  // ---------------------------------------------------------------------------
  // Properties of the handler as written
  // ---------------------------------------------------------------------------

  /** Once the timer reference is set, a further press changes nothing more. */
  lemma KeyRepeatIgnored(k: KeyState, hasDirectory: bool, again: bool)
    ensures var k1 := PhotoDown(k, hasDirectory);
      k1.armed ==> PhotoDown(k1, again) == k1
  {
  }

  /**
   * Press and release before the timer fires take exactly one photo and
   * leave the sampler alone. Without a folder nothing else is left
   * scheduled; with one, the permission check is still pending.
   */
  lemma ShortPressTakesOnePhoto(s: Sampler, hasDirectory: bool, id: string, now: ClockTime)
    requires ValidTime(now) && !s.running
    ensures var up := PhotoUp(PhotoDown(Idle, hasDirectory), s, id, now);
      up.1 == s && up.2 == SinglePhoto
      && (!hasDirectory ==> up.0 == Idle)
      && (hasDirectory ==> up.0 == Idle.(awaiting := 1))
  {
  }

  /** A press held through the permission check, if any, leaves the hold timer ticking. */
  lemma HeldPressArmsTimer(hasDirectory: bool)
    ensures var k0 := PhotoDown(Idle, hasDirectory);
      (if hasDirectory then PermissionResolved(k0) else k0) == Idle.(held := true, armed := true, ticking := true)
  {
  }

  /** Releasing the key on a burst with one loop and no saved frame ends it without a session. */
  lemma ReleaseEndsSoleLoop(k: KeyState, s: Sampler, id: string, now: ClockTime)
    requires k == Idle.(held := true, armed := true, bursting := true, loops := 1)
    requires ValidTime(now) && s.running && s.count == 0
    ensures var up := PhotoUp(k, s, id, now); up.0 == Idle && !up.1.running && up.2 == BurstEnded(None)
  {
  }

  /**
   * A press held through the permission check, the timer and the folder
   * creation runs a burst on one loop, and the release stops it; as no
   * frame was written meanwhile, no session is reported and nothing stays
   * scheduled.
   */
  lemma LongPressStartsAndStopsBurst(s: Sampler, hasDirectory: bool, date: CalendarDate, time: ClockTime,
                                     name: string, id: string, now: ClockTime)
    requires ValidDate(date) && ValidTime(time) && ValidTime(now) && !s.running
    ensures var k0 := PhotoDown(Idle, hasDirectory);
      var k1 := if hasDirectory then PermissionResolved(k0) else k0;
      var started := StartResolved(TimerFires(k1), s, FolderCreated, date, time, name);
      started.1.running && started.0.held && started.0.loops == 1
      && PhotoDown(started.0, hasDirectory) == started.0
      && var up := PhotoUp(started.0, started.1, id, now);
         up.0 == Idle && !up.1.running && up.2 == BurstEnded(None)
  {
    HeldPressArmsTimer(hasDirectory);
    var k1 := Idle.(held := true, armed := true, ticking := true);
    var fired := TimerFires(k1);
    assert fired == Idle.(held := true, armed := true, starting := 1);
    var started := StartResolved(fired, s, FolderCreated, date, time, name);
    CreatedStartResets(fired, s, date, time, name);
    assert started.0 == Idle.(held := true, armed := true, bursting := true, loops := 1);
    ReleaseEndsSoleLoop(started.0, started.1, id, now);
  }

  /** A long press whose burst could not start still takes a photo on release. */
  lemma FailedBurstFallsBackToPhoto(s: Sampler, outcome: StartOutcome, date: CalendarDate, time: ClockTime,
                                    name: string, id: string, now: ClockTime)
    requires ValidDate(date) && ValidTime(time) && ValidTime(now) && !s.running
    requires outcome != FolderCreated
    ensures var started := StartResolved(TimerFires(PhotoDown(Idle, false)), s, outcome, date, time, name);
      !started.1.running && started.0.loops == 0 && PhotoUp(started.0, started.1, id, now).2 == SinglePhoto
  {
  }

  /**
   * A release while the permission check is pending takes a photo, yet the
   * check then arms the timer, and the timer starts a burst with the key up.
   */
  lemma ReleaseDuringPermissionStartsBurst(s: Sampler, date: CalendarDate, time: ClockTime, name: string,
                                           id: string, now: ClockTime)
    requires ValidDate(date) && ValidTime(time) && ValidTime(now) && !s.running
    ensures var up := PhotoUp(PhotoDown(Idle, true), s, id, now);
      var started := StartResolved(TimerFires(PermissionResolved(up.0)), up.1, FolderCreated, date, time, name);
      up.2 == SinglePhoto && started.1.running && started.0.loops == 1 && !started.0.held
      && !Tied(started.0, started.1)
  {
  }

  /**
   * A release after the timer fired but before `startBurst` resumed takes
   * a photo, as no burst runs yet, and the burst then starts with the key up.
   */
  lemma ReleaseDuringStartStartsBurst(s: Sampler, date: CalendarDate, time: ClockTime, name: string,
                                      id: string, now: ClockTime)
    requires ValidDate(date) && ValidTime(time) && ValidTime(now) && !s.running
    ensures var up := PhotoUp(TimerFires(PhotoDown(Idle, false)), s, id, now);
      var started := StartResolved(up.0, up.1, FolderCreated, date, time, name);
      up.2 == SinglePhoto && started.1.running && !Tied(started.0, started.1)
  {
  }

  /** So one step of the handler as written can untie the burst from the key. */
  lemma KeyStepBreaksTied()
    ensures var k := Idle.(starting := 1);
      var e := StartSettled(FolderCreated, CalendarDate(2024, 1, 1), ClockTime(0, 0, 0), "");
      KeyEnabled(k, IdleSampler, e) && Tied(k, IdleSampler)
      && !Tied(KeyStep(k, IdleSampler, 1, e).0, KeyStep(k, IdleSampler, 1, e).1)
  {
  }

  /**
   * With a folder chosen: press, release, and press again while the first
   * permission check is pending. When both checks resolve, the first
   * timer is orphaned; when both timers fire before either start resumes,
   * both calls of `startBurst` pass the `isBursting` test.
   */
  lemma RepressQueuesTwoStarts(s: Sampler, id: string, now: ClockTime)
    requires ValidTime(now) && !s.running
    ensures var up := PhotoUp(PhotoDown(Idle, true), s, id, now);
      var k := StrayTimerFires(TimerFires(PermissionResolved(PermissionResolved(PhotoDown(up.0, true)))));
      up.2 == SinglePhoto && up.1 == s && k == Idle.(held := true, armed := true, starting := 2)
  {
    var up := PhotoUp(PhotoDown(Idle, true), s, id, now);
    assert up.0 == Idle.(awaiting := 1);
    var k0 := PhotoDown(up.0, true);
    assert k0 == Idle.(held := true, awaiting := 2);
    var k1 := PermissionResolved(k0);
    assert k1 == Idle.(held := true, armed := true, ticking := true, awaiting := 1);
    var k2 := PermissionResolved(k1);
    assert k2 == Idle.(held := true, armed := true, ticking := true, strays := 1);
  }

  /** A start that passed the test and creates its folder resets the burst, running or not. */
  lemma CreatedStartResets(k: KeyState, s: Sampler, date: CalendarDate, time: ClockTime, name: string)
    requires k.starting > 0 && ValidDate(date) && ValidTime(time)
    ensures var r := StartResolved(k, s, FolderCreated, date, time, name);
      r.0.loops == k.loops + 1 && r.0.bursting && r.0.held == k.held && r.0.starting == k.starting - 1
      && r.1.running && r.1.frame == 0 && r.1.last == 0.0 && r.1.count == 0
  {
    var folder := BurstFolderName(date, time, name);
    assert Reopened(s, FolderCreated, folder) == StartBurst(s.(running := false), FolderCreated, folder);
  }

  /**
   * Two starts that both passed the `isBursting` test run two loops. The
   * release cancels one; the other samples on at the next due frame, so
   * the next short press finds a burst running and takes no photo.
   */
  lemma DoubleStartOutlivesRelease(k: KeyState, s: Sampler, date: CalendarDate, time: ClockTime, name: string,
                                   speed: nat, ts: real, id: string, now: ClockTime, hasDirectory: bool)
    requires k == Idle.(held := true, armed := true, starting := 2)
    requires ValidDate(date) && ValidTime(time) && ValidTime(now) && speed > 0 && ts >= Interval(speed)
    ensures var first := StartResolved(k, s, FolderCreated, date, time, name);
      var second := StartResolved(first.0, first.1, FolderCreated, date, time, name);
      var up := PhotoUp(second.0, second.1, id, now);
      var frame := LoopsRun(up.0, up.1, speed, ts);
      second.0.loops == 2 && up.2.BurstEnded? && !up.0.held && up.0.loops == 1
      && frame.running && frame.frame == 1
      && PhotoUp(PhotoDown(up.0, hasDirectory), frame, id, now).2.BurstEnded?
  {
    var first := StartResolved(k, s, FolderCreated, date, time, name);
    CreatedStartResets(k, s, date, time, name);
    var second := StartResolved(first.0, first.1, FolderCreated, date, time, name);
    CreatedStartResets(first.0, first.1, date, time, name);
    assert second.0.loops == 2 && second.1.running && second.1.frame == 0 && second.1.last == 0.0;
    var up := PhotoUp(second.0, second.1, id, now);
    assert up.0.loops == 1 && !up.0.held && up.1.frame == 0 && up.1.last == 0.0;
    var frame := LoopsRun(up.0, up.1, speed, ts);
    assert frame.running && frame.frame == 1;
  }

  // ---------------------------------------------------------------------------
  // The handler with the key and the burst looked at again after each await
  // ---------------------------------------------------------------------------

  /** The key-down handler resumes and arms the timer only if the key is still held. */
  function GuardedPermissionResolved(k: KeyState): (r: KeyState)
    requires k.awaiting > 0
    ensures r.awaiting == k.awaiting - 1 && r.held == k.held && r.starting == k.starting
    ensures r.bursting == k.bursting && r.loops == k.loops
    ensures r.ticking <==> k.held || k.ticking
  {
    if k.held then PermissionResolved(k) else k.(awaiting := k.awaiting - 1)
  }

  /**
   * `startBurst` resumes and starts the burst only if the key is still held
   * and no burst has started meanwhile; otherwise it gives up.
   */
  function GuardedStartResolved(k: KeyState, s: Sampler, outcome: StartOutcome, date: CalendarDate,
                                time: ClockTime, patientName: string): (r: (KeyState, Sampler))
    requires k.starting > 0 && ValidDate(date) && ValidTime(time)
    ensures r.0.starting == k.starting - 1 && r.0.held == k.held
    ensures k.held && !k.bursting ==> r == StartResolved(k, s, outcome, date, time, patientName)
    ensures !(k.held && !k.bursting) ==> r.1 == s && r.0 == k.(starting := k.starting - 1)
  {
    if k.held && !k.bursting then StartResolved(k, s, outcome, date, time, patientName)
    else (k.(starting := k.starting - 1), s)
  }

  function GuardedStep(k: KeyState, s: Sampler, speed: nat, e: KeyEvent): (r: (KeyState, Sampler, Effect))
    requires speed > 0 && KeyEnabled(k, s, e)
    ensures r.0.loops > k.loops ==> e.StartSettled? && k.held && !k.bursting
    ensures !e.StartSettled? && !e.PermissionChecked? ==> r == KeyStep(k, s, speed, e)
  {
    match e
    case PermissionChecked => (GuardedPermissionResolved(k), s, NoEffect)
    case StartSettled(outcome, date, time, name) =>
      var started := GuardedStartResolved(k, s, outcome, date, time, name);
      (started.0, started.1, NoEffect)
    case _ => KeyStep(k, s, speed, e)
  }

  /** Each event of the guarded handler keeps the burst tied to the key. */
  lemma GuardedStepKeepsTied(k: KeyState, s: Sampler, speed: nat, e: KeyEvent)
    requires speed > 0 && KeyEnabled(k, s, e) && Tied(k, s)
    ensures var r := GuardedStep(k, s, speed, e); Tied(r.0, r.1)
  {
    var r := GuardedStep(k, s, speed, e);
    match e
    case Press(_) =>
      assert r.0.held && r.0.loops == k.loops && r.0.bursting == k.bursting && r.1 == s;
    case Release(_, _) =>
      assert !r.1.running && !r.0.bursting && r.0.loops == 0;
    case StartSettled(outcome, _, _, _) =>
      if k.held && !k.bursting {
        assert k.loops == 0 && !s.running;
      } else {
        assert r.0 == k.(starting := k.starting - 1) && r.1 == s;
      }
    case AnimationFrame(ts) =>
      assert r.0 == k && r.1.running == (s.running || k.loops > 0);
    case FrameEncoded(_) =>
      assert r.1.running == s.running && r.0 == k;
    case _ =>
      assert r.1 == s && r.0.held == k.held && r.0.loops == k.loops && r.0.bursting == k.bursting;
  }

  /** The guarded handler run over a sequence of events; events that cannot happen are skipped. */
  function GuardedRun(k: KeyState, s: Sampler, speed: nat, es: seq<KeyEvent>): (r: (KeyState, Sampler))
    requires speed > 0
    decreases |es|
  {
    if es == [] then (k, s)
    else if KeyEnabled(k, s, es[0]) then
      var r1 := GuardedStep(k, s, speed, es[0]);
      GuardedRun(r1.0, r1.1, speed, es[1..])
    else GuardedRun(k, s, speed, es[1..])
  }

  /**
   * Whatever the order of presses, releases, resumptions and frames, the
   * guarded handler runs at most one loop, and none once the key is up.
   */
  lemma {:induction false} GuardedRunKeepsTied(k: KeyState, s: Sampler, speed: nat, es: seq<KeyEvent>)
    requires speed > 0 && Tied(k, s)
    ensures var r := GuardedRun(k, s, speed, es);
      Tied(r.0, r.1) && r.0.loops <= 1 && (!r.0.held ==> r.0.loops == 0 && !r.1.running)
    decreases |es|
  {
    if es != [] {
      if KeyEnabled(k, s, es[0]) {
        var r1 := GuardedStep(k, s, speed, es[0]);
        GuardedStepKeepsTied(k, s, speed, es[0]);
        GuardedRunKeepsTied(r1.0, r1.1, speed, es[1..]);
      } else {
        GuardedRunKeepsTied(k, s, speed, es[1..]);
      }
    }
  }

  /** Replayed on the guarded handler, the release during the permission check starts nothing. */
  lemma GuardedReleaseDuringPermission(s: Sampler, date: CalendarDate, time: ClockTime, name: string,
                                       id: string, now: ClockTime)
    requires ValidDate(date) && ValidTime(time) && ValidTime(now) && !s.running
    ensures var up := PhotoUp(PhotoDown(Idle, true), s, id, now);
      var k := GuardedPermissionResolved(up.0);
      up.2 == SinglePhoto && !k.ticking && !k.armed && k.awaiting == 0 && k.starting == 0
  {
  }

  /** Replayed on the guarded handler, the release during the burst start leaves the sampler idle. */
  lemma GuardedReleaseDuringStart(s: Sampler, date: CalendarDate, time: ClockTime, name: string,
                                  id: string, now: ClockTime)
    requires ValidDate(date) && ValidTime(time) && ValidTime(now) && !s.running
    ensures var up := PhotoUp(TimerFires(PhotoDown(Idle, false)), s, id, now);
      var started := GuardedStartResolved(up.0, up.1, FolderCreated, date, time, name);
      up.2 == SinglePhoto && started.1 == s && started.0 == Idle
  {
  }

  /** Replayed on the guarded handler, the second of two passed starts gives up. */
  lemma GuardedSecondStartGivesUp(k: KeyState, s: Sampler, date: CalendarDate, time: ClockTime, name: string)
    requires ValidDate(date) && ValidTime(time) && k.starting >= 2 && k.held && !k.bursting
    ensures var first := GuardedStartResolved(k, s, FolderCreated, date, time, name);
      var second := GuardedStartResolved(first.0, first.1, FolderCreated, date, time, name);
      first.0.loops == k.loops + 1 && second.0.loops == first.0.loops && second.1 == first.1
  {
  }
}

=== FILE: report.dfy ===
/**
 * The report editor's bookkeeping: which images go in the photo grid and
 * which in the mosaic section, the AI enhancement and its undo, the mosaic
 * resize handles, saved equipment, new exam types, dictation and the grid
 * column class.
 */
module Report {
  import opened Wrappers
  import opened Text
  import opened Lists
  import opened App

  // ---------------------------------------------------------------------------
  // Regular and mosaic images
  // ---------------------------------------------------------------------------

  /** `!img.type || img.type === 'regular'` */
  predicate IsRegular(img: CapturedImage) { img.imageType != Some(MosaicImage) }

  /** `img.type === 'mosaic'` */
  predicate IsMosaic(img: CapturedImage) { img.imageType == Some(MosaicImage) }

  function RegularImages(images: seq<CapturedImage>): (r: seq<CapturedImage>)
    ensures images == [] ==> r == []
    ensures |images| == 1 ==> r == (if IsRegular(images[0]) then images else [])
    ensures forall k :: 0 <= k < |r| ==> IsRegular(r[k])
    ensures |r| <= |images|
    decreases |images|
  {
    if images == [] then []
    else (if IsRegular(images[0]) then [images[0]] else []) + RegularImages(images[1..])
  }

  function MosaicImages(images: seq<CapturedImage>): (r: seq<CapturedImage>)
    ensures images == [] ==> r == []
    ensures |images| == 1 ==> r == (if IsMosaic(images[0]) then images else [])
    ensures forall k :: 0 <= k < |r| ==> IsMosaic(r[k])
    ensures |r| <= |images|
    decreases |images|
  {
    if images == [] then []
    else (if IsMosaic(images[0]) then [images[0]] else []) + MosaicImages(images[1..])
  }

  /**
   * Filtering a split list is filtering each part: with the one-image case
   * above, the grid holds the regular images in capture order.
   */
  lemma {:induction false} RegularImagesDistributes(a: seq<CapturedImage>, b: seq<CapturedImage>)
    ensures RegularImages(a + b) == RegularImages(a) + RegularImages(b)
    decreases |a|
  {
    if a == [] {
      assert a + b == b;
    } else {
      assert (a + b)[0] == a[0];
      assert (a + b)[1..] == a[1..] + b;
      RegularImagesDistributes(a[1..], b);
    }
  }

  /** Likewise the mosaic section holds the mosaics in capture order. */
  lemma {:induction false} MosaicImagesDistributes(a: seq<CapturedImage>, b: seq<CapturedImage>)
    ensures MosaicImages(a + b) == MosaicImages(a) + MosaicImages(b)
    decreases |a|
  {
    if a == [] {
      assert a + b == b;
    } else {
      assert (a + b)[0] == a[0];
      assert (a + b)[1..] == a[1..] + b;
      MosaicImagesDistributes(a[1..], b);
    }
  }

  /**
   * The two sections split the images: every image is in exactly one of
   * them, as often as it is captured.
   */
  lemma {:induction false} PartitionExact(images: seq<CapturedImage>)
    ensures multiset(RegularImages(images)) + multiset(MosaicImages(images)) == multiset(images)
    decreases |images|
  {
    if images != [] {
      var x, rest := images[0], images[1..];
      PartitionExact(rest);
      var reg := if IsRegular(x) then [x] else [];
      var mos := if IsMosaic(x) then [x] else [];
      assert RegularImages(images) == reg + RegularImages(rest);
      assert MosaicImages(images) == mos + MosaicImages(rest);
      assert multiset(reg) + multiset(mos) == multiset([x]);
      assert images == [x] + rest;
      assert multiset(images) == multiset([x]) + multiset(rest);
    }
  }

  /** Together the two sections show exactly as many images as were captured. */
  lemma PartitionSizes(images: seq<CapturedImage>)
    ensures |RegularImages(images)| + |MosaicImages(images)| == |images|
  {
    PartitionExact(images);
    assert |multiset(RegularImages(images)) + multiset(MosaicImages(images))| == |multiset(images)|;
  }

  /** An image lands in the mosaic section exactly when it is not in the grid. */
  lemma {:induction false} PartitionMembership(images: seq<CapturedImage>, x: CapturedImage)
    requires x in images
    ensures x in MosaicImages(images) <==> x !in RegularImages(images)
  {
    PartitionExact(images);
    assert multiset(images)[x] > 0;
    if IsMosaic(x) {
      assert x !in RegularImages(images);
      assert multiset(MosaicImages(images))[x] > 0;
    } else {
      assert x !in MosaicImages(images);
      assert multiset(RegularImages(images))[x] > 0;
    }
  }

  /** A finished mosaic is shown in the mosaic section, never in the grid. */
  lemma MosaicCaptureShownAsMosaic(images: seq<CapturedImage>, id: string, url: string, timestamp: int)
    ensures var img := MosaicCapture(id, url, timestamp);
      img in MosaicImages(images + [img]) && img !in RegularImages(images + [img])
  {
    var img := MosaicCapture(id, url, timestamp);
    PartitionMembership(images + [img], img);
    MosaicImagesAppend(images, img);
  }

  lemma {:induction false} MosaicImagesAppend(images: seq<CapturedImage>, img: CapturedImage)
    requires IsMosaic(img)
    ensures MosaicImages(images + [img]) == MosaicImages(images) + [img]
    decreases |images|
  {
    if images == [] {
      assert images + [img] == [img];
    } else {
      assert (images + [img])[1..] == images[1..] + [img];
      MosaicImagesAppend(images[1..], img);
    }
  }

  // ---------------------------------------------------------------------------
  // AI enhancement and its undo
  // ---------------------------------------------------------------------------

  /** The first image with the id, as `find` returns it. */
  function FindImage(images: seq<CapturedImage>, id: string): (r: Option<CapturedImage>)
    ensures r.Some? <==> exists k :: 0 <= k < |images| && images[k].id == id
    ensures r.Some? ==> r.value in images && r.value.id == id
  {
    match FindIndex(images, id)
    case None => None
    case Some(k) => Some(images[k])
  }

  function SetUrls(url: string, originalUrl: Option<string>): ImageUpdate {
    NoChange.(url := Set(url), originalUrl := Set(originalUrl))
  }

  /**
   * An enhancement that returned `enhanced` (None when the service failed)
   * shows the new picture and remembers the one to go back to: the original
   * kept from an earlier enhancement, else the picture shown until now.
   */
  function Enhance(images: seq<CapturedImage>, id: string, currentUrl: string,
                   enhanced: Option<string>): (r: seq<CapturedImage>)
    ensures enhanced.None? ==> r == images
    ensures |r| == |images|
    ensures enhanced.Some? ==> forall k :: 0 <= k < |images| && images[k].id == id ==>
      r[k].url == enhanced.value && r[k].id == id
      && r[k].originalUrl == Some(match FindImage(images, id)
                                  case Some(img) => OrString(img.originalUrl, currentUrl)
                                  case None => currentUrl)
    ensures enhanced.Some? ==> forall k :: 0 <= k < |images| && images[k].id == id ==>
      r[k] == images[k].(url := r[k].url, originalUrl := r[k].originalUrl)
    ensures forall k :: 0 <= k < |images| && images[k].id != id ==> r[k] == images[k]
  {
    if enhanced.None? then images
    else
      var original := match FindImage(images, id)
                      case Some(img) => OrString(img.originalUrl, currentUrl)
                      case None => currentUrl;
      UpdateImage(images, id, SetUrls(enhanced.value, Some(original)))
  }

  /** Going back shows the remembered original and forgets it; without one nothing changes. */
  function UndoEnhancement(images: seq<CapturedImage>, id: string): (r: seq<CapturedImage>)
    ensures |r| == |images|
    ensures forall k :: 0 <= k < |images| && images[k].id != id ==> r[k] == images[k]
    ensures match FindImage(images, id)
      case Some(img) =>
        if img.originalUrl.Some? && img.originalUrl.value != "" then
          forall k :: 0 <= k < |images| && images[k].id == id ==>
            r[k] == images[k].(url := img.originalUrl.value, originalUrl := None)
        else r == images
      case None => r == images
  {
    match FindImage(images, id)
    case Some(img) =>
      if img.originalUrl.Some? && img.originalUrl.value != "" then
        UpdateImage(images, id, SetUrls(img.originalUrl.value, None))
      else images
    case None => images
  }

  predicate UniqueId(images: seq<CapturedImage>, k: nat) {
    k < |images| && forall j :: 0 <= j < |images| && j != k ==> images[j].id != images[k].id
  }

  /**
   * Enhancing an image never enhanced before, and then going back, restores
   * the list exactly.
   */
  lemma EnhanceThenUndo(images: seq<CapturedImage>, k: nat, enhanced: string)
    requires UniqueId(images, k)
    requires images[k].originalUrl.None? && images[k].url != ""
    ensures var id := images[k].id;
      UndoEnhancement(Enhance(images, id, images[k].url, Some(enhanced)), id) == images
  {
    var id := images[k].id;
    assert FindIndex(images, id) == Some(k);
    var e := Enhance(images, id, images[k].url, Some(enhanced));
    assert e[k].originalUrl == Some(images[k].url);
    assert FindIndex(e, id) == Some(k);
    var u := UndoEnhancement(e, id);
    assert u[k] == images[k];
  }

  /** Enhancing twice remembers the picture from before the first enhancement. */
  lemma EnhanceTwiceKeepsFirstOriginal(images: seq<CapturedImage>, k: nat, first: string, second: string)
    requires UniqueId(images, k)
    requires images[k].originalUrl.None? && images[k].url != ""
    ensures var id := images[k].id;
      var once := Enhance(images, id, images[k].url, Some(first));
      var twice := Enhance(once, id, once[k].url, Some(second));
      twice[k].originalUrl == Some(images[k].url) && twice[k].url == second
  {
    var id := images[k].id;
    assert FindIndex(images, id) == Some(k);
    var once := Enhance(images, id, images[k].url, Some(first));
    assert FindIndex(once, id) == Some(k);
  }

  // ---------------------------------------------------------------------------
  // Mosaic resize handles
  // ---------------------------------------------------------------------------

  /** The handle grabbed: right edge, bottom edge or corner. */
  datatype Handle = East | South | SouthEast

  predicate MovesWidth(h: Handle) { h != South }
  predicate MovesHeight(h: Handle) { h != East }

  /** A number field read with `||`: absent and 0 are falsy. */
  function OrReal(value: Option<real>, fallback: real): (r: real)
    ensures value.Some? && value.value != 0.0 ==> r == value.value
    ensures value.None? || value.value == 0.0 ==> r == fallback
  {
    if value.Some? && value.value != 0.0 then value.value else fallback
  }

  /**
   * The sizes at the start of a drag: the stored width (100 % by default),
   * the stored height, else the rendered height, else 300; and the page
   * width, 1000 when it cannot be measured (reported as 0).
   */
  datatype DragStart = DragStart(widthPct: real, heightPx: real, parentWidth: real)

  function StartDrag(img: CapturedImage, renderedHeight: nat, pageWidth: nat): (d: DragStart)
    ensures img.customWidth.Some? && img.customWidth.value != 0.0 ==> d.widthPct == img.customWidth.value
    ensures img.customWidth.None? || img.customWidth.value == 0.0 ==> d.widthPct == 100.0
    ensures img.customHeight.Some? && img.customHeight.value != 0.0 ==> d.heightPx == img.customHeight.value
    ensures (img.customHeight.None? || img.customHeight.value == 0.0) && renderedHeight != 0 ==>
      d.heightPx == renderedHeight as real
    ensures (img.customHeight.None? || img.customHeight.value == 0.0) && renderedHeight == 0 ==> d.heightPx == 300.0
    ensures pageWidth != 0 ==> d.parentWidth == pageWidth as real
    ensures pageWidth == 0 ==> d.parentWidth == 1000.0
  {
    DragStart(OrReal(img.customWidth, 100.0),
              OrReal(img.customHeight, if renderedHeight != 0 then renderedHeight as real else 300.0),
              if pageWidth != 0 then pageWidth as real else 1000.0)
  }

  function MaxReal(a: real, b: real): real { if a >= b then a else b }
  function MinReal(a: real, b: real): real { if a <= b then a else b }

  /** The width a drag aims at: the start width plus the movement as a share of the page. */
  function WidthTarget(d: DragStart, deltaX: real): real
    requires d.parentWidth > 0.0
  {
    d.widthPct + deltaX / d.parentWidth * 100.0
  }

  /**
   * Both sizes are written on every pointer move; the width follows the
   * horizontal movement as a share of the page, clamped to 10..100 %, and
   * the height follows the vertical movement, at least 50 pixels. Nothing
   * else of the image changes.
   */
  function ResizeMove(d: DragStart, h: Handle, deltaX: real, deltaY: real): (u: ImageUpdate)
    requires d.parentWidth > 0.0
    ensures u.customWidth.Set? && u.customWidth.value.Some?
    ensures u.customHeight.Set? && u.customHeight.value.Some?
    ensures u.id.Keep? && u.url.Keep? && u.timestamp.Keep? && u.imageType.Keep?
    ensures u.originalUrl.Keep? && u.isAiEnhanced.Keep?
    ensures !MovesWidth(h) ==> u.customWidth.value.value == d.widthPct
    ensures MovesWidth(h) && 10.0 <= WidthTarget(d, deltaX) <= 100.0 ==>
      u.customWidth.value.value == WidthTarget(d, deltaX)
    ensures MovesWidth(h) && WidthTarget(d, deltaX) < 10.0 ==> u.customWidth.value.value == 10.0
    ensures MovesWidth(h) && WidthTarget(d, deltaX) > 100.0 ==> u.customWidth.value.value == 100.0
    ensures !MovesHeight(h) ==> u.customHeight.value.value == d.heightPx
    ensures MovesHeight(h) && d.heightPx + deltaY >= 50.0 ==> u.customHeight.value.value == d.heightPx + deltaY
    ensures MovesHeight(h) && d.heightPx + deltaY < 50.0 ==> u.customHeight.value.value == 50.0
  {
    var w := if MovesWidth(h) then MinReal(100.0, MaxReal(10.0, WidthTarget(d, deltaX))) else d.widthPct;
    var ht := if MovesHeight(h) then MaxReal(50.0, d.heightPx + deltaY) else d.heightPx;
    NoChange.(customWidth := Set(Some(w)), customHeight := Set(Some(ht)))
  }

  /** Dragging further right or further down never makes the picture smaller. */
  lemma ResizeMonotone(d: DragStart, h: Handle, x1: real, x2: real, y1: real, y2: real)
    requires d.parentWidth > 0.0 && x1 <= x2 && y1 <= y2
    ensures ResizeMove(d, h, x1, y1).customWidth.value.value <= ResizeMove(d, h, x2, y2).customWidth.value.value
    ensures ResizeMove(d, h, x1, y1).customHeight.value.value <= ResizeMove(d, h, x2, y2).customHeight.value.value
  {
    assert x1 / d.parentWidth <= x2 / d.parentWidth;
  }

  /** The width stays a valid share of the page: absent, or 10..100 %. */
  predicate WidthInRange(img: CapturedImage) {
    img.customWidth.None? || 10.0 <= img.customWidth.value <= 100.0
  }

  /**
   * Any sequence of drags on any handles keeps the width in range, starting
   * from an image whose width is absent or in range (a new mosaic has 100 %).
   */
  lemma ResizeKeepsWidthInRange(img: CapturedImage, h: Handle, renderedHeight: nat, pageWidth: nat,
                                deltaX: real, deltaY: real)
    requires WidthInRange(img)
    ensures WidthInRange(Merge(img, ResizeMove(StartDrag(img, renderedHeight, pageWidth), h, deltaX, deltaY)))
  {
  }

  /**
   * The sizes depend only on where the pointer is now, not on the path it
   * took: moving back to the start point restores the start sizes within
   * the clamps.
   */
  lemma ResizeBackToStart(d: DragStart, h: Handle)
    requires d.parentWidth > 0.0 && 10.0 <= d.widthPct <= 100.0 && d.heightPx >= 50.0
    ensures var u := ResizeMove(d, h, 0.0, 0.0);
      u.customWidth.value == Some(d.widthPct) && u.customHeight.value == Some(d.heightPx)
  {
  }

  // ---------------------------------------------------------------------------
  // Saved equipment
  // ---------------------------------------------------------------------------

  /** The equipment text is saved, trimmed, unless blank or already saved. */
  function SaveEquipment(saved: Option<seq<string>>, equipment: string): (r: seq<string>)
    ensures var list := if saved.Some? then saved.value else [];
      |r| >= |list| && r[..|list|] == list && |r| <= |list| + 1
    ensures var list := if saved.Some? then saved.value else [];
      |r| == |list| + 1 <==> Trim(equipment) != [] && Trim(equipment) !in list
    ensures var list := if saved.Some? then saved.value else [];
      |r| == |list| + 1 ==> r[|list|] == Trim(equipment)
    ensures Trim(equipment) != [] ==> Trim(equipment) in r
    ensures saved.Some? && NoDuplicates(saved.value) ==> NoDuplicates(r)
  {
    var list := if saved.Some? then saved.value else [];
    AddTrimmedKeepsUnique(list, equipment);
    AddTrimmedIfNew(list, equipment)
  }

  /** A confirmed delete removes every copy; a cancelled one keeps the list. */
  function DeleteEquipment(saved: Option<seq<string>>, equipment: string, confirmed: bool): (r: Option<seq<string>>)
    ensures !confirmed ==> r.None?
    ensures confirmed ==> r.Some? && equipment !in r.value
    ensures confirmed && saved.Some? ==> forall x :: x in r.value ==> x in saved.value
    ensures confirmed ==> r.value == RemoveAll(if saved.Some? then saved.value else [], equipment)
    ensures confirmed ==> forall y :: y != equipment ==>
      multiset(r.value)[y] == multiset(if saved.Some? then saved.value else [])[y]
  {
    var list := if saved.Some? then saved.value else [];
    var kept := RemoveAll(list, equipment);
    assert forall y :: y != equipment ==> multiset(kept)[y] == multiset(list)[y] by {
      forall y | y != equipment
        ensures multiset(kept)[y] == multiset(list)[y]
      {
        RemoveAllCounts(list, equipment, y);
      }
    }
    if confirmed then Some(kept) else None
  }

  /** Saving equipment and deleting it again leaves the saved list as it was. */
  lemma SaveThenDeleteEquipment(saved: seq<string>, equipment: string)
    requires Trim(equipment) != [] && Trim(equipment) !in saved
    ensures DeleteEquipment(Some(SaveEquipment(Some(saved), equipment)), Trim(equipment), true) == Some(saved)
  {
    AddThenRemove(saved, equipment);
  }

  // ---------------------------------------------------------------------------
  // New exam types
  // ---------------------------------------------------------------------------

  /** The exam types shipped with the application. */
  const DefaultExamKeys: set<string> := {"nasofibro", "laringo", "nasossinusal", "degluticao", "veu"}

  /**
   * The lower-case keys under which a plain object answers a lookup with a
   * truthy inherited member.
   */
  const InheritedKeys: set<string> := {"constructor", "__proto__"}

  predicate IsKeyChar(c: char) { IsDigit(c) || IsLowerLetter(c) || c == '_' }

  function KeyChar(c: char): char {
    if IsDigit(c) || IsLowerLetter(c) then c else '_'
  }

  /** `title.toLowerCase().replace(/[^a-z0-9]/g, '_')` */
  function ExamKey(title: string): (r: string)
    ensures |r| == |title|
    ensures forall i :: 0 <= i < |r| ==> IsKeyChar(r[i])
    ensures forall i :: 0 <= i < |r| ==> IsAlnum(title[i]) ==> r[i] == LowerChar(title[i])
    ensures forall i :: 0 <= i < |r| ==> !IsAlnum(title[i]) ==> r[i] == '_'
  {
    var lower := ToLower(title);
    seq(|lower|, i requires 0 <= i < |lower| => KeyChar(lower[i]))
  }

  /** A key is its own key: the key of a saved exam never changes on re-derivation. */
  lemma ExamKeyIdempotent(title: string)
    ensures ExamKey(ExamKey(title)) == ExamKey(title)
  {
  }

  datatype ExamError = NameRequired | AlreadyExists

  /** As written: the lookup also finds the members every object inherits. */
  function SaveNewExamAsWritten(title: string, customKeys: set<string>): (r: Result<string, ExamError>)
    ensures Trim(title) == [] ==> r == Failure(NameRequired)
    ensures r.Success? ==> r.value == ExamKey(title) && r.value !in DefaultExamKeys + customKeys
  {
    if Trim(title) == [] then Failure(NameRequired)
    else
      var key := ExamKey(title);
      if key in DefaultExamKeys + customKeys + InheritedKeys then Failure(AlreadyExists) else Success(key)
  }

  /** Any title keyed to an inherited member is refused, whatever the custom exams are. */
  lemma InheritedKeyRefused(title: string, customKeys: set<string>)
    requires Trim(title) != [] && ExamKey(title) in InheritedKeys
    ensures SaveNewExamAsWritten(title, customKeys) == Failure(AlreadyExists)
  {
  }

  /** A title reading "Constructor" is refused as already existing although no such exam exists. */
  lemma ConstructorLabelRefused()
    ensures SaveNewExamAsWritten("Constructor", {}) == Failure(AlreadyExists)
    ensures ExamKey("Constructor") !in DefaultExamKeys
  {
    ConstructorNotBlank();
    ConstructorKey();
    InheritedKeyRefused("Constructor", {});
  }

  lemma ConstructorNotBlank()
    ensures Trim("Constructor") != []
  {
    var title := "Constructor";
    assert !IsJsSpace(title[0]);
  }

  /** "Constructor" keys to "constructor", an inherited member that names no shipped exam. */
  lemma ConstructorKey()
    ensures ExamKey("Constructor") == "constructor"
    ensures "constructor" in InheritedKeys - DefaultExamKeys
  {
    var title := "Constructor";
    assert forall i :: 0 <= i < |title| ==> IsAlnum(title[i]);
    ExamKeyOfLetters(title);
    assert ToLower(title) == "constructor";
  }

  /** A title made only of letters and digits keys to its lower-case form. */
  lemma ExamKeyOfLetters(title: string)
    requires forall i :: 0 <= i < |title| ==> IsAlnum(title[i])
    ensures ExamKey(title) == ToLower(title)
  {
  }

  /**
   * A new exam type needs a non-blank title whose key is not yet taken by a
   * shipped or a custom exam type.
   */
  function SaveNewExam(title: string, customKeys: set<string>): (r: Result<string, ExamError>)
    ensures Trim(title) == [] ==> r == Failure(NameRequired)
    ensures r.Success? ==> r.value == ExamKey(title)
  {
    if Trim(title) == [] then Failure(NameRequired)
    else
      var key := ExamKey(title);
      if key in DefaultExamKeys + customKeys then Failure(AlreadyExists) else Success(key)
  }

  /** Accepted exactly when the title is not blank and its key is free. */
  lemma SaveNewExamAccepts(title: string, customKeys: set<string>)
    ensures SaveNewExam(title, customKeys).Success?
      <==> Trim(title) != [] && ExamKey(title) !in DefaultExamKeys + customKeys
  {
  }

  /** Once saved, the same title (or any with the same key) is refused. */
  lemma SaveNewExamOnce(title: string, other: string, customKeys: set<string>)
    requires SaveNewExam(title, customKeys).Success?
    requires ExamKey(other) == ExamKey(title) && Trim(other) != []
    ensures SaveNewExam(other, customKeys + {ExamKey(title)}) == Failure(AlreadyExists)
  {
  }

  // ---------------------------------------------------------------------------
  // Dictation and the photo grid
  // ---------------------------------------------------------------------------

  /** A transcript is appended after one space, or replaces an empty field. */
  function AppendTranscript(current: string, transcript: string): (r: string)
    ensures current == [] ==> r == transcript
    ensures current != [] ==>
      (|r| == |current| + 1 + |transcript|
       && r[..|current|] == current && r[|current|] == ' ' && r[|current| + 1..] == transcript)
  {
    if current != [] then current + " " + transcript else transcript
  }

  /** The text before a dictation can be read back from the text after it. */
  lemma DictationRecoversText(current: string, transcript: string)
    requires current != []
    ensures var r := AppendTranscript(current, transcript);
      r[..|r| - |transcript| - 1] == current && r[|r| - |transcript|..] == transcript
  {
  }

  /** `grid-cols-<n>` for the configured column count (4 when unset), 4 outside 1..6. */
  function GridColsClass(columns: Option<int>): (r: string)
    ensures |r| == 11 && r[..10] == "grid-cols-"
    ensures var n := if columns.Some? && columns.value != 0 then columns.value else 4;
      if 1 <= n <= 6 then r[10] == DigitChar(n) else r[10] == '4'
  {
    var n := if columns.Some? && columns.value != 0 then columns.value else 4;
    "grid-cols-" + [DigitChar(if 1 <= n <= 6 then n else 4)]
  }

  /** Every column count the settings slider allows (2..6) shows as that many columns. */
  lemma GridColsFromSlider(columns: int)
    requires 2 <= columns <= 6
    ensures DigitValue(GridColsClass(Some(columns))[10]) == columns
  {
  }
}

=== FILE: settings.dfy ===
/**
 * Helpers of the settings dialog: making a signature's white background
 * transparent, the custom patient fields, the visible-field switches and
 * the capture of a shortcut key.
 */
module Settings {
  import opened Text
  import opened Lists

  // ---------------------------------------------------------------------------
  // Signature background
  // ---------------------------------------------------------------------------

  type Byte = b: int | 0 <= b < 256

  /** A channel value counts as white above this. */
  const WhiteLevel: int := 230

  /**
   * Position `j` of an RGBA buffer is the alpha byte of a pixel whose red,
   * green and blue all exceed the white level.
   */
  predicate IsWhiteAlpha(data: seq<Byte>, j: int) {
    0 <= j < |data| && j % 4 == 3
    && data[j - 3] > WhiteLevel && data[j - 2] > WhiteLevel && data[j - 1] > WhiteLevel
  }

  /** The buffer with every near-white pixel made fully transparent. */
  function WithoutWhite(data: seq<Byte>): (r: seq<Byte>)
    ensures |r| == |data|
  {
    seq(|data|, j requires 0 <= j < |data| => if IsWhiteAlpha(data, j) then 0 else data[j])
  }

  /**
   * The pixel loop, four bytes at a time over the buffer changed in place.
   * Only alpha bytes are written, so the colour bytes it reads are still
   * the original ones.
   */
  method RemoveWhiteBackground(data: seq<Byte>) returns (out: seq<Byte>)
    ensures |out| == |data|
    ensures forall j :: 0 <= j < |data| && IsWhiteAlpha(data, j) ==> out[j] == 0
    ensures forall j :: 0 <= j < |data| && !IsWhiteAlpha(data, j) ==> out[j] == data[j]
  {
    out := data;
    var i := 0;
    while i < |out|
      invariant 0 <= i && i % 4 == 0
      invariant |out| == |data|
      invariant forall j :: 0 <= j < |data| && j < i ==> out[j] == WithoutWhite(data)[j]
      invariant forall j :: i <= j < |data| ==> out[j] == data[j]
      decreases |out| - i
    {
      if i + 2 < |out| && out[i] > WhiteLevel && out[i + 1] > WhiteLevel && out[i + 2] > WhiteLevel {
        if i + 3 < |out| {
          out := out[i + 3 := 0];
        }
      }
      i := i + 4;
    }
  }

  /** Only alpha bytes change, and only to 0: colours are never touched. */
  lemma WithoutWhiteKeepsColours(data: seq<Byte>, j: nat)
    requires j < |data| && j % 4 != 3
    ensures WithoutWhite(data)[j] == data[j]
  {
  }

  /** Processing a processed signature again changes nothing. */
  lemma WithoutWhiteIdempotent(data: seq<Byte>)
    ensures WithoutWhite(WithoutWhite(data)) == WithoutWhite(data)
  {
    var once := WithoutWhite(data);
    forall j | 0 <= j < |data| ensures IsWhiteAlpha(once, j) <==> IsWhiteAlpha(data, j) {
      if j % 4 == 3 {
        assert once[j - 3] == data[j - 3] && once[j - 2] == data[j - 2] && once[j - 1] == data[j - 1];
      }
    }
  }

  // ---------------------------------------------------------------------------
  // Custom patient fields
  // ---------------------------------------------------------------------------

  /** The field list and the text still in the input box. */
  datatype FieldEditor = FieldEditor(fields: seq<string>, input: string)

  /**
   * A new field is added in trimmed form when it is not blank and not yet
   * listed, which also empties the input box; otherwise nothing changes.
   */
  function AddCustomField(e: FieldEditor): (r: FieldEditor)
    ensures var t := Trim(e.input);
      if t != [] && t !in e.fields then r.fields == e.fields + [t] && r.input == []
      else r == e
    ensures NoDuplicates(e.fields) ==> NoDuplicates(r.fields)
  {
    if Trim(e.input) != [] && Trim(e.input) !in e.fields then
      AddTrimmedKeepsUnique(e.fields, e.input);
      FieldEditor(AddTrimmedIfNew(e.fields, e.input), [])
    else e
  }

  /** Every field equal to the one removed goes; the others keep their order. */
  function RemoveCustomField(e: FieldEditor, field: string): (r: FieldEditor)
    ensures field !in r.fields && r.input == e.input
    ensures forall x :: x in r.fields ==> x in e.fields
    ensures NoDuplicates(e.fields) ==> NoDuplicates(r.fields)
  {
    var r := e.(fields := RemoveAll(e.fields, field));
    assert NoDuplicates(e.fields) ==> NoDuplicates(r.fields) by {
      if NoDuplicates(e.fields) {
        RemoveAllKeepsUnique(e.fields, field);
      }
    }
    r
  }

  /** Adding a new field and removing it restores the list. */
  lemma AddThenRemoveField(e: FieldEditor)
    requires Trim(e.input) != [] && Trim(e.input) !in e.fields
    ensures RemoveCustomField(AddCustomField(e), Trim(e.input)).fields == e.fields
  {
    AddThenRemove(e.fields, e.input);
  }

  /** Removing a field keeps every other field as often as it was listed. */
  lemma RemoveFieldCounts(e: FieldEditor, field: string, other: string)
    requires other != field
    ensures multiset(RemoveCustomField(e, field).fields)[other] == multiset(e.fields)[other]
  {
    RemoveAllCounts(e.fields, field, other);
  }

  // ---------------------------------------------------------------------------
  // Visible patient fields
  // ---------------------------------------------------------------------------

  datatype PatientField = Document | Profession | Insurance | Address | IndicatedBy | RequestedBy

  datatype VisibleFields = VisibleFields(document: bool, profession: bool, insurance: bool,
                                         address: bool, indicatedBy: bool, requestedBy: bool)

  function Shown(v: VisibleFields, f: PatientField): bool {
    match f
    case Document => v.document
    case Profession => v.profession
    case Insurance => v.insurance
    case Address => v.address
    case IndicatedBy => v.indicatedBy
    case RequestedBy => v.requestedBy
  }

  /** Flips exactly the one switch. */
  function ToggleField(v: VisibleFields, f: PatientField): (r: VisibleFields)
    ensures Shown(r, f) == !Shown(v, f)
    ensures forall g :: g != f ==> Shown(r, g) == Shown(v, g)
  {
    VisibleFields(v.document != (f == Document), v.profession != (f == Profession),
                  v.insurance != (f == Insurance), v.address != (f == Address),
                  v.indicatedBy != (f == IndicatedBy), v.requestedBy != (f == RequestedBy))
  }

  /** Two switches are independent: a record is determined by what it shows. */
  lemma ShownDetermines(a: VisibleFields, b: VisibleFields)
    requires forall f :: Shown(a, f) == Shown(b, f)
    ensures a == b
  {
    assert Shown(a, Document) == Shown(b, Document);
    assert Shown(a, Profession) == Shown(b, Profession);
    assert Shown(a, Insurance) == Shown(b, Insurance);
    assert Shown(a, Address) == Shown(b, Address);
    assert Shown(a, IndicatedBy) == Shown(b, IndicatedBy);
    assert Shown(a, RequestedBy) == Shown(b, RequestedBy);
  }

  /** Toggling twice restores the switches; toggles of different fields commute. */
  lemma ToggleFieldInvolution(v: VisibleFields, f: PatientField)
    ensures ToggleField(ToggleField(v, f), f) == v
  {
    ShownDetermines(ToggleField(ToggleField(v, f), f), v);
  }

  lemma ToggleFieldsCommute(v: VisibleFields, f: PatientField, g: PatientField)
    ensures ToggleField(ToggleField(v, f), g) == ToggleField(ToggleField(v, g), f)
  {
    var a, b := ToggleField(ToggleField(v, f), g), ToggleField(ToggleField(v, g), f);
    forall h ensures Shown(a, h) == Shown(b, h) {
      ShownAfterTwo(v, f, g, h);
      ShownAfterTwo(v, g, f, h);
    }
    ShownDetermines(a, b);
  }

  /** A switch shows after two toggles exactly when an odd number of them hit it. */
  lemma ShownAfterTwo(v: VisibleFields, f: PatientField, g: PatientField, h: PatientField)
    ensures Shown(ToggleField(ToggleField(v, f), g), h) == ((Shown(v, h) != (h == f)) != (h == g))
  {
    var w := ToggleField(v, f);
    assert Shown(w, h) == (Shown(v, h) != (h == f));
  }

  // ---------------------------------------------------------------------------
  // Shortcut capture
  // ---------------------------------------------------------------------------

  /** Key names that are never taken as a shortcut. */
  const ModifierKeys: set<string> := {"Control", "Shift", "Alt", "Meta", "Tab"}

  /**
   * The key pressed in a shortcut box replaces the stored shortcut, except
   * for modifier keys and Tab; single characters are stored upper-cased,
   * named keys verbatim.
   */
  function RecordKey(current: string, key: string): (r: string)
    ensures key in ModifierKeys ==> r == current
    ensures key !in ModifierKeys && |key| != 1 ==> r == key
    ensures key !in ModifierKeys && |key| == 1 ==> r == [UpperChar(key[0])]
  {
    if key in ModifierKeys then current
    else if |key| == 1 then ToUpper(key)
    else key
  }

  /**
   * A recorded shortcut reads back as itself: pressing the key it names
   * stores the same name again.
   */
  lemma RecordKeyStable(current: string, key: string)
    requires key !in ModifierKeys
    ensures var stored := RecordKey(current, key);
      stored !in ModifierKeys && RecordKey(current, stored) == stored
  {
    var stored := RecordKey(current, key);
    if |key| == 1 {
      assert |stored| == 1;
      assert stored !in ModifierKeys;
    }
  }

  /** Upper and lower case of a letter record the same shortcut. */
  lemma RecordKeyIgnoresCase(current: string, c: char)
    requires IsLowerLetter(c)
    ensures RecordKey(current, [c]) == RecordKey(current, [UpperChar(c)])
  {
    assert [c] !in ModifierKeys && [UpperChar(c)] !in ModifierKeys;
  }
}

=== FILE: text.dfy ===
/**
 * String helpers the application leans on: ASCII character classes, the
 * `/[^a-z0-9]/gi -> '_'` sanitiser, ECMAScript `trim`, `padStart`, decimal
 * rendering of counters, ASCII case mapping and scalar-value string order.
 * Strings are sequences of characters; one `char` is one Unicode scalar
 * value, so a character outside the Basic Multilingual Plane is one `char`
 * here where JavaScript sees two UTF-16 code units.
 */
module Text {

  // ---------------------------------------------------------------------------
  // Character classes
  // ---------------------------------------------------------------------------

  predicate IsDigit(c: char) { '0' <= c <= '9' }
  predicate IsLowerLetter(c: char) { 'a' <= c <= 'z' }
  predicate IsUpperLetter(c: char) { 'A' <= c <= 'Z' }

  /** The class `[a-z0-9]` under the `i` flag, that is `[A-Za-z0-9]`. */
  predicate IsAlnum(c: char) { IsDigit(c) || IsLowerLetter(c) || IsUpperLetter(c) }

  /** A character a sanitised name may contain. */
  predicate IsNameChar(c: char) { IsAlnum(c) || c == '_' }

  /** ECMAScript LineTerminator. */
  predicate IsLineTerminator(c: char) {
    c == '\n' || c == '\r' || c == '\U{2028}' || c == '\U{2029}'
  }

  /** ECMAScript WhiteSpace or LineTerminator: what `String.prototype.trim` removes. */
  predicate IsJsSpace(c: char) {
    || c == '\t' || c == '\U{000B}' || c == '\U{000C}' || c == ' ' || c == '\U{00A0}'
    || c == '\U{FEFF}' || c == '\U{1680}' || ('\U{2000}' <= c <= '\U{200A}')
    || c == '\U{202F}' || c == '\U{205F}' || c == '\U{3000}'
    || IsLineTerminator(c)
  }

  predicate AllNameChars(s: string) { forall i :: 0 <= i < |s| ==> IsNameChar(s[i]) }
  predicate AllDigits(s: string) { forall i :: 0 <= i < |s| ==> IsDigit(s[i]) }

  lemma AllDigitsConcat(a: string, b: string)
    ensures AllDigits(a + b) <==> AllDigits(a) && AllDigits(b)
  {
    if AllDigits(a + b) {
      forall i | 0 <= i < |a| ensures IsDigit(a[i]) { assert a[i] == (a + b)[i]; }
      forall i | 0 <= i < |b| ensures IsDigit(b[i]) { assert b[i] == (a + b)[|a| + i]; }
    }
    if AllDigits(a) && AllDigits(b) {
      forall i | 0 <= i < |a + b| ensures IsDigit((a + b)[i]) {
        if i >= |a| { assert (a + b)[i] == b[i - |a|]; } else { assert (a + b)[i] == a[i]; }
      }
    }
  }

  // ---------------------------------------------------------------------------
  // The sanitiser `s.replace(/[^a-z0-9]/gi, '_')`
  // ---------------------------------------------------------------------------

  /** Replaces every character outside `[A-Za-z0-9]` by an underscore. */
  function Sanitize(s: string): (r: string)
    ensures |r| == |s|
    ensures forall i :: 0 <= i < |s| && IsAlnum(s[i]) ==> r[i] == s[i]
    ensures forall i :: 0 <= i < |s| && !IsAlnum(s[i]) ==> r[i] == '_'
  {
    if s == [] then []
    else [if IsAlnum(s[0]) then s[0] else '_'] + Sanitize(s[1..])
  }

  /** A sanitised name is made of `[A-Za-z0-9_]` only. */
  lemma SanitizeOnlyNameChars(s: string)
    ensures AllNameChars(Sanitize(s))
  {
  }

  /** Sanitising twice changes nothing more. */
  lemma SanitizeIdempotent(s: string)
    ensures Sanitize(Sanitize(s)) == Sanitize(s)
  {
  }

  /** A string that is already made of `[A-Za-z0-9]` is left unchanged. */
  lemma SanitizeKeepsAlnum(s: string)
    requires forall i :: 0 <= i < |s| ==> IsAlnum(s[i])
    ensures Sanitize(s) == s
  {
  }

  // ---------------------------------------------------------------------------
  // `String.prototype.trim`
  // ---------------------------------------------------------------------------

  /** Drops leading white space. */
  function TrimStart(s: string): (r: string)
    ensures |r| <= |s| && r == s[|s| - |r|..]
    ensures r != [] ==> !IsJsSpace(r[0])
    ensures forall i :: 0 <= i < |s| - |r| ==> IsJsSpace(s[i])
  {
    if s == [] || !IsJsSpace(s[0]) then s
    else
      var t := s[1..];
      var r := TrimStart(t);
      assert t[|t| - |r|..] == s[|s| - |r|..];
      assert forall i :: 1 <= i < |s| - |r| ==> s[i] == t[i - 1];
      r
  }

  /** Drops trailing white space. */
  function TrimEnd(s: string): (r: string)
    ensures |r| <= |s| && r == s[..|r|]
    ensures r != [] ==> !IsJsSpace(r[|r| - 1])
    ensures forall i :: |r| <= i < |s| ==> IsJsSpace(s[i])
  {
    if s == [] || !IsJsSpace(s[|s| - 1]) then s else TrimEnd(s[..|s| - 1])
  }

  /** How many white-space characters `trim` cuts from the front of `s`. */
  function LeadingSpace(s: string): (n: nat)
    ensures n <= |s|
  {
    |s| - |TrimStart(s)|
  }

  /**
   * `s.trim()`: the infix of `s` left after cutting white space on both
   * sides; it neither starts nor ends with white space, and everything cut
   * away is white space.
   */
  function Trim(s: string): (r: string)
    ensures LeadingSpace(s) + |r| <= |s|
    ensures r == s[LeadingSpace(s)..LeadingSpace(s) + |r|]
    ensures forall i :: 0 <= i < LeadingSpace(s) ==> IsJsSpace(s[i])
    ensures forall i :: LeadingSpace(s) + |r| <= i < |s| ==> IsJsSpace(s[i])
    ensures r != [] ==> !IsJsSpace(r[0]) && !IsJsSpace(r[|r| - 1])
  {
    var t := TrimStart(s);
    var r := TrimEnd(t);
    TrimParts(s, t, r);
    r
  }

  lemma TrimParts(s: string, t: string, r: string)
    requires |t| <= |s| && t == s[|s| - |t|..]
    requires |r| <= |t| && r == t[..|r|]
    requires forall j :: |r| <= j < |t| ==> IsJsSpace(t[j])
    ensures r == s[|s| - |t|..|s| - |t| + |r|]
    ensures forall i :: |s| - |t| + |r| <= i < |s| ==> IsJsSpace(s[i])
  {
    var lo := |s| - |t|;
    SliceOfSuffix(s, lo, |r|);
    forall i | lo + |r| <= i < |s|
      ensures IsJsSpace(s[i])
    {
      assert IsJsSpace(t[i - lo]);
    }
  }

  lemma SliceOfSuffix(s: string, lo: nat, n: nat)
    requires lo + n <= |s|
    ensures s[lo..][..n] == s[lo..lo + n]
  {
  }

  /** A string made only of white space trims to the empty string, and back. */
  lemma TrimEmptyIff(s: string)
    ensures Trim(s) == [] <==> forall i :: 0 <= i < |s| ==> IsJsSpace(s[i])
  {
    if Trim(s) != [] {
      assert s[LeadingSpace(s)] == Trim(s)[0];
    }
  }

  /** Trimming is idempotent. */
  lemma TrimIdempotent(s: string)
    ensures Trim(Trim(s)) == Trim(s)
  {
    var t := Trim(s);
    if t != [] {
      assert TrimStart(t) == t;
      assert TrimEnd(t) == t;
    }
  }

  // ---------------------------------------------------------------------------
  // `padStart` and decimal rendering
  // ---------------------------------------------------------------------------

  function Repeat(c: char, n: nat): (r: string)
    ensures |r| == n && forall i :: 0 <= i < n ==> r[i] == c
  {
    if n == 0 then [] else [c] + Repeat(c, n - 1)
  }

  /** `s.padStart(width, c)` for a one-character pad string. */
  function PadStart(s: string, width: nat, c: char): (r: string)
    ensures |r| == if |s| >= width then |s| else width
    ensures r[|r| - |s|..] == s
    ensures forall i :: 0 <= i < |r| - |s| ==> r[i] == c
  {
    if |s| >= width then s else Repeat(c, width - |s|) + s
  }

  function DigitChar(d: nat): (c: char)
    requires d < 10
    ensures IsDigit(c)
  {
    (48 + d) as char
  }

  function DigitValue(c: char): (d: nat)
    requires IsDigit(c)
    ensures d < 10 && DigitChar(d) == c
  {
    (c as int - 48) as nat
  }

  /** `n.toString()` for a natural number. */
  function NatToDecimal(n: nat): (r: string)
    ensures 1 <= |r| && AllDigits(r)
    ensures r[0] == '0' <==> n == 0
    ensures n < 10 ==> |r| == 1
    ensures 10 <= n ==> |r| >= 2
    decreases n
  {
    if n < 10 then [DigitChar(n)] else NatToDecimal(n / 10) + [DigitChar(n % 10)]
  }

  /** The number a string of decimal digits denotes (leading zeros allowed). */
  function DecimalValue(s: string): nat
    requires AllDigits(s)
    decreases |s|
  {
    if s == [] then 0 else 10 * DecimalValue(s[..|s| - 1]) + DigitValue(s[|s| - 1])
  }

  /** Reading back the decimal rendering of `n` yields `n`. */
  lemma {:induction false} DecimalRoundTrip(n: nat)
    ensures DecimalValue(NatToDecimal(n)) == n
    decreases n
  {
    var r := NatToDecimal(n);
    if n >= 10 {
      assert r[..|r| - 1] == NatToDecimal(n / 10);
      DecimalRoundTrip(n / 10);
    }
  }

  /** Leading zeros do not change the value of a digit string. */
  lemma {:induction false} LeadingZerosIgnored(k: nat, s: string)
    requires AllDigits(s)
    ensures AllDigits(Repeat('0', k) + s)
    ensures DecimalValue(Repeat('0', k) + s) == DecimalValue(s)
    decreases |s|
  {
    var z := Repeat('0', k);
    if s == [] {
      assert z + s == z;
      ZerosValue(k);
    } else {
      var t := z + s;
      assert t[..|t| - 1] == z + s[..|s| - 1];
      LeadingZerosIgnored(k, s[..|s| - 1]);
    }
  }

  lemma {:induction false} ZerosValue(k: nat)
    ensures AllDigits(Repeat('0', k)) && DecimalValue(Repeat('0', k)) == 0
  {
    if k > 0 {
      var z := Repeat('0', k);
      assert z[..k - 1] == Repeat('0', k - 1);
      ZerosValue(k - 1);
    }
  }

  /** `String(n).padStart(width, '0')`. */
  function ZeroPad(n: nat, width: nat): (r: string)
    ensures AllDigits(r) && |r| >= width
  {
    PadStart(NatToDecimal(n), width, '0')
  }

  /** A zero-padded counter still reads back as the counter. */
  lemma ZeroPadRoundTrip(n: nat, width: nat)
    ensures DecimalValue(ZeroPad(n, width)) == n
  {
    var d := NatToDecimal(n);
    DecimalRoundTrip(n);
    if |d| < width {
      LeadingZerosIgnored(width - |d|, d);
    }
  }

  /** Zero padding of a number below `10^width` gives exactly `width` digits. */
  lemma ZeroPadWidth(n: nat, width: nat)
    requires 1 <= width
    ensures n < Pow10(width) ==> |ZeroPad(n, width)| == width
  {
    if n < Pow10(width) {
      DecimalLength(n, width);
    }
  }

  function Pow10(k: nat): (r: nat)
    ensures r >= 1
  {
    if k == 0 then 1 else 10 * Pow10(k - 1)
  }

  lemma SmallPowers()
    ensures Pow10(1) == 10 && Pow10(2) == 100 && Pow10(3) == 1000 && Pow10(4) == 10000
  {
    assert Pow10(1) == 10;
    assert Pow10(2) == 100;
    assert Pow10(3) == 1000;
  }

  /** Zero padding to two digits of a number below 100. */
  lemma ZeroPad2(n: nat)
    requires n < 100
    ensures |ZeroPad(n, 2)| == 2 && DecimalValue(ZeroPad(n, 2)) == n
  {
    SmallPowers();
    ZeroPadWidth(n, 2);
    ZeroPadRoundTrip(n, 2);
  }

  /** Zero padding to four digits of a number below 10000. */
  lemma ZeroPad4(n: nat)
    requires n < 10000
    ensures |ZeroPad(n, 4)| == 4 && DecimalValue(ZeroPad(n, 4)) == n
  {
    SmallPowers();
    ZeroPadWidth(n, 4);
    ZeroPadRoundTrip(n, 4);
  }

  lemma {:induction false} DecimalLength(n: nat, k: nat)
    requires 1 <= k && n < Pow10(k)
    ensures |NatToDecimal(n)| <= k
    decreases k
  {
    if n >= 10 {
      assert k >= 2;
      assert n / 10 < Pow10(k - 1);
      DecimalLength(n / 10, k - 1);
    }
  }

  // ---------------------------------------------------------------------------
  // ASCII case mapping
  // ---------------------------------------------------------------------------

  function LowerChar(c: char): char {
    if IsUpperLetter(c) then (c as int + 32) as char else c
  }

  function UpperChar(c: char): char {
    if IsLowerLetter(c) then (c as int - 32) as char else c
  }

  /**
   * `s.toLowerCase()` restricted to the ASCII letters: an upper-case letter
   * moves 32 code points up to its lower-case partner, every other character
   * is kept.
   */
  function ToLower(s: string): (r: string)
    ensures |r| == |s|
    ensures forall i :: 0 <= i < |s| && IsUpperLetter(s[i]) ==> r[i] as int == s[i] as int + 32
    ensures forall i :: 0 <= i < |s| && !IsUpperLetter(s[i]) ==> r[i] == s[i]
  {
    seq(|s|, i requires 0 <= i < |s| => LowerChar(s[i]))
  }

  /** `s.toUpperCase()` restricted to the ASCII letters, dual to `ToLower`. */
  function ToUpper(s: string): (r: string)
    ensures |r| == |s|
    ensures forall i :: 0 <= i < |s| && IsLowerLetter(s[i]) ==> r[i] as int == s[i] as int - 32
    ensures forall i :: 0 <= i < |s| && !IsLowerLetter(s[i]) ==> r[i] == s[i]
  {
    seq(|s|, i requires 0 <= i < |s| => UpperChar(s[i]))
  }

  /** Lower-casing leaves no upper-case ASCII letter behind. */
  lemma ToLowerHasNoUpper(s: string)
    ensures forall i :: 0 <= i < |ToLower(s)| ==> !IsUpperLetter(ToLower(s)[i])
  {
    var r := ToLower(s);
    forall i | 0 <= i < |r|
      ensures !IsUpperLetter(r[i])
    {
      assert r[i] == LowerChar(s[i]);
    }
  }

  /** Upper-casing leaves no lower-case ASCII letter behind. */
  lemma ToUpperHasNoLower(s: string)
    ensures forall i :: 0 <= i < |ToUpper(s)| ==> !IsLowerLetter(ToUpper(s)[i])
  {
    var r := ToUpper(s);
    forall i | 0 <= i < |r|
      ensures !IsLowerLetter(r[i])
    {
      assert r[i] == UpperChar(s[i]);
    }
  }

  /** Lower-casing forgets any earlier upper-casing: the two agree up to case. */
  lemma ToLowerAfterToUpper(s: string)
    ensures ToLower(ToUpper(s)) == ToLower(s)
  {
    var u := ToUpper(s);
    forall i | 0 <= i < |s|
      ensures ToLower(u)[i] == ToLower(s)[i]
    {
      assert u[i] == UpperChar(s[i]);
      assert ToLower(u)[i] == LowerChar(u[i]);
      assert ToLower(s)[i] == LowerChar(s[i]);
    }
  }

  /** Upper-casing forgets any earlier lower-casing. */
  lemma ToUpperAfterToLower(s: string)
    ensures ToUpper(ToLower(s)) == ToUpper(s)
  {
    var l := ToLower(s);
    forall i | 0 <= i < |s|
      ensures ToUpper(l)[i] == ToUpper(s)[i]
    {
      assert l[i] == LowerChar(s[i]);
      assert ToUpper(l)[i] == UpperChar(l[i]);
      assert ToUpper(s)[i] == UpperChar(s[i]);
    }
  }

  // ---------------------------------------------------------------------------
  // Scalar-value order of strings
  // ---------------------------------------------------------------------------

  /**
   * Lexicographic order of the characters, compared as Unicode scalar
   * values. JavaScript compares UTF-16 code units; the two orders agree on
   * strings inside the Basic Multilingual Plane, and so on every frame name.
   */
  predicate LexLe(a: string, b: string) {
    if a == [] then true
    else if b == [] then false
    else if a[0] != b[0] then a[0] < b[0]
    else LexLe(a[1..], b[1..])
  }

  lemma {:induction false} LexLeReflexive(a: string)
    ensures LexLe(a, a)
    decreases |a|
  {
    if a != [] {
      LexLeReflexive(a[1..]);
    }
  }

  lemma {:induction false} LexLeTotal(a: string, b: string)
    ensures LexLe(a, b) || LexLe(b, a)
    decreases |a|
  {
    if a != [] && b != [] && a[0] == b[0] {
      LexLeTotal(a[1..], b[1..]);
    }
  }

  lemma {:induction false} LexLeTransitive(a: string, b: string, c: string)
    requires LexLe(a, b) && LexLe(b, c)
    ensures LexLe(a, c)
    decreases |a|
  {
    if a != [] && b != [] && c != [] && a[0] == b[0] && b[0] == c[0] {
      LexLeTransitive(a[1..], b[1..], c[1..]);
    }
  }

  lemma {:induction false} LexLeAntisymmetric(a: string, b: string)
    requires LexLe(a, b) && LexLe(b, a)
    ensures a == b
    decreases |a|
  {
    if a != [] && b != [] {
      LexLeAntisymmetric(a[1..], b[1..]);
      assert a == [a[0]] + a[1..];
      assert b == [b[0]] + b[1..];
    }
  }

  /** Strings sharing a prefix compare like the rest after the prefix. */
  lemma {:induction false} LexLeCommonPrefix(p: string, a: string, b: string)
    ensures LexLe(p + a, p + b) == LexLe(a, b)
    decreases |p|
  {
    if p != [] {
      assert p + a != [] && p + b != [];
      assert (p + a)[0] == (p + b)[0];
      assert LexLe(p + a, p + b) == LexLe((p + a)[1..], (p + b)[1..]);
      assert (p + a)[1..] == p[1..] + a;
      assert (p + b)[1..] == p[1..] + b;
      LexLeCommonPrefix(p[1..], a, b);
    } else {
      assert p + a == a && p + b == b;
    }
  }
}

=== FILE: wrappers.dfy ===
/** Optional values and fallible results shared by every module of the model. */
module Wrappers {

  /** A value that may be absent: JavaScript `undefined`/`null` for one field. */
  datatype Option<+T> = None | Some(value: T)

  /** The outcome of an operation that can fail with a reason. */
  datatype Result<+T, +E> = Success(value: T) | Failure(error: E)
}

=== FILE: youtube.dfy ===
/**
 * Extraction of a YouTube video id from the report's video link, and the
 * text the report's QR code encodes.
 *
 * The link is matched against
 *   ^.*(youtu.be/|v/|u/\w/|embed/|watch?v=|&v=|shorts/|live/)([^#&?]*).*
 * (with `.` any character but a line terminator and `?` literal in
 * `watch?v=`). The greedy leading `.*` makes the match use the LAST marker
 * that starts before the first line terminator; the id is then the longest
 * run of characters other than '#', '&' and '?' after that marker, and it
 * counts only when it is exactly 11 characters long.
 */
module YouTube {
  import opened Wrappers
  import opened Text

  /** `s` holds `lit` at position `p`. */
  predicate HasAt(s: string, p: nat, lit: string) {
    p + |lit| <= |s| && s[p..p + |lit|] == lit
  }

  predicate IsWordChar(c: char) { IsAlnum(c) || c == '_' }

  /** `[^#&?]` */
  predicate IsIdChar(c: char) { c != '#' && c != '&' && c != '?' }

  /** The end of the marker that starts at `p`, if one does. */
  function MarkerEnd(s: string, p: nat): (r: Option<nat>)
    ensures r.Some? ==> p + 2 <= r.value <= |s|
  {
    if p + 9 <= |s| && s[p..p + 5] == "youtu" && !IsLineTerminator(s[p + 5]) && s[p + 6..p + 9] == "be/" then
      Some(p + 9)
    else if HasAt(s, p, "v/") then Some(p + 2)
    else if p + 4 <= |s| && s[p..p + 2] == "u/" && IsWordChar(s[p + 2]) && s[p + 3] == '/' then Some(p + 4)
    else if HasAt(s, p, "embed/") then Some(p + 6)
    else if HasAt(s, p, "watch?v=") then Some(p + 8)
    else if HasAt(s, p, "&v=") then Some(p + 3)
    else if HasAt(s, p, "shorts/") then Some(p + 7)
    else if HasAt(s, p, "live/") then Some(p + 5)
    else None
  }

  /** Where the leading `.*` must stop: the first line terminator, or the end. */
  function FirstLineBreak(s: string): (r: nat)
    ensures r <= |s|
    ensures forall i :: 0 <= i < r ==> !IsLineTerminator(s[i])
    ensures r < |s| ==> IsLineTerminator(s[r])
    decreases |s|
  {
    if s == [] || IsLineTerminator(s[0]) then 0
    else
      var r := FirstLineBreak(s[1..]);
      assert forall i :: 1 <= i < r + 1 ==> s[i] == s[1..][i - 1];
      r + 1
  }

  /** The last marker start at or before `p`. */
  function LastMarker(s: string, p: nat): (r: Option<nat>)
    requires p <= |s|
    ensures r.Some? ==> r.value <= p && MarkerEnd(s, r.value).Some?
    ensures r.Some? ==> forall q :: r.value < q <= p ==> MarkerEnd(s, q).None?
    ensures r.None? ==> forall q :: 0 <= q <= p ==> MarkerEnd(s, q).None?
  {
    if MarkerEnd(s, p).Some? then Some(p)
    else if p == 0 then None
    else LastMarker(s, p - 1)
  }

  /** `[^#&?]*` from position `q`, as long as possible. */
  function IdRun(s: string, q: nat): (r: string)
    requires q <= |s|
    ensures q + |r| <= |s| && r == s[q..q + |r|]
    ensures forall i :: 0 <= i < |r| ==> IsIdChar(r[i])
    ensures q + |r| < |s| ==> !IsIdChar(s[q + |r|])
    decreases |s| - q
  {
    if q == |s| || !IsIdChar(s[q]) then []
    else [s[q]] + IdRun(s, q + 1)
  }

  /** `getYouTubeId` */
  function VideoId(link: string): (r: Option<string>)
    ensures r.Some? ==> |r.value| == 11 && forall i :: 0 <= i < 11 ==> IsIdChar(r.value[i])
  {
    match LastMarker(link, FirstLineBreak(link))
    case None => None
    case Some(p) =>
      var run := IdRun(link, MarkerEnd(link, p).value);
      if |run| == 11 then Some(run) else None
  }

  const WatchPrefix: string := "https://www.youtube.com/watch?v="

  function WatchUrl(id: string): (r: string)
    ensures |r| == 32 + |id| && r[..32] == WatchPrefix && r[32..] == id
  {
    WatchPrefix + id
  }

  /** The QR code encodes the canonical watch address when an id is found, else the link as typed. */
  function QrData(link: string): (r: string)
    ensures VideoId(link).Some? ==> r == WatchUrl(VideoId(link).value)
    ensures VideoId(link).None? ==> r == link
  {
    match VideoId(link)
    case Some(id) => WatchUrl(id)
    case None => link
  }

  /** A QR code is shown exactly when the link is not empty. */
  lemma QrShownIffLink(link: string)
    ensures VideoId(link).Some? || link != [] <==> link != []
    ensures QrData(link) != [] <==> link != []
  {
    if link == [] {
      assert LastMarker(link, FirstLineBreak(link)) == None;
    }
  }

  /** The characters of real YouTube ids. */
  predicate IsYouTubeChar(c: char) { IsAlnum(c) || c == '_' || c == '-' }

  /** No marker starts where every following character is an id character. */
  lemma NoMarkerInIdChars(s: string, p: nat)
    requires p <= |s| && forall i :: p <= i < |s| ==> IsYouTubeChar(s[i])
    ensures MarkerEnd(s, p).None?
  {
    MarkerEndsInSeparator(s, p);
  }

  lemma HasAtLast(s: string, p: nat, lit: string)
    requires HasAt(s, p, lit) && |lit| > 0
    ensures s[p + |lit| - 1] == lit[|lit| - 1]
  {
    assert s[p..p + |lit|][|lit| - 1] == s[p + |lit| - 1];
  }

  /** Every marker ends in '/' or '='. */
  lemma MarkerEndsInSeparator(s: string, p: nat)
    ensures MarkerEnd(s, p).Some? ==> s[MarkerEnd(s, p).value - 1] in "/="
  {
    if p + 9 <= |s| && s[p..p + 5] == "youtu" && !IsLineTerminator(s[p + 5]) && s[p + 6..p + 9] == "be/" {
      HasAtLast(s, p + 6, "be/");
    } else if HasAt(s, p, "v/") {
      HasAtLast(s, p, "v/");
    } else if p + 4 <= |s| && s[p..p + 2] == "u/" && IsWordChar(s[p + 2]) && s[p + 3] == '/' {
    } else if HasAt(s, p, "embed/") {
      HasAtLast(s, p, "embed/");
    } else if HasAt(s, p, "watch?v=") {
      HasAtLast(s, p, "watch?v=");
    } else if HasAt(s, p, "&v=") {
      HasAtLast(s, p, "&v=");
    } else if HasAt(s, p, "shorts/") {
      HasAtLast(s, p, "shorts/");
    } else if HasAt(s, p, "live/") {
      HasAtLast(s, p, "live/");
    }
  }

  /** Between the `watch?v=` marker and the id no other marker starts. */
  lemma NoMarkerInsideWatchPrefix(id: string, p: nat)
    requires 24 < p < 32
    ensures MarkerEnd(WatchUrl(id), p).None?
  {
    var s := WatchUrl(id);
    MarkerStart(s, p);
    assert s[25] == 'a' && s[26] == 't' && s[27] == 'c' && s[28] == 'h';
    assert s[29] == '?' && s[30] == 'v' && s[31] == '=';
  }

  lemma HasAtFirst(s: string, p: nat, lit: string)
    requires HasAt(s, p, lit) && |lit| > 1
    ensures s[p] == lit[0] && s[p + 1] == lit[1]
  {
    assert s[p..p + |lit|][0] == s[p];
    assert s[p..p + |lit|][1] == s[p + 1];
  }

  /** What a marker starts with: only `v/` starts with 'v'. */
  lemma MarkerStart(s: string, p: nat)
    ensures MarkerEnd(s, p).Some? ==> s[p] in "yvuew&sl" && (s[p] == 'v' ==> s[p + 1] == '/')
  {
    if p + 9 <= |s| && s[p..p + 5] == "youtu" && !IsLineTerminator(s[p + 5]) && s[p + 6..p + 9] == "be/" {
      HasAtFirst(s, p, "youtu");
    } else if HasAt(s, p, "v/") {
      HasAtFirst(s, p, "v/");
    } else if p + 4 <= |s| && s[p..p + 2] == "u/" && IsWordChar(s[p + 2]) && s[p + 3] == '/' {
      HasAtFirst(s, p, "u/");
    } else if HasAt(s, p, "embed/") {
      HasAtFirst(s, p, "embed/");
    } else if HasAt(s, p, "watch?v=") {
      HasAtFirst(s, p, "watch?v=");
    } else if HasAt(s, p, "&v=") {
      HasAtFirst(s, p, "&v=");
    } else if HasAt(s, p, "shorts/") {
      HasAtFirst(s, p, "shorts/");
    } else if HasAt(s, p, "live/") {
      HasAtFirst(s, p, "live/");
    }
  }

  /** The watch prefix holds no line terminator, so the leading `.*` reaches past it. */
  lemma WatchUrlLineBreak(id: string)
    ensures FirstLineBreak(WatchUrl(id)) >= 32
    ensures (forall i :: 0 <= i < |id| ==> !IsLineTerminator(id[i])) ==> FirstLineBreak(WatchUrl(id)) == |WatchUrl(id)|
  {
    var s := WatchUrl(id);
    assert forall i :: 0 <= i < 32 ==> s[i] == WatchPrefix[i];
    assert forall i :: 0 <= i < 32 ==> !IsLineTerminator(WatchPrefix[i]);
    if forall i :: 0 <= i < |id| ==> !IsLineTerminator(id[i]) {
      assert forall i :: 32 <= i < |s| ==> s[i] == id[i - 32];
    }
  }

  lemma WatchMarker(id: string)
    ensures MarkerEnd(WatchUrl(id), 24) == Some(32)
  {
    var s := WatchUrl(id);
    assert s[24..32] == "watch?v=";
    assert s[24] == 'w';
  }

  /**
   * The id found in a canonical watch address, if any, is the one it was
   * built from.
   */
  lemma WatchUrlId(id: string)
    requires |id| == 11 && forall i :: 0 <= i < 11 ==> IsIdChar(id[i])
    ensures VideoId(WatchUrl(id)) == None || VideoId(WatchUrl(id)) == Some(id)
  {
    var s := WatchUrl(id);
    var stop := FirstLineBreak(s);
    WatchUrlLineBreak(id);
    WatchMarker(id);
    var m := LastMarker(s, stop);
    assert m.Some?;
    var p := m.value;
    if p > 24 {
      if p < 32 {
        NoMarkerInsideWatchPrefix(id, p);
      }
      assert |IdRun(s, MarkerEnd(s, p).value)| < 11;
    } else {
      assert p == 24;
      IdRunToEnd(s, 32);
      assert s[32..] == id;
    }
  }

  /** When every character from `q` on is an id character, the run takes all of them. */
  lemma {:induction false} IdRunToEnd(s: string, q: nat)
    requires q <= |s| && forall i :: q <= i < |s| ==> IsIdChar(s[i])
    ensures IdRun(s, q) == s[q..]
    decreases |s| - q
  {
    if q < |s| {
      IdRunToEnd(s, q + 1);
    }
  }

  /** The canonical watch address of a well-formed id yields that id. */
  lemma WatchUrlRoundTrip(id: string)
    requires |id| == 11 && forall i :: 0 <= i < 11 ==> IsYouTubeChar(id[i])
    ensures VideoId(WatchUrl(id)) == Some(id)
  {
    var s := WatchUrl(id);
    assert forall i :: 0 <= i < |id| ==> !IsLineTerminator(id[i]) by {
      forall i | 0 <= i < |id| ensures !IsLineTerminator(id[i]) {
        assert IsYouTubeChar(id[i]);
      }
    }
    WatchUrlLineBreak(id);
    assert forall i :: 32 <= i < |s| ==> s[i] == id[i - 32];
    forall q | 24 < q <= |s| ensures MarkerEnd(s, q).None? {
      if q < 32 {
        NoMarkerInsideWatchPrefix(id, q);
      } else {
        NoMarkerInIdChars(s, q);
      }
    }
    WatchMarker(id);
    assert LastMarker(s, |s|) == Some(24) by {
      LastMarkerSkips(s, |s|, 24);
    }
    IdRunToEnd(s, 32);
  }

  /** The search from `p` passes over positions without a marker down to `lo`. */
  lemma {:induction false} LastMarkerSkips(s: string, p: nat, lo: nat)
    requires lo <= p <= |s|
    requires forall q :: lo < q <= p ==> MarkerEnd(s, q).None?
    ensures LastMarker(s, p) == LastMarker(s, lo)
    decreases p
  {
    if p > lo {
      LastMarkerSkips(s, p - 1, lo);
    }
  }

  /** The QR text is stable: encoding what it encodes gives the same text. */
  lemma QrDataIdempotent(link: string)
    ensures QrData(QrData(link)) == QrData(link)
  {
    match VideoId(link)
    case None =>
    case Some(id) =>
      WatchUrlId(id);
  }
}
